=== FILE: README.md ===
# lenrmc nuclide core in Dafny

This project models the core of `lenrmc/nubase.py`. That module enumerates the nuclear
reactions open to a set of reactant nuclides, drawing on the NUBASE2012 table. The model
covers five parts:

- **Table decoding.** A fixed-width NUBASE line is sliced into its named columns, and a
  `Nuclide` is decoded from them. That step covers the label and excitation level, the mass
  and atomic numbers, the natural abundance and stability, the β-decay notes, the mass
  excess and the half-life. Whole tables load into a registry (`Nuclides`) with lookups by
  signature, by atomic number and by (mass number, atomic number).
- **Partitions.** `vectors3` lists ordered triples. `possible_daughters` turns two such
  lists into the distinct ways to share a mass number and a charge among one to three
  nuclei.
- **Reactions.** A `Reaction` has a Q-value and a stability flag. Its `notes` property
  appends a gamma photon to the daughters as a side effect.
- **Channels.** A `Combinations` object has:
  - a cache key;
  - the totals its daughters must share;
  - the daughters themselves: one isomer per nucleus of every partition, in
    `itertools.product` order;
  - the strict Q-value filter;
  - the cache of computed reactions.
- **Reactant specs.** `System._parse_spec` reads specs such as `"H+Pd"`, and
  `System.parse` reads comma-separated lists of them.

The modules follow that structure:

- `Results`, `Text`, `Numerals`, `Sorting` and `Products` model the parts of Python the core
  relies on: `Option`/errors, `strip`, slicing, `split`, `int`/`float`, the stable `sorted`,
  and `itertools.product`.
- `Tables` holds the module's constant tables.
- `Nuclides`, `Registry`, `Partitions`, `Reactions`, `Channels` and `Species` model the
  program itself.

Everything is a pure function. Python exceptions become `Err` values. The generator,
mutation and database effects are made explicit:

- `Notes` returns the notes together with the reaction as the property leaves it.
- `Channels.ReactionsOf` returns the reactions together with the cache afterwards.

Three facts about the code are easy to miss, and the model follows the code in each:

- `vectors3(n)` yields n(n+1)/2 triples, each with a first component of at least 1
  (`Partitions.Vectors3Length`, `Partitions.Vectors3Members`).
- `has_gamma` also holds for a reaction with no daughters, so such a reaction also gets a
  photon.
- Only a reaction with no daughters gets a second photon on a second reading of `notes`
  (`Reactions.PhotonOnce`).

The model does not follow the code in one place. `_outcomes` (lines 370-373) adds up the
reactants' numbers wrongly, as the Findings table records:

- It ignores counts: two deuterons and a proton give the totals (3, 2).
- It raises unless there are exactly two reactants.

The cache pipeline of the model (`Channels.Compute`, `Channels.ReactionsOf` and the lemmas
about them) uses the corrected count-weighted totals. The program's own behaviour on a miss
is modelled separately:

- `Channels.ComputeAsWritten` and `Channels.ReactionsAsWritten` model it.
- `Channels.AsWrittenAgrees` proves the two pipelines equal for two reactants counted once.
- `Channels.AsWrittenFails` states when the program raises instead.
- `Species.ParsedAsWritten` carries this over to parsed specs. For every combination
  `System.parse` builds, the two agree when the spec names two reactants. With any other
  number of reactants, a miss raises in the program.

## Model

| member | source | states |
|---|---|---|
| Text.Strip | lenrmc/nubase.py:131 | `str.strip()` leaves no whitespace at either end |
| Text.StripInfix | lenrmc/nubase.py:131 | what `str.strip()` keeps is an infix of the text, and only whitespace is cut away at both ends |
| Text.StripBlank | lenrmc/nubase.py:131-133 | a field is dropped exactly when its slice is all whitespace |
| Text.PySlice | lenrmc/nubase.py:131 | Python slicing with negative and out-of-range bounds clamped, as `line[a:b]` does |
| Text.Split | lenrmc/nubase.py:448 | `split(sep)` gives at least one piece and no piece holds the separator |
| Text.SplitAtSeparator | lenrmc/nubase.py:448 | every separator is a piece boundary: the pieces of `a + sep + b` are those of `a` then those of `b` |
| Text.JoinSplit | lenrmc/nubase.py:448 | joining the pieces of a split with the separator gives the text back |
| Text.SplitJoin | lenrmc/nubase.py:436 | splitting separator-free pieces joined by the separator gives the pieces back |
| Text.Words | lenrmc/nubase.py:166 | `split()` gives non-empty whitespace-free words |
| Text.WordsAtSpace | lenrmc/nubase.py:166 | every whitespace character separates words: the words of `a + c + b` are those of `a` then those of `b` |
| Text.WordsOfWord | lenrmc/nubase.py:166 | a maximal run of non-whitespace characters is exactly one word |
| Text.WordsKeepVisible | lenrmc/nubase.py:166 | splitting on whitespace loses exactly the whitespace |
| Text.WordsJoin | lenrmc/nubase.py:166 | splitting space-joined words gives the words back |
| Text.SqueezeIdempotent | lenrmc/nubase.py:166 | normalising the spin-and-parity whitespace a second time changes nothing |
| Text.FirstRun | lenrmc/nubase.py:81-85 | `first_match` of a one-class pattern is the leftmost maximal run of that class, `None` exactly when no character is in it |
| Numerals.ParseInt | lenrmc/nubase.py:142-143 | on ASCII digit texts `int()` succeeds exactly when the text is non-empty |
| Numerals.ParseIntDigits | lenrmc/nubase.py:143 | `int()` inverts the decimal rendering of every natural number |
| Numerals.ParseRendered | lenrmc/nubase.py:146 | `float()` reads a signed decimal rendering back as the number it spells |
| Numerals.ParseDigitsAsDecimal | lenrmc/nubase.py:163 | `float()` of an integer rendering is that integer |
| Sorting.Sort | lenrmc/nubase.py:269 | `sorted()` returns a permutation of its input |
| Sorting.SortStable | lenrmc/nubase.py:362 | `sorted(..., key=...)` is stable: for every `k`, the elements that tie with `k` come out in the order they went in |
| Sorting.SortSorted | lenrmc/nubase.py:269 | under a total preorder `sorted()` returns an ordered sequence |
| Sorting.SortPermutationInvariant | lenrmc/nubase.py:362 | sorting two permutations of each other gives one result when no two distinct elements tie |
| Sorting.PairLeqAntisymmetric | lenrmc/nubase.py:402-404 | two signatures that compare both ways are equal |
| Nuclides.ColumnIndex | lenrmc/nubase.py:90-105 | every field has a column, named by the field |
| Nuclides.LoadRow | lenrmc/nubase.py:126-135 | a field is in the row exactly when its slice is not blank, and its value is the stripped, non-empty slice |
| Nuclides.ColumnBounds | lenrmc/nubase.py:90-105 | each column starts where the previous one ends; the columns end at most at 110, and the last runs to the end of the line less one character |
| Nuclides.ColumnsTile | lenrmc/nubase.py:129-134 | on a full-width line the columns cover every character but the last, in order, without overlap |
| Nuclides.AbundanceText | lenrmc/nubase.py:145 | the `IS=` group is found exactly when the decay text has `IS=` followed by a digit or dot, and it is a non-empty run of those |
| Nuclides.AtomicNumberOf | lenrmc/nubase.py:142 | the atomic number is the value of the first digit run of its field; a missing field or a field with no digits is an error |
| Nuclides.MassNumberOf | lenrmc/nubase.py:143 | the mass number is `int()` of its field; a missing or non-numeric field is an error |
| Nuclides.AbundanceOf | lenrmc/nubase.py:144-146 | the abundance is 0 without an `IS=` entry; with one, it is the `float()` value of the matched text, or a `NotANumber` error exactly when that text does not parse; never negative |
| Nuclides.MassExcessOf | lenrmc/nubase.py:162-163 | the mass excess is the `float()` value of the first run of digits, dots and minus signs; a `NotANumber` error exactly when there is no such run or it does not parse |
| Nuclides.DecayNotes | lenrmc/nubase.py:120-123 | the notes hold the β⁻ note exactly when the decays mention `B-`, and likewise for `B+` |
| Nuclides.Assemble | lenrmc/nubase.py:147-166 | stability iff an `IS=` entry; the level is not "0" exactly when excited; ground states take the alternate label, isomers drop their last letter |
| Nuclides.FromRow | lenrmc/nubase.py:137-166 | `BadNubaseRow` exactly when the mass excess is missing, a missing label is an error, and a decoded nuclide is valid, carries the atomic number, mass number, abundance and mass excess its fields decode to, keeps the row's half-life fields and its whitespace-collapsed spin text, and has stability, notes and level as the row dictates |
| Nuclides.SignatureSpellsLabel | lenrmc/nubase.py:153-161 | without an alternate name the signature spells the table label: the label for a ground state, label less letter plus letter for an isomer |
| Nuclides.HalfLifeOf | lenrmc/nubase.py:176-178 | the half-life pairs the value and unit fields; a missing value is reported before a missing unit |
| Nuclides.HalfLifeOfRow | lenrmc/nubase.py:176-178 | the half-life of a decoded row is `HalfLife(row halfLife, row halfLifeUnit)`, and a missing `halfLife` field is the error when it is absent |
| Nuclides.Seconds | lenrmc/nubase.py:71-75 | only the unit "s" converts: the result is the `float()` value of the text, or `NotANumber` exactly when it does not parse; any other unit is an error naming it |
| Nuclides.SecondsOfRendered | lenrmc/nubase.py:71-75 | a half-life written as a decimal number of seconds converts to that number |
| Registry.Add | lenrmc/nubase.py:229-233 | one step of the registry loop: overwrite the signature entry, append to the two groups, and leave every other group alone |
| Registry.Build | lenrmc/nubase.py:223-233 | the registry keeps the nuclides in table order |
| Registry.Lookup | lenrmc/nubase.py:241-242 | `__getitem__` succeeds exactly when `get` finds the signature, and returns what `get` finds |
| Registry.AtomicNumberInOrder | lenrmc/nubase.py:235-236 | `atomic_number(z)` lists exactly the nuclides with atomic number z, in table order |
| Registry.IsomersInOrder | lenrmc/nubase.py:228-233 | `isomers[pair]` lists exactly the nuclides with those numbers, in table order |
| Registry.GetFindsLast | lenrmc/nubase.py:238-239 | `get` is `None` exactly when no nuclide has the signature, else the last nuclide of the table that has it |
| Registry.Collect | lenrmc/nubase.py:215-220 | loading succeeds exactly when every line decodes or lacks a mass excess; it keeps the decoded nuclides and stops at the first other error |
| Registry.LoadLines | lenrmc/nubase.py:211-221 | `Nuclides.load` succeeds exactly when no line fails for a reason other than a missing mass excess |
| Registry.DecodedAll | lenrmc/nubase.py:215-218 | a table whose lines all decode loads to exactly their nuclides, in order |
| Registry.LoadTable | lenrmc/nubase.py:211-221 | the loaded registry holds exactly the loaded nuclides |
| Partitions.Vectors3Members | lenrmc/nubase.py:245-249 | `vectors3(n)` yields exactly the triples summing to n whose first component is at least 1 |
| Partitions.Vectors3Length | lenrmc/nubase.py:245-249 | `vectors3(n)` yields n(n+1)/2 triples |
| Partitions.Vectors3Increasing | lenrmc/nubase.py:245-249 | the triples come in strictly increasing (last, middle) order, so none repeats |
| Partitions.Vectors3Example | lenrmc/nubase.py:245-249 | `vectors3(3)` is (3,0,0), (2,1,0), (1,2,0), (2,0,1), (1,1,1), (1,0,2) |
| Partitions.Combine | lenrmc/nubase.py:258-269 | pairing succeeds exactly when no mass is below its charge, and then keeps the pairs other than (0, 0) |
| Partitions.DedupKeeps | lenrmc/nubase.py:254-273 | the `seen` filter keeps exactly the unseen tuples, each once |
| Partitions.DedupSnoc | lenrmc/nubase.py:254-273 | the `seen` filter keeps first appearances in order: a later tuple is appended exactly when neither `seen` nor an earlier tuple holds it |
| Partitions.PossibleDaughtersMembers | lenrmc/nubase.py:252-273 | a tuple is yielded exactly when some mass triple and some charge triple combine to it |
| Partitions.PossibleDaughtersDistinct | lenrmc/nubase.py:270-272 | no tuple is yielded twice |
| Partitions.PossibleDaughtersSound | lenrmc/nubase.py:252-273 | every tuple is a sorted list of one to three pairs, none (0, 0), mass at least charge, summing to the totals |
| Partitions.PossibleDaughtersComplete | lenrmc/nubase.py:252-273 | with at least one unit of charge, every such split of the totals is yielded |
| Partitions.NoChargeNoDaughters | lenrmc/nubase.py:245-256 | with no charge there are no charge triples and so no daughters |
| Partitions.PossibleDaughtersExample | lenrmc/nubase.py:252-273 | the daughters of (2, 1) are ((2, 1)) and ((1, 0), (1, 1)), in that order |
| Partitions.PossibleDaughtersFirst | lenrmc/nubase.py:252-273 | with 1 <= charge <= mass, the first tuple yielded is the single daughter carrying the whole totals |
| Reactions.MassExcessConcat | lenrmc/nubase.py:340-341 | the counted mass excess of a side adds up over its parts |
| Reactions.QValueAntisymmetric | lenrmc/nubase.py:339-342 | running a reaction backwards negates its Q-value |
| Reactions.QValueAdditive | lenrmc/nubase.py:339-342 | Q-values add when two reactions run side by side |
| Reactions.MassExcessScales | lenrmc/nubase.py:340-341 | multiplying every count by k multiplies the mass excess by k |
| Reactions.QValueOfNothing | lenrmc/nubase.py:339-342 | a reaction that gives back its reactants has Q-value 0 |
| Reactions.Make | lenrmc/nubase.py:302-331 | a reaction's Q-value is the reactants' mass excess less the daughters', and it is stable iff every daughter is |
| Reactions.Load | lenrmc/nubase.py:289-294 | loading succeeds exactly when every signature is in the table; both sides keep their counts and the looked-up nuclides, and the reaction is built from them as `Make` builds it |
| Reactions.Resolve | lenrmc/nubase.py:292-293 | each counted signature resolves to the table's nuclide, or the first unknown one is an error |
| Reactions.Scan | lenrmc/nubase.py:311-317 | a label note is earned iff a daughter has that label, and `n-transfer` iff a daughter is a reactant plus a neutron |
| Reactions.Carried | lenrmc/nubase.py:323-324 | a note is carried iff some daughter carries it |
| Reactions.Notes | lenrmc/nubase.py:308-325 | the property appends a photon exactly when `has_gamma` holds and changes nothing else; stability and Q-value are not recomputed |
| Reactions.NotesContents | lenrmc/nubase.py:308-325 | "stable" iff stable, ɣ iff at most one single-count daughter entry, `n-transfer`, α, n and t iff earned, β notes iff carried |
| Reactions.NotesWithin | lenrmc/nubase.py:296-325 | notes are drawn from the eight notes the code knows |
| Reactions.PhotonOnce | lenrmc/nubase.py:320-337 | a second reading appends another photon exactly when the reaction had no daughters |
| Reactions.PhotonSettles | lenrmc/nubase.py:320-337 | after two readings the daughters no longer change |
| Reactions.ScanPhoton | lenrmc/nubase.py:311-322 | the appended photon earns no label note and no neutron-transfer note |
| Reactions.CarriedPhoton | lenrmc/nubase.py:320-324 | the appended photon adds exactly the ɣ note to the carried notes |
| Reactions.PhotonEarnsNothing | lenrmc/nubase.py:311-322 | the photon changes neither the label notes nor the neutron-transfer note |
| Reactions.NotesRepeat | lenrmc/nubase.py:308-325 | reading the notes a second time gives the same notes as the first |
| Products.ProductLength | lenrmc/nubase.py:382 | `itertools.product` yields one tuple per way of choosing |
| Products.ProductMembers | lenrmc/nubase.py:382 | a tuple is yielded exactly when it picks one element from each list, in order |
| Products.PrependAt | lenrmc/nubase.py:382 | `product` runs through the first list slowest: row i, column j is the i-th head followed by the j-th tail |
| Products.ProductAt | lenrmc/nubase.py:382 | `itertools.product` yields the choices in mixed-radix order, the last list fastest: the tuple at a choice's rank is what that choice picks |
| Products.ProductOfEmpty | lenrmc/nubase.py:380-382 | an empty list leaves nothing to choose |
| Channels.ParentsSort | lenrmc/nubase.py:362 | sorting reactants by signature and then taking (count, signature) is sorting the parents |
| Channels.Key | lenrmc/nubase.py:361-368 | the key holds the lower bound and a signature-ordered permutation of the reactants' (count, signature) parents |
| Channels.KeyIgnoresOrder | lenrmc/nubase.py:361-368 | reactants listed in another order give the same key unless one signature occurs with two counts |
| Channels.KeyKeepsTies | lenrmc/nubase.py:362 | an instance of the stable sort: one nuclide listed with two counts gives a key per order |
| Channels.TotalsAdditive | lenrmc/nubase.py:370-373 | the reactant totals add over the reactants, and a reactant counted k times contributes k times its numbers |
| Channels.TotalsAsWrittenCases | lenrmc/nubase.py:371-372 | `_outcomes` computes totals only for exactly two reactants with one counted once, and gets the sum of their numbers, ignoring counts |
| Channels.TotalsAsWrittenAgrees | lenrmc/nubase.py:370-373 | for two reactants counted once `_outcomes` computes the true totals |
| Channels.TotalsAsWrittenIgnoresCounts | lenrmc/nubase.py:371-372 | two deuterons and a proton give totals (3, 2) as written against (5, 3) held |
| Channels.DaughtersOfMembers | lenrmc/nubase.py:375-382 | skipping an outcome with an empty isomer list loses nothing: the daughters are the picks of one isomer per pair of some outcome |
| Channels.DaughtersOfConcat | lenrmc/nubase.py:375-382 | the daughters come outcome by outcome, in the order of the outcomes |
| Channels.DaughtersMembers | lenrmc/nubase.py:375-382 | a tuple of daughters is yielded exactly when it picks an isomer for each pair of a possible outcome |
| Channels.DaughtersSound | lenrmc/nubase.py:375-382 | every daughter tuple is one to three table nuclides whose numbers split the totals |
| Channels.DaughtersComplete | lenrmc/nubase.py:375-382 | every tuple of table nuclides whose numbers split charged totals is yielded |
| Channels.GenerateConcat | lenrmc/nubase.py:384-396 | the reactions come in the order of their daughter tuples |
| Channels.GenerateMembers | lenrmc/nubase.py:389-396 | a reaction is kept exactly when it is built from some daughter tuple and clears the bound |
| Channels.ComputeSound | lenrmc/nubase.py:384-399 | computed reactions keep the reactants, clear the bound strictly and conserve mass and charge, with one to three single table daughters |
| Channels.ComputeComplete | lenrmc/nubase.py:384-399 | every splitting tuple of table nuclides whose reaction clears the bound is computed |
| Channels.YieldWithPhoton | lenrmc/nubase.py:276-284 | the photon the notes append carries off neither mass nor charge |
| Channels.Store | lenrmc/nubase.py:422-426 | storing appends rows under the key, leaves other keys alone, and storing none leaves the cache as it was |
| Channels.ReactionsOf | lenrmc/nubase.py:384-420 | a hit returns the cached rows and leaves the cache; a miss computes, and afterwards the cache holds exactly what was returned under the key |
| Channels.ReactionsRepeat | lenrmc/nubase.py:384-397 | asking again returns the same reactions and leaves the cache alone |
| Channels.ReactionsSound | lenrmc/nubase.py:384-426 | `reactions` keeps every cached reaction conserving and within its key's bound, and returns such reactions |
| Channels.ComputeAsWritten | lenrmc/nubase.py:370-396 | a miss as written raises exactly when `_outcomes` cannot form two totals |
| Channels.ReactionsAsWritten | lenrmc/nubase.py:384-397 | as written, a hit returns the cached rows; a miss raises exactly when the totals cannot be formed, storing nothing, and otherwise caches exactly what it returns |
| Channels.AsWrittenAgrees | lenrmc/nubase.py:370-373 | for two reactants counted once the program's `reactions` and the model's give the same reactions and cache |
| Channels.AsWrittenFails | lenrmc/nubase.py:371-372 | a miss raises exactly when the reactants are not two, with one counted once and neither counted zero |
| Channels.StoreKeepsSound | lenrmc/nubase.py:422-426 | storing sound reactions keeps the cache sound |
| Species.Names | lenrmc/nubase.py:448 | the i-th name is the stripped i-th `+`-separated piece |
| Species.StableOnes | lenrmc/nubase.py:455 | exactly the stable nuclides of the list, each counted once |
| Species.Alternatives | lenrmc/nubase.py:449-455 | a name with a ground state gives that state once; otherwise an element symbol gives its stable isotopes, and anything else is `UnknownElement` |
| Species.AllAlternatives | lenrmc/nubase.py:448-455 | every name has alternatives, or the first name without any is the error |
| Species.ParseNamesErrors | lenrmc/nubase.py:444-456 | a spec is read iff each name is a ground state or an element symbol, else the first other name is reported |
| Species.ParseNamesMembers | lenrmc/nubase.py:456 | each reactant list takes one alternative per name, and every such choice is given |
| Species.ElementAlternatives | lenrmc/nubase.py:453-455 | an element name gives exactly the stable table nuclides with its atomic number, each counted once |
| Species.Specs | lenrmc/nubase.py:436 | the specs of a comma-separated list are non-empty and stripped |
| Species.NonBlank | lenrmc/nubase.py:436 | `filter(None, …)` keeps exactly the non-empty stripped pieces |
| Species.SpecsMembers | lenrmc/nubase.py:436 | the specs are exactly the stripped comma-separated pieces that are not blank |
| Species.SpecsAtComma | lenrmc/nubase.py:436 | the specs of `a,b` are those of `a` then those of `b`, in order and with repeats kept |
| Species.CombinationsOf | lenrmc/nubase.py:437-441 | parsing succeeds iff every spec does, and otherwise fails with the first failing spec's error |
| Species.CombinationsMembers | lenrmc/nubase.py:437-441 | the combinations are exactly each spec's reactant lists with the shared bound |
| Species.ParsedSingly | lenrmc/nubase.py:449-455 | every reactant a spec names is counted once |
| Species.ParsedAsWritten | lenrmc/nubase.py:434-456 | for parsed two-name specs the program's `reactions` is the model's; for any other number of names a miss raises |

## Left out

- The SQLite connection, the directory it lives in, pickling and the SHA-1 digest are left
  out (`make_connection`, `connection`, `_cache_key` lines 366-367). The cache is a map from
  the structured key to the stored reactions. Two different keys are assumed never to
  collide.
- `Channels.ReactionsOf` models `reactions()` consumed to the end. A caller that stops early
  caches nothing, and that is not modelled.
- `Channels.ReactionsOf` caches the reactions as generated. A consumer can read
  `r.notes` before the results are pickled, which pickles the appended photon with them.
  That is not modelled.
- `Channels.Combinations` takes the lower bound as an already converted `real`. The key
  in the source stores the raw keyword value (`kwargs.get('lower_bound')`), so "1" and "1.0"
  give different keys for the same bound. The model does not distinguish them.
- `Nuclides.db`, `Combinations.load`, `Combinations.__repr__`, `Nuclide.__repr__`,
  `Nuclide.json`, `Nuclide.__iter__` and `HalfLife.__str__` are presentation or process-wide
  caching, so they are not modelled. `Nuclides.load` reads a file, so the model takes the
  lines as input.
- `Numerals.ParseInt`: `int()` is modelled over ASCII digits only. Python also accepts a
  leading sign, underscores between digits and Unicode decimal digits ("+3", "-3", "1_0"),
  which the model reports as errors.
- `Nuclides.MassNumberOf`: reads the mass-number field with `int()` directly, with no
  regular expression in between. Such signed, underscored or non-ASCII fields are
  errors in the model, and so is a negative mass number, which the model's `nat` cannot hold.
- `Nuclides.AtomicNumberOf`: the digit run is modelled over ASCII digits. Python 3's `\d`
  also matches other Unicode decimal digits.
- `Nuclides.FromRow` and `Nuclides.Seconds`: `float()` is modelled over ASCII texts of
  digits, one dot and an optional leading sign. Python also reads exponents ("1e3"),
  `inf`, `nan` and underscores, which the model reports as errors. The mass-excess and
  abundance fields are first matched by regular expressions over digits (ASCII digits in the
  model), dots and a minus,
  so only the half-life value passed to `Nuclides.Seconds` can carry such a text.
- `Reactions.MassExcess`, `Reactions.QValue` and `Channels.Allowed`: mass excesses,
  Q-values and the lower bound are exact `real`s, where the source uses Python floats. The
  sums are not rounded, so `QValueAdditive` and `MassExcessScales` hold exactly here but
  only up to rounding in the source. A Q-value that rounds onto the bound can pass the
  strict `q_value_kev > lower_bound` test differently.
- `Channels.Compute`, `Channels.ReactionsOf`, `Channels.ComputeSound`,
  `Channels.ComputeComplete` and `Channels.ReactionsSound`: a miss uses the corrected
  count-weighted totals, not the as-written `_outcomes`. They describe the program only
  where `Channels.AsWrittenAgrees` applies: two reactants counted once, as every two-name
  spec gives (`Species.ParsedAsWritten`). With any other reactants the program raises on a
  miss, or ignores counts, as `Channels.ReactionsAsWritten` models.
- `Nuclides.FromRow` requires non-empty row values. `LoadRow` only produces such rows.
- `Reactions.Notes` requires its daughters to be decoded nuclides (`Valid`), as every
  nuclide from the table is. Without that, a hand-made nuclide could carry any note.
- `Partitions.PossibleDaughtersExample` works out the daughters of (2, 1) only. The counts
  the repository's tests expect for larger totals are not proved: 19 daughter sets for
  (6, 3) and 42 for `p+7Li`, that is (8, 4). Each is a long enumeration the verifier would
  have to unfold. That every daughter set sums to its totals and holds no repeats is proved
  for all totals, and so is the tests' first outcome, the single daughter ((8, 4),), by
  `Partitions.PossibleDaughtersFirst`.
- `System.reactions` and `System.__init__` only chain the combinations' reactions, so they
  are not modelled. The decay-kinetics and command-line modules are outside this core.

## Findings

| source | as written | input that shows it | evidently intended | confidence | as-written member | corrected member |
|---|---|---|---|---|---|---|
| lenrmc/nubase.py:371-372 | `num * n.numbers` repeats the tuple instead of scaling it, and `map(operator.add, *numbers)` adds exactly two reactants, so counts are ignored and one or three reactants raise | reactants `[(2, d), (1, p)]` give totals (3, 2); `d+d+d` raises `TypeError` | totals are the count-weighted sums of the reactants' numbers, (5, 3) for two deuterons and a proton | high, not executed | Channels.TotalsAsWrittenIgnoresCounts | Channels.TotalsAdditive |

=== FILE: channels.dfy ===
/** The reaction channels open to a set of reactants (`Combinations`): the cache key, the
    totals the daughters must share, the daughter nuclides, the Q-value filter and the
    cache of computed reactions. */
module Channels {
  import opened Results
  import opened Nuclides
  import Registry
  import Sorting
  import Partitions
  import Products
  import opened Reactions
  import Text

  type Pair = Partitions.Pair

  /** `Combinations`: counted reactants and the optional lower bound on the Q-value
      (`float(kwargs['lower_bound'])`). */
  datatype Combinations = Combinations(reactants: seq<(nat, Nuclide)>, lowerBound: Option<real>)

  // ---------------------------------------------------------------------------------------
  // The cache key

  /** One entry of `parents`: a count and a signature. */
  type Parent = (nat, (string, string))

  function ParentOf(e: (nat, Nuclide)): Parent {
    (e.0, e.1.Signature())
  }

  function Parents(side: seq<(nat, Nuclide)>): (ps: seq<Parent>)
    ensures |ps| == |side|
    ensures forall i | 0 <= i < |side| :: ps[i] == ParentOf(side[i])
  {
    if side == [] then [] else [ParentOf(side[0])] + Parents(side[1..])
  }

  /** `_sort_key`: reactants are ordered by signature. */
  predicate BySignature(a: (nat, Nuclide), b: (nat, Nuclide)) {
    Sorting.PairLeq(a.1.Signature(), b.1.Signature())
  }

  /** The same order on parents. */
  predicate ParentLeq(a: Parent, b: Parent) {
    Sorting.PairLeq(a.1, b.1)
  }

  /** What `_cache_key` hashes: the parents in signature order and the lower bound. */
  datatype CacheKey = CacheKey(parents: seq<Parent>, lowerBound: Option<real>)

  lemma ParentLeqTotalPreorder()
    ensures Sorting.TotalPreorder(ParentLeq)
  {
    forall x: Parent, y: Parent ensures ParentLeq(x, y) || ParentLeq(y, x) {
      Sorting.PairLeqTotal(x.1, y.1);
    }
    forall x: Parent, y: Parent, z: Parent | ParentLeq(x, y) && ParentLeq(y, z) ensures ParentLeq(x, z) {
      Sorting.PairLeqTransitive(x.1, y.1, z.1);
    }
  }

  lemma {:induction false} ParentsInsert(x: (nat, Nuclide), s: seq<(nat, Nuclide)>)
    ensures Parents(Sorting.Insert(BySignature, x, s)) == Sorting.Insert(ParentLeq, ParentOf(x), Parents(s))
  {
    if s != [] && !BySignature(x, s[0]) {
      ParentsInsert(x, s[1..]);
      assert Parents(s)[1..] == Parents(s[1..]);
    }
  }

  /** Sorting the reactants and then taking their parents is sorting the parents. */
  lemma {:induction false} ParentsSort(s: seq<(nat, Nuclide)>)
    ensures Parents(Sorting.Sort(BySignature, s)) == Sorting.Sort(ParentLeq, Parents(s))
  {
    if s != [] {
      ParentsSort(s[1..]);
      ParentsInsert(s[0], Sorting.Sort(BySignature, s[1..]));
      assert Parents(s)[1..] == Parents(s[1..]);
    }
  }

  /** `_cache_key`: the parents, sorted by signature, and the lower bound. */
  function Key(c: Combinations): (k: CacheKey)
    ensures k.lowerBound == c.lowerBound
    ensures multiset(k.parents) == multiset(Parents(c.reactants))
    ensures Sorting.Sorted(ParentLeq, k.parents)
  {
    ParentsSort(c.reactants);
    ParentLeqTotalPreorder();
    Sorting.SortSorted(ParentLeq, Parents(c.reactants));
    CacheKey(Parents(Sorting.Sort(BySignature, c.reactants)), c.lowerBound)
  }

  /** Listing the same reactants in another order gives the same key, provided no
      signature occurs twice with different counts. */
  lemma KeyIgnoresOrder(c: Combinations, d: Combinations)
    requires c.lowerBound == d.lowerBound
    requires multiset(Parents(c.reactants)) == multiset(Parents(d.reactants))
    requires Sorting.Antisymmetric(ParentLeq, Parents(c.reactants))
    ensures Key(c) == Key(d)
  {
    ParentsSort(c.reactants);
    ParentsSort(d.reactants);
    ParentLeqTotalPreorder();
    Sorting.SortPermutationInvariant(ParentLeq, Parents(c.reactants), Parents(d.reactants));
  }

  /** The sort is stable: one nuclide listed twice with different counts gives two keys,
      one per order. */
  lemma KeyKeepsTies(n: Nuclide, lowerBound: Option<real>)
    ensures Key(Combinations([(1, n), (2, n)], lowerBound)) != Key(Combinations([(2, n), (1, n)], lowerBound))
  {
    var s := n.Signature();
    Sorting.StrLeqTotal(s.0, s.0);
    Sorting.StrLeqTotal(s.1, s.1);
    var once, twice := (1, n), (2, n);
    assert BySignature(once, twice) && BySignature(twice, once);
    Sorting.SortTwo(BySignature, once, twice);
    Sorting.SortTwo(BySignature, twice, once);
    assert Parents([once, twice]) == [(1, s), (2, s)];
    assert Parents([twice, once]) == [(2, s), (1, s)];
  }

  // ---------------------------------------------------------------------------------------
  // The totals of the reactants

  /** The total mass number and atomic number of counted reactants: what the daughters of
      every reaction must share out between them. */
  function Totals(side: seq<(nat, Nuclide)>): Pair {
    if side == [] then (0, 0)
    else
      var rest := Totals(side[1..]);
      (side[0].0 * side[0].1.massNumber + rest.0, side[0].0 * side[0].1.atomicNumber + rest.1)
  }

  /** The totals add up over the reactants, each counted as often as its count says. */
  lemma {:induction false} TotalsAdditive(a: seq<(nat, Nuclide)>, b: seq<(nat, Nuclide)>, k: nat, n: Nuclide)
    ensures Totals(a + b) == (Totals(a).0 + Totals(b).0, Totals(a).1 + Totals(b).1)
    ensures Totals([(k, n)]) == (k * n.massNumber, k * n.atomicNumber)
  {
    if a != [] {
      assert (a + b)[0] == a[0] && (a + b)[1..] == a[1..] + b;
      TotalsAdditive(a[1..], b, k, n);
    } else {
      assert a + b == b;
    }
  }

  /** `num * n.numbers`: Python repeats the tuple `num` times. */
  function Repeat(k: nat, t: Pair): (s: seq<nat>)
    ensures |s| == 2 * k
    ensures forall i | 0 <= i < |s| :: s[i] == if i % 2 == 0 then t.0 else t.1
  {
    if k == 0 then []
    else
      var rest := Repeat(k - 1, t);
      assert forall i | 2 <= i < 2 * k :: i % 2 == (i - 2) % 2;
      [t.0, t.1] + rest
  }

  /** `map(operator.add, a, b)`: position by position, stopping at the shorter. */
  function AddPairwise(a: seq<nat>, b: seq<nat>): (s: seq<nat>)
    ensures |s| == if |a| <= |b| then |a| else |b|
    ensures forall i | 0 <= i < |s| :: s[i] == a[i] + b[i]
  {
    if a == [] || b == [] then [] else [a[0] + b[0]] + AddPairwise(a[1..], b[1..])
  }

  /** `tuple(map(operator.add, *numbers))`, `None` where Python raises: `map` needs at least
      one iterable and `operator.add` exactly two operands, and an exhausted iterable ends
      `map` before `add` is called. */
  function MapAdd(numbers: seq<seq<nat>>): Option<seq<nat>> {
    if numbers == [] then None
    else if exists i | 0 <= i < |numbers| :: numbers[i] == [] then Some([])
    else if |numbers| == 2 then Some(AddPairwise(numbers[0], numbers[1]))
    else None
  }

  /** The totals as `_outcomes` computes them, `None` where it raises (including the
      unpacking into two names). */
  function TotalsAsWritten(side: seq<(nat, Nuclide)>): Option<Pair> {
    var numbers := seq(|side|, i requires 0 <= i < |side| => Repeat(side[i].0, side[i].1.Numbers()));
    match MapAdd(numbers)
    case Some(s) => if |s| == 2 then Some((s[0], s[1])) else None
    case None => None
  }

  /** `_outcomes` computes totals only for exactly two reactants, one of them counted once,
      and then ignores the counts. */
  lemma TotalsAsWrittenCases(side: seq<(nat, Nuclide)>)
    ensures TotalsAsWritten(side).Some? <==>
      |side| == 2 && side[0].0 >= 1 && side[1].0 >= 1 && (side[0].0 == 1 || side[1].0 == 1)
    ensures TotalsAsWritten(side).Some? ==> (TotalsAsWritten(side).value ==
      (side[0].1.massNumber + side[1].1.massNumber, side[0].1.atomicNumber + side[1].1.atomicNumber))
  {
    var numbers := seq(|side|, i requires 0 <= i < |side| => Repeat(side[i].0, side[i].1.Numbers()));
    if |side| == 2 && side[0].0 >= 1 && side[1].0 >= 1 {
      assert numbers[0] != [] && numbers[1] != [];
      assert MapAdd(numbers) == Some(AddPairwise(numbers[0], numbers[1]));
    } else if |side| == 2 {
      assert numbers[0] == [] || numbers[1] == [];
    }
  }

  /** For two reactants counted once, as every reactant spec gives, `_outcomes` adds up
      correctly. */
  lemma TotalsAsWrittenAgrees(side: seq<(nat, Nuclide)>)
    requires |side| == 2 && side[0].0 == 1 && side[1].0 == 1
    ensures TotalsAsWritten(side) == Some(Totals(side))
  {
    TotalsAsWrittenCases(side);
    TotalsOfTwo(side);
  }

  /** Two deuterons and a proton: `_outcomes` takes the totals of one deuteron and the proton,
      (3, 2), where the reactants hold (5, 3). */
  lemma TotalsAsWrittenIgnoresCounts(d: Nuclide, p: Nuclide)
    requires d.Numbers() == (2, 1) && p.Numbers() == (1, 1)
    ensures TotalsAsWritten([(2, d), (1, p)]) == Some((3, 2))
    ensures Totals([(2, d), (1, p)]) == (5, 3)
  {
    var side := [(2, d), (1, p)];
    TotalsAsWrittenCases(side);
    TotalsOfTwo(side);
  }

  lemma TotalsOfTwo(side: seq<(nat, Nuclide)>)
    requires |side| == 2
    ensures Totals(side) == (side[0].0 * side[0].1.massNumber + side[1].0 * side[1].1.massNumber,
                             side[0].0 * side[0].1.atomicNumber + side[1].0 * side[1].1.atomicNumber)
  {
    var tail := side[1..];
    assert tail[0] == side[1] && tail[1..] == [];
    assert Totals(tail) == (side[1].0 * side[1].1.massNumber, side[1].0 * side[1].1.atomicNumber);
  }

  // ---------------------------------------------------------------------------------------
  // The daughters

  /** `[nuclides.isomers[pair] for pair in _pairs]`. */
  function IsomerLists(reg: Registry.Registry, pairs: seq<Pair>): (lists: seq<seq<Nuclide>>)
    ensures |lists| == |pairs|
    ensures forall i | 0 <= i < |pairs| :: lists[i] == Registry.Isomers(reg, pairs[i])
  {
    seq(|pairs|, i requires 0 <= i < |pairs| => Registry.Isomers(reg, pairs[i]))
  }

  predicate AllFound(lists: seq<seq<Nuclide>>) {
    forall i | 0 <= i < |lists| :: lists[i] != []
  }

  /** The loop of `_daughters` over the given outcomes: an outcome with a pair the table has
      no nuclide for is skipped. */
  function DaughtersOf(reg: Registry.Registry, outcomes: seq<seq<Pair>>): seq<seq<Nuclide>> {
    if outcomes == [] then [] else Found(reg, outcomes[0]) + DaughtersOf(reg, outcomes[1..])
  }

  /** The daughter tuples of one outcome: none when a pair has no nuclide in the table. */
  function Found(reg: Registry.Registry, pairs: seq<Pair>): seq<seq<Nuclide>> {
    var lists := IsomerLists(reg, pairs);
    if AllFound(lists) then Products.Product(lists) else []
  }

  /** The daughters come outcome by outcome, in the order of the outcomes. */
  lemma {:induction false} DaughtersOfConcat(reg: Registry.Registry, a: seq<seq<Pair>>, b: seq<seq<Pair>>)
    ensures DaughtersOf(reg, a + b) == DaughtersOf(reg, a) + DaughtersOf(reg, b)
  {
    if a == [] {
      assert a + b == b;
    } else {
      DaughtersOfConcat(reg, a[1..], b);
      DaughtersOfCons(reg, a, b);
      Text.Assoc(Found(reg, a[0]), DaughtersOf(reg, a[1..]), DaughtersOf(reg, b));
    }
  }

  lemma DaughtersOfCons(reg: Registry.Registry, a: seq<seq<Pair>>, b: seq<seq<Pair>>)
    requires a != []
    ensures DaughtersOf(reg, a + b) == Found(reg, a[0]) + DaughtersOf(reg, a[1..] + b)
  {
    assert (a + b)[0] == a[0] && (a + b)[1..] == a[1..] + b;
  }

  /** `_daughters`, for given totals. */
  function Daughters(reg: Registry.Registry, totals: Pair): seq<seq<Nuclide>> {
    DaughtersOf(reg, Partitions.PossibleDaughters(totals))
  }

  /** The daughters pick one isomer for each nucleus of the outcome. */
  predicate Picks(reg: Registry.Registry, x: seq<Pair>, ds: seq<Nuclide>) {
    |ds| == |x| && forall i | 0 <= i < |ds| :: ds[i] in Registry.Isomers(reg, x[i])
  }

  /** Skipping an outcome with a missing pair loses nothing: its product is empty anyway. */
  lemma {:induction false} DaughtersOfMembers(reg: Registry.Registry, outcomes: seq<seq<Pair>>, ds: seq<Nuclide>)
    ensures ds in DaughtersOf(reg, outcomes) <==>
      exists k | 0 <= k < |outcomes| :: Picks(reg, outcomes[k], ds)
  {
    if outcomes != [] {
      var lists := IsomerLists(reg, outcomes[0]);
      DaughtersOfMembers(reg, outcomes[1..], ds);
      Products.ProductMembers(lists, ds);
      if !AllFound(lists) {
        var i :| 0 <= i < |lists| && lists[i] == [];
        Products.ProductOfEmpty(lists, i);
      }
      assert Picks(reg, outcomes[0], ds) <==> ds in Products.Product(lists);
      assert forall k | 1 <= k < |outcomes| :: outcomes[k] == outcomes[1..][k - 1];
      if exists k | 1 <= k < |outcomes| :: Picks(reg, outcomes[k], ds) {
        var k :| 1 <= k < |outcomes| && Picks(reg, outcomes[k], ds);
        assert Picks(reg, outcomes[1..][k - 1], ds);
      }
    }
  }

  lemma DaughtersMembers(reg: Registry.Registry, totals: Pair, ds: seq<Nuclide>)
    ensures ds in Daughters(reg, totals) <==>
      exists x | x in Partitions.PossibleDaughters(totals) :: Picks(reg, x, ds)
  {
    var outcomes := Partitions.PossibleDaughters(totals);
    DaughtersOfMembers(reg, outcomes, ds);
    if exists x | x in outcomes :: Picks(reg, x, ds) {
      var x :| x in outcomes && Picks(reg, x, ds);
      var k :| 0 <= k < |outcomes| && outcomes[k] == x;
    }
  }

  /** The (mass number, atomic number) of each daughter. */
  function NumbersOf(ds: seq<Nuclide>): (xs: seq<Pair>)
    ensures |xs| == |ds|
    ensures forall i | 0 <= i < |ds| :: xs[i] == ds[i].Numbers()
  {
    seq(|ds|, i requires 0 <= i < |ds| => ds[i].Numbers())
  }

  /** Every tuple of daughters is one to three nuclides of the table, in order of their
      numbers, sharing out exactly the totals. */
  lemma DaughtersSound(ns: seq<Nuclide>, totals: Pair, ds: seq<Nuclide>)
    requires ds in Daughters(Registry.Build(ns), totals)
    ensures Partitions.IsSplit(totals, NumbersOf(ds))
    ensures forall i | 0 <= i < |ds| :: ds[i] in ns
  {
    var reg := Registry.Build(ns);
    DaughtersMembers(reg, totals, ds);
    var x :| x in Partitions.PossibleDaughters(totals) && Picks(reg, x, ds);
    Partitions.PossibleDaughtersSound(totals, x);
    forall i | 0 <= i < |x| ensures ds[i].Numbers() == x[i] && ds[i] in ns {
      Registry.IsomersInOrder(ns, x[i]);
      var j :| 0 <= j < |Registry.Isomers(reg, x[i])| && Registry.Isomers(reg, x[i])[j] == ds[i];
    }
    assert NumbersOf(ds) == x;
  }

  /** Conversely, every such tuple is among the daughters once the reactants hold some
      charge. */
  lemma DaughtersComplete(ns: seq<Nuclide>, totals: Pair, ds: seq<Nuclide>)
    requires totals.1 >= 1
    requires Partitions.IsSplit(totals, NumbersOf(ds))
    requires forall i | 0 <= i < |ds| :: ds[i] in ns
    ensures ds in Daughters(Registry.Build(ns), totals)
  {
    var reg := Registry.Build(ns);
    var x := NumbersOf(ds);
    Partitions.PossibleDaughtersComplete(totals, x);
    forall i | 0 <= i < |ds| ensures ds[i] in Registry.Isomers(reg, x[i]) {
      Registry.IsomersInOrder(ns, x[i]);
      var j :| 0 <= j < |ns| && ns[j] == ds[i];
    }
    assert Picks(reg, x, ds);
    DaughtersMembers(reg, totals, ds);
  }

  // ---------------------------------------------------------------------------------------
  // The reactions

  /** `((1, d) for d in daughters)`. */
  function Singles(ds: seq<Nuclide>): (side: seq<(nat, Nuclide)>)
    ensures |side| == |ds|
    ensures forall i | 0 <= i < |ds| :: side[i] == (1, ds[i])
  {
    seq(|ds|, i requires 0 <= i < |ds| => (1, ds[i]))
  }

  /** `_allowed`: no bound, or a Q-value strictly above it. */
  predicate Allowed(lowerBound: Option<real>, r: Reaction) {
    lowerBound.None? || r.qValueKev > lowerBound.value
  }

  /** The loop of `reactions` on a cache miss, over the given daughters. */
  function Generate(c: Combinations, dss: seq<seq<Nuclide>>): seq<Reaction> {
    if dss == [] then [] else Kept(c, dss[0]) + Generate(c, dss[1..])
  }

  /** The reaction of one daughter tuple, when `_allowed` keeps it. */
  function Kept(c: Combinations, ds: seq<Nuclide>): seq<Reaction> {
    var r := Make(c.reactants, Singles(ds));
    if Allowed(c.lowerBound, r) then [r] else []
  }

  /** The reactions come in the order of their daughters. */
  lemma {:induction false} GenerateConcat(c: Combinations, a: seq<seq<Nuclide>>, b: seq<seq<Nuclide>>)
    ensures Generate(c, a + b) == Generate(c, a) + Generate(c, b)
  {
    if a == [] {
      assert a + b == b;
    } else {
      GenerateConcat(c, a[1..], b);
      GenerateCons(c, a, b);
      Text.Assoc(Kept(c, a[0]), Generate(c, a[1..]), Generate(c, b));
    }
  }

  lemma GenerateCons(c: Combinations, a: seq<seq<Nuclide>>, b: seq<seq<Nuclide>>)
    requires a != []
    ensures Generate(c, a + b) == Kept(c, a[0]) + Generate(c, a[1..] + b)
  {
    assert (a + b)[0] == a[0] && (a + b)[1..] == a[1..] + b;
  }

  lemma {:induction false} GenerateMembers(c: Combinations, dss: seq<seq<Nuclide>>, r: Reaction)
    ensures r in Generate(c, dss) <==>
      exists k | 0 <= k < |dss| :: r == Make(c.reactants, Singles(dss[k])) && Allowed(c.lowerBound, r)
  {
    if dss != [] {
      GenerateMembers(c, dss[1..], r);
      assert forall k | 1 <= k < |dss| :: dss[k] == dss[1..][k - 1];
      if exists k | 1 <= k < |dss| :: r == Make(c.reactants, Singles(dss[k])) && Allowed(c.lowerBound, r) {
        var k :| 1 <= k < |dss| && r == Make(c.reactants, Singles(dss[k])) && Allowed(c.lowerBound, r);
        assert dss[1..][k - 1] == dss[k];
      }
    }
  }

  /** The reactions `reactions` computes when nothing is cached. */
  function Compute(c: Combinations, reg: Registry.Registry): seq<Reaction> {
    Generate(c, Daughters(reg, Totals(c.reactants)))
  }

  /** The mass and atomic numbers the daughters carry off; the photon carries neither. */
  function Yield(right: seq<(nat, Particle)>): Pair {
    if right == [] then (0, 0)
    else
      var rest := Yield(right[1..]);
      match right[0].1
      case Nucleus(n) => (right[0].0 * n.massNumber + rest.0, right[0].0 * n.atomicNumber + rest.1)
      case Photon => rest
  }

  /** Mass number and charge are conserved. */
  predicate Conserves(r: Reaction) {
    Totals(r.left) == Yield(r.right)
  }

  lemma {:induction false} YieldOfSingles(ds: seq<Nuclide>)
    ensures Yield(Nuclei(Singles(ds))) == (Partitions.SumMass(NumbersOf(ds)), Partitions.SumCharge(NumbersOf(ds)))
  {
    if ds != [] {
      YieldOfSingles(ds[1..]);
      assert Nuclei(Singles(ds))[1..] == Nuclei(Singles(ds[1..]));
      assert NumbersOf(ds)[1..] == NumbersOf(ds[1..]);
    }
  }

  /** The photon `notes` appends leaves the balance as it was. */
  lemma {:induction false} YieldWithPhoton(right: seq<(nat, Particle)>)
    ensures Yield(WithPhoton(right)) == Yield(right)
  {
    if HasGamma(right) {
      PhotonYieldsNothing(right);
    }
  }

  lemma {:induction false} PhotonYieldsNothing(right: seq<(nat, Particle)>)
    ensures Yield(right + [(1, Photon)]) == Yield(right)
  {
    if right != [] {
      assert (right + [(1, Photon)])[0] == right[0];
      assert (right + [(1, Photon)])[1..] == right[1..] + [(1, Photon)];
      PhotonYieldsNothing(right[1..]);
    }
  }

  /** Every computed reaction has the combination's reactants, clears its bound and
      conserves mass and charge, with one to three daughters from the table, each counted
      once. */
  lemma ComputeSound(ns: seq<Nuclide>, c: Combinations, r: Reaction)
    requires r in Compute(c, Registry.Build(ns))
    ensures r.left == c.reactants
    ensures Allowed(c.lowerBound, r)
    ensures Conserves(r)
    ensures 1 <= |r.right| <= 3
    ensures forall i | 0 <= i < |r.right| ::
      r.right[i].0 == 1 && r.right[i].1.Nucleus? && r.right[i].1.nuclide in ns
  {
    var dss := Daughters(Registry.Build(ns), Totals(c.reactants));
    GenerateMembers(c, dss, r);
    var k :| 0 <= k < |dss| && r == Make(c.reactants, Singles(dss[k])) && Allowed(c.lowerBound, r);
    DaughtersSound(ns, Totals(c.reactants), dss[k]);
    MadeSound(ns, c.reactants, dss[k]);
  }

  /** The reaction of a tuple of table nuclides that shares out the reactants' totals. */
  lemma MadeSound(ns: seq<Nuclide>, left: seq<(nat, Nuclide)>, ds: seq<Nuclide>)
    requires Partitions.IsSplit(Totals(left), NumbersOf(ds))
    requires forall i | 0 <= i < |ds| :: ds[i] in ns
    ensures
      var r := Make(left, Singles(ds));
      && Conserves(r)
      && 1 <= |r.right| <= 3
      && forall i | 0 <= i < |r.right| ::
        r.right[i].0 == 1 && r.right[i].1.Nucleus? && r.right[i].1.nuclide in ns
  {
    var r := Make(left, Singles(ds));
    YieldOfSingles(ds);
    forall i | 0 <= i < |r.right| ensures r.right[i] == (1, Nucleus(ds[i])) {
      assert Singles(ds)[i] == (1, ds[i]);
    }
  }

  /** Every tuple of table nuclides that shares out the totals gives a reaction, when its
      Q-value clears the bound. */
  lemma ComputeComplete(ns: seq<Nuclide>, c: Combinations, ds: seq<Nuclide>)
    requires Totals(c.reactants).1 >= 1
    requires Partitions.IsSplit(Totals(c.reactants), NumbersOf(ds))
    requires forall i | 0 <= i < |ds| :: ds[i] in ns
    requires Allowed(c.lowerBound, Make(c.reactants, Singles(ds)))
    ensures Make(c.reactants, Singles(ds)) in Compute(c, Registry.Build(ns))
  {
    var dss := Daughters(Registry.Build(ns), Totals(c.reactants));
    DaughtersComplete(ns, Totals(c.reactants), ds);
    var k :| 0 <= k < |dss| && dss[k] == ds;
    GenerateMembers(c, dss, Make(c.reactants, Singles(ds)));
  }

  // ---------------------------------------------------------------------------------------
  // The cache

  /** The `reactions` table: the rows stored under each key, in insertion order. */
  type Cache = map<CacheKey, seq<Reaction>>

  /** `_cached_results`: the reactions stored under the key, none if there are none. */
  function Cached(cache: Cache, key: CacheKey): seq<Reaction> {
    if key in cache then cache[key] else []
  }

  /** `_cache_results`: appends the rows; inserting no rows leaves the table as it was. */
  function Store(cache: Cache, key: CacheKey, rs: seq<Reaction>): (cache': Cache)
    ensures Cached(cache', key) == Cached(cache, key) + rs
    ensures forall k | k != key :: Cached(cache', k) == Cached(cache, k)
    ensures rs == [] ==> cache' == cache
  {
    if rs == [] then cache else cache[key := Cached(cache, key) + rs]
  }

  /** `Combinations.reactions`, run to the end: the reactions, and the cache afterwards. */
  function ReactionsOf(c: Combinations, reg: Registry.Registry, cache: Cache): (out: (seq<Reaction>, Cache))
    ensures Cached(cache, Key(c)) != [] ==> out == (Cached(cache, Key(c)), cache)
    ensures Cached(cache, Key(c)) == [] ==> out.0 == Compute(c, reg)
    ensures Cached(out.1, Key(c)) == out.0
    ensures forall k | k != Key(c) :: Cached(out.1, k) == Cached(cache, k)
  {
    var key := Key(c);
    var cached := Cached(cache, key);
    if cached != [] then (cached, cache)
    else
      var rs := Compute(c, reg);
      (rs, Store(cache, key, rs))
  }

  /** Asking again gives the same reactions and leaves the cache alone, whether the first
      call found them cached, computed some, or computed none (which caches nothing). */
  lemma ReactionsRepeat(c: Combinations, reg: Registry.Registry, cache: Cache)
    ensures ReactionsOf(c, reg, ReactionsOf(c, reg, cache).1) == ReactionsOf(c, reg, cache)
  {
  }

  /** Every cached reaction conserves mass and charge and clears its key's bound. */
  ghost predicate SoundCache(cache: Cache) {
    forall key, r | key in cache && r in cache[key] :: Conserves(r) && Allowed(key.lowerBound, r)
  }

  /** `reactions` keeps the cache sound, and what it returns from a sound cache conserves
      mass and charge and clears the combination's bound. */
  lemma ReactionsSound(ns: seq<Nuclide>, c: Combinations, cache: Cache)
    requires SoundCache(cache)
    ensures SoundCache(ReactionsOf(c, Registry.Build(ns), cache).1)
    ensures forall r | r in ReactionsOf(c, Registry.Build(ns), cache).0 ::
      Conserves(r) && Allowed(c.lowerBound, r)
  {
    var key := Key(c);
    if Cached(cache, key) == [] {
      var rs := Compute(c, Registry.Build(ns));
      forall r | r in rs ensures Conserves(r) && Allowed(key.lowerBound, r) {
        ComputeSound(ns, c, r);
      }
      StoreKeepsSound(cache, key, rs);
    } else {
      assert key in cache;
    }
  }

  // ---------------------------------------------------------------------------------------
  // The miss as written

  /** A miss as the source computes it: `_outcomes` takes the as-written totals, and raises
      (a `TypeError` or `ValueError`) when they cannot be formed. */
  function ComputeAsWritten(c: Combinations, reg: Registry.Registry): (r: Result<seq<Reaction>, Error>)
    ensures r.Err? <==> TotalsAsWritten(c.reactants).None?
    ensures r.Err? ==> r.error == BadTotals
  {
    match TotalsAsWritten(c.reactants)
    case None => Err(BadTotals)
    case Some(t) => Ok(Generate(c, Daughters(reg, t)))
  }

  /** `Combinations.reactions` as written, run to the end. A hit never reaches `_outcomes`;
      a miss that raises stores nothing, since the rows are stored only after the loop. */
  function ReactionsAsWritten(c: Combinations, reg: Registry.Registry, cache: Cache)
    : (out: Result<(seq<Reaction>, Cache), Error>)
    ensures Cached(cache, Key(c)) != [] ==> out == Ok((Cached(cache, Key(c)), cache))
    ensures out.Err? <==> Cached(cache, Key(c)) == [] && TotalsAsWritten(c.reactants).None?
    ensures out.Ok? ==> Cached(out.value.1, Key(c)) == out.value.0
    ensures out.Ok? ==> forall k | k != Key(c) :: Cached(out.value.1, k) == Cached(cache, k)
  {
    var key := Key(c);
    var cached := Cached(cache, key);
    if cached != [] then Ok((cached, cache))
    else
      var rs :- ComputeAsWritten(c, reg);
      Ok((rs, Store(cache, key, rs)))
  }

  /** For two reactants counted once the source's `reactions` is the model's: same
      reactions, same cache afterwards. */
  lemma AsWrittenAgrees(c: Combinations, reg: Registry.Registry, cache: Cache)
    requires |c.reactants| == 2 && c.reactants[0].0 == 1 && c.reactants[1].0 == 1
    ensures ReactionsAsWritten(c, reg, cache) == Ok(ReactionsOf(c, reg, cache))
  {
    TotalsAsWrittenAgrees(c.reactants);
  }

  /** A miss raises exactly when the reactants are not two, one of them counted once, with
      no count of zero. */
  lemma AsWrittenFails(c: Combinations, reg: Registry.Registry, cache: Cache)
    ensures ReactionsAsWritten(c, reg, cache).Err? <==>
      && Cached(cache, Key(c)) == []
      && !(|c.reactants| == 2 && c.reactants[0].0 >= 1 && c.reactants[1].0 >= 1
           && (c.reactants[0].0 == 1 || c.reactants[1].0 == 1))
  {
    TotalsAsWrittenCases(c.reactants);
  }

  lemma StoreKeepsSound(cache: Cache, key: CacheKey, rs: seq<Reaction>)
    requires SoundCache(cache)
    requires forall r | r in rs :: Conserves(r) && Allowed(key.lowerBound, r)
    ensures SoundCache(Store(cache, key, rs))
  {
    var cache' := Store(cache, key, rs);
    forall k, r | k in cache' && r in cache'[k] ensures Conserves(r) && Allowed(k.lowerBound, r) {
      if k != key {
        assert r in Cached(cache, k);
      } else {
        assert r in Cached(cache, key) + rs;
      }
    }
  }
}

=== FILE: nuclides.dfy ===
/** One line of the fixed-width nuclide table, its fields, and the nuclide decoded from them
    (`Nuclide.load`, `Nuclide.__init__`, `Nuclide.is_excited`, `HalfLife.seconds`). */
module Nuclides {
  import opened Results
  import Text
  import Numerals
  import Tables

  /** The named columns of a table line. */
  datatype Field =
    | MassNumber | AtomicNumber | AtomicNumberExtra | Label | MassExcess | ExcitationEnergy
    | HalfLifeValue | HalfLifeUnit | Unknown | SpinAndParity | EnsdfArchiveFileYear
    | Reference | YearOfDiscovery | DecayModes

  /** Why decoding a line, reading a half-life or resolving a reactant failed. */
  datatype Error =
    | BadNubaseRow              // the line has no mass excess: the loader skips it
    | MissingField(field: Field) // a required field is blank (a KeyError in the source)
    | NotANumber(field: Field)  // int() or float() of the field's text raised
    | UnknownUnit(unit: string) // a half-life unit other than seconds
    | UnknownElement(symbol: string) // a reactant that is neither a ground state nor an element
    | UnknownNuclide(signature: (string, string)) // no nuclide of the table has the signature
    | BadTotals                 // `_outcomes` cannot add the reactants' numbers into two totals

  /** The end column of each field; a field starts where the previous one ended. The last
      end, -1, stops one character before the end of the line, dropping its terminator. */
  const Columns: seq<(int, Field)> := [
    (4, MassNumber),
    (7, AtomicNumber),
    (9, AtomicNumberExtra),
    (18, Label),
    (39, MassExcess),
    (61, ExcitationEnergy),
    (69, HalfLifeValue),
    (71, HalfLifeUnit),
    (79, Unknown),
    (93, SpinAndParity),
    (96, EnsdfArchiveFileYear),
    (105, Reference),
    (110, YearOfDiscovery),
    (-1, DecayModes)
  ]

  /** The non-blank fields of one line, stripped. */
  type Row = map<Field, string>

  function ColumnEnd(k: nat): int
    requires k < |Columns|
  {
    Columns[k].0
  }

  function ColumnStart(k: nat): int
    requires k < |Columns|
  {
    if k == 0 then 0 else ColumnEnd(k - 1)
  }

  /** The raw text of column `k` of `line`, as Python slices it. */
  function ColumnSlice(line: string, k: nat): string
    requires k < |Columns|
  {
    Text.PySlice(line, ColumnStart(k), ColumnEnd(k))
  }

  /** The position of a field among the columns. */
  function ColumnIndex(f: Field): (k: nat)
    ensures k < |Columns| && Columns[k].1 == f
  {
    match f
    case MassNumber => 0
    case AtomicNumber => 1
    case AtomicNumberExtra => 2
    case Label => 3
    case MassExcess => 4
    case ExcitationEnergy => 5
    case HalfLifeValue => 6
    case HalfLifeUnit => 7
    case Unknown => 8
    case SpinAndParity => 9
    case EnsdfArchiveFileYear => 10
    case Reference => 11
    case YearOfDiscovery => 12
    case DecayModes => 13
  }

  const AllFields: set<Field> := set k | 0 <= k < |Columns| :: Columns[k].1

  /** The stripped text of field `f` of `line`. */
  function FieldText(line: string, f: Field): string {
    Text.Strip(ColumnSlice(line, ColumnIndex(f)))
  }

  /** `Nuclide.load`: slices a line into its fields, strips each, and drops blank ones.
      A field is present exactly when its slice is not all whitespace. */
  function LoadRow(line: string): (row: Row)
    ensures forall f :: f in row <==> !Text.AllSpace(ColumnSlice(line, ColumnIndex(f)))
    ensures forall f | f in row :: row[f] == Text.Strip(ColumnSlice(line, ColumnIndex(f)))
    ensures forall f | f in row :: row[f] != [] && Text.IsTrimmed(row[f])
  {
    forall f ensures FieldText(line, f) == [] <==> Text.AllSpace(ColumnSlice(line, ColumnIndex(f))) {
      Text.StripBlank(ColumnSlice(line, ColumnIndex(f)));
    }
    assert forall f :: f in AllFields by {
      forall f ensures f in AllFields {
        assert Columns[ColumnIndex(f)].1 == f;
      }
    }
    map f | f in AllFields && FieldText(line, f) != [] :: FieldText(line, f)
  }

  /** The text of the columns from `k` on, one after the other. */
  function ColumnsFrom(line: string, k: nat): string
    requires k <= |Columns|
    decreases |Columns| - k
  {
    if k == |Columns| then [] else ColumnSlice(line, k) + ColumnsFrom(line, k + 1)
  }

  /** Every column but the last ends where the next starts, at most at column 110. */
  lemma ColumnBounds(k: nat)
    requires k < |Columns|
    ensures k + 1 < |Columns| ==> 0 <= ColumnStart(k) < ColumnEnd(k) == ColumnStart(k + 1) <= 110
    ensures k + 1 == |Columns| ==> ColumnStart(k) == 110 && ColumnEnd(k) == -1
  {
  }

  /** On a full-width line the columns tile the line: every character except the last (the
      line terminator) falls in exactly one column, in order. */
  lemma {:induction false} ColumnsTile(line: string, k: nat)
    requires |line| > 110 && k < |Columns|
    ensures ColumnsFrom(line, k) == line[ColumnStart(k)..|line| - 1]
    decreases |Columns| - k
  {
    if k + 1 < |Columns| {
      ColumnsTile(line, k + 1);
      TileStep(line, k);
    } else {
      TileLast(line, k);
    }
  }

  lemma TileStep(line: string, k: nat)
    requires |line| > 110 && k + 1 < |Columns|
    requires ColumnsFrom(line, k + 1) == line[ColumnStart(k + 1)..|line| - 1]
    ensures ColumnsFrom(line, k) == line[ColumnStart(k)..|line| - 1]
  {
    ColumnBounds(k);
    var a, b := ColumnStart(k), ColumnStart(k + 1);
    assert ColumnSlice(line, k) == line[a..b];
    AdjacentSlices(line, a, b, |line| - 1);
  }

  lemma TileLast(line: string, k: nat)
    requires |line| > 110 && k + 1 == |Columns|
    ensures ColumnsFrom(line, k) == line[ColumnStart(k)..|line| - 1]
  {
    ColumnBounds(k);
    assert ColumnsFrom(line, k + 1) == [];
    assert ColumnSlice(line, k) == line[110..|line| - 1];
  }

  lemma AdjacentSlices<T>(s: seq<T>, a: nat, b: nat, e: nat)
    requires a <= b <= e <= |s|
    ensures s[a..b] + s[b..e] == s[a..e]
  {
  }

  /** A decoded nuclide or isomer. */
  datatype Nuclide = Nuclide(
    rawLabel: string,            // the label as the table writes it, e.g. "8Bei"
    name: string,                // after ALTERNATE_LABELS, without an excitation letter
    level: string,               // "0" for a ground state, else the excitation letter
    massNumber: nat,
    atomicNumber: nat,
    abundance: real,             // natural abundance in percent, 0 when not listed
    isStable: bool,              // an abundance entry is listed
    notes: set<string>,
    massExcessKev: real,
    spinAndParity: Option<string>,
    halfLifeValue: Option<string>,
    halfLifeUnit: Option<string>)
  {
    /** `numbers`: (mass number, atomic number). */
    function Numbers(): (nat, nat) {
      (massNumber, atomicNumber)
    }

    /** `signature`: the key of the nuclide in the registry. */
    function Signature(): (string, string) {
      (name, level)
    }
  }

  /** `Nuclide.__eq__`: nuclides are the same when their signatures are. */
  predicate Same(a: Nuclide, b: Nuclide) {
    a.Signature() == b.Signature()
  }

  /** What every decoded nuclide satisfies. */
  predicate Valid(n: Nuclide) {
    && n.notes <= {Tables.BetaMinusNote, Tables.BetaPlusNote}
    && (n.level == "0" || (|n.level| == 1 && n.level[0] in Tables.ExcitationSuffixes))
    && (n.abundance > 0.0 ==> n.isStable)
  }

  predicate AbundanceChar(c: char) {
    Numerals.IsDigit(c) || c == '.'
  }

  predicate MassExcessChar(c: char) {
    Numerals.IsDigit(c) || c == '.' || c == '-'
  }

  /** The text matches `IS=[\d.]` at position `i`. */
  predicate AbundanceAt(d: string, i: nat) {
    i + 3 < |d| && d[i..i + 3] == "IS=" && AbundanceChar(d[i + 3])
  }

  /** `re.search(r'IS=([\d\.]+)', d)` matches. */
  predicate HasAbundance(d: string) {
    exists i | 0 <= i < |d| :: AbundanceAt(d, i)
  }

  /** The leftmost match of `IS=[\d.]` at or after `from`. */
  function FindAbundance(d: string, from: nat): (r: Option<nat>)
    ensures r.None? ==> forall i | from <= i < |d| :: !AbundanceAt(d, i)
    ensures r.Some? ==> from <= r.value && AbundanceAt(d, r.value)
    ensures r.Some? ==> forall i | from <= i < r.value :: !AbundanceAt(d, i)
    decreases |d| - from
  {
    if from + 3 >= |d| then None
    else if AbundanceAt(d, from) then Some(from)
    else FindAbundance(d, from + 1)
  }

  /** The group of `IS=([\d\.]+)`: the abundance text of the first entry, if any. */
  function AbundanceText(d: string): (r: Option<string>)
    ensures r.Some? <==> HasAbundance(d)
    ensures r.Some? ==> r.value != [] && forall k | 0 <= k < |r.value| :: AbundanceChar(r.value[k])
  {
    match FindAbundance(d, 0)
    case None => None
    case Some(i) =>
      var n := Text.RunLength(d[i + 3..], AbundanceChar);
      Some(d[i + 3..][..n])
  }

  /** `decayModesAndIntensities`, or "" when the field is blank. */
  function DecayText(row: Row): string {
    if DecayModes in row then row[DecayModes] else ""
  }

  /** `Nuclide.is_excited`: not naturally abundant, not an exception, and the label ends in
      an excitation letter. */
  predicate IsExcited(abundance: real, rawLabel: string) {
    && abundance == 0.0
    && rawLabel !in Tables.NotExcited
    && rawLabel != []
    && rawLabel[|rawLabel| - 1] in Tables.ExcitationSuffixes
  }

  function Require(row: Row, f: Field): (r: Result<string, Error>)
    ensures r.Ok? <==> f in row
    ensures r.Ok? ==> r.value == row[f]
  {
    if f in row then Ok(row[f]) else Err(MissingField(f))
  }

  /** `int(first_match(r'\d+', row['atomicNumber']))`: the first run of digits. */
  function AtomicNumberOf(row: Row): (r: Result<nat, Error>)
    ensures AtomicNumber !in row ==> r == Err(MissingField(AtomicNumber))
    ensures AtomicNumber in row ==>
      (r.Ok? <==> exists k | 0 <= k < |row[AtomicNumber]| :: Numerals.IsDigit(row[AtomicNumber][k]))
    ensures r.Ok? ==> AtomicNumber in row && Text.FirstRun(row[AtomicNumber], Numerals.IsDigit).Some?
    ensures r.Ok? ==> Numerals.ParseInt(Text.FirstRun(row[AtomicNumber], Numerals.IsDigit).value) == Some(r.value)
  {
    var text :- Require(row, AtomicNumber);
    var digits :- Text.FirstRun(text, Numerals.IsDigit).ToResult(NotANumber(AtomicNumber));
    Ok(Numerals.Value(digits))
  }

  /** `int(row['massNumber'])`. */
  function MassNumberOf(row: Row): (r: Result<nat, Error>)
    ensures MassNumber !in row ==> r == Err(MissingField(MassNumber))
    ensures MassNumber in row ==> (r.Ok? <==> Numerals.ParseInt(row[MassNumber]).Some?)
    ensures r.Ok? ==> MassNumber in row && Numerals.ParseInt(row[MassNumber]) == Some(r.value)
  {
    var text :- Require(row, MassNumber);
    Numerals.ParseInt(text).ToResult(NotANumber(MassNumber))
  }

  /** The abundance of the `IS=` entry, or 0 when the nuclide has none. */
  function AbundanceOf(decays: string): (r: Result<real, Error>)
    ensures !HasAbundance(decays) ==> r == Ok(0.0)
    ensures AbundanceText(decays).Some? ==>
      (r.Ok? <==> Numerals.ParseDecimal(AbundanceText(decays).value).Some?)
    ensures AbundanceText(decays).Some? && r.Ok? ==>
      Numerals.ParseDecimal(AbundanceText(decays).value) == Some(r.value)
    ensures r.Err? ==> r.error == NotANumber(DecayModes)
    ensures r.Ok? ==> r.value >= 0.0
  {
    match AbundanceText(decays)
    case None => Ok(0.0)
    case Some(t) =>
      match Numerals.ParseDecimal(t)
      case None => Err(NotANumber(DecayModes))
      case Some(x) =>
        assert t[0] != '-' && t[0] != '+';
        Ok(x)
  }

  /** `float(first_match(r'[\d\.\-]+', row['massExcess']))`. */
  function MassExcessOf(text: string): (r: Result<real, Error>)
    ensures r.Ok? ==> exists k | 0 <= k < |text| :: MassExcessChar(text[k])
    ensures r.Ok? <==>
      (Text.FirstRun(text, MassExcessChar).Some? &&
       Numerals.ParseDecimal(Text.FirstRun(text, MassExcessChar).value).Some?)
    ensures r.Ok? ==> Numerals.ParseDecimal(Text.FirstRun(text, MassExcessChar).value) == Some(r.value)
    ensures r.Err? ==> r.error == NotANumber(MassExcess)
  {
    var run :- Text.FirstRun(text, MassExcessChar).ToResult(NotANumber(MassExcess));
    Numerals.ParseDecimal(run).ToResult(NotANumber(MassExcess))
  }

  /** The notes a nuclide's decay modes earn. */
  function DecayNotes(decays: string): (notes: set<string>)
    ensures notes <= {Tables.BetaMinusNote, Tables.BetaPlusNote}
    ensures Tables.BetaMinusNote in notes <==> Text.Contains(decays, Tables.BetaMinus)
    ensures Tables.BetaPlusNote in notes <==> Text.Contains(decays, Tables.BetaPlus)
  {
    (if Text.Contains(decays, Tables.BetaMinus) then {Tables.BetaMinusNote} else {})
    + (if Text.Contains(decays, Tables.BetaPlus) then {Tables.BetaPlusNote} else {})
  }

  /** The nuclide once every number it needs has been read. */
  function Assemble(row: Row, raw: string, a: nat, z: nat, abundance: real, kev: real): (n: Nuclide)
    requires raw != [] && abundance >= 0.0
    requires abundance > 0.0 ==> HasAbundance(DecayText(row))
    ensures Valid(n) && n.rawLabel == raw && n.Numbers() == (a, z)
    ensures n.abundance == abundance && n.massExcessKev == kev
    ensures n.isStable <==> HasAbundance(DecayText(row))
    ensures n.notes == DecayNotes(DecayText(row))
    ensures n.level != "0" <==> IsExcited(abundance, raw)
    ensures n.level == "0" ==> n.name == Tables.AlternateLabel(raw)
    ensures n.level != "0" ==>
      n.name == Tables.AlternateLabel(raw[..|raw| - 1]) && n.level == [raw[|raw| - 1]]
  {
    var excited := IsExcited(abundance, raw);
    var stem := if excited then raw[..|raw| - 1] else raw;
    Nuclide(
      rawLabel := raw,
      name := Tables.AlternateLabel(stem),
      level := if excited then [raw[|raw| - 1]] else "0",
      massNumber := a,
      atomicNumber := z,
      abundance := abundance,
      isStable := HasAbundance(DecayText(row)),
      notes := DecayNotes(DecayText(row)),
      massExcessKev := kev,
      spinAndParity := if SpinAndParity in row then Some(Text.Squeeze(row[SpinAndParity])) else None,
      halfLifeValue := if HalfLifeValue in row then Some(row[HalfLifeValue]) else None,
      halfLifeUnit := if HalfLifeUnit in row then Some(row[HalfLifeUnit]) else None)
  }

  /** `Nuclide.__init__`: decodes the fields of one row, raising in the order the source reads
      them. Rows without a mass excess are the only ones reported as `BadNubaseRow`. */
  function FromRow(row: Row): (r: Result<Nuclide, Error>)
    requires forall f | f in row :: row[f] != []
    ensures r == Err(BadNubaseRow) <==> MassExcess !in row
    ensures r.Ok? ==> Valid(r.value) && Label in row && MassExcess in row
    ensures r.Ok? ==> r.value.rawLabel == row[Label]
    ensures r.Ok? ==> MassNumber in row && Numerals.ParseInt(row[MassNumber]) == Some(r.value.massNumber)
    ensures r.Ok? ==> AtomicNumberOf(row) == Ok(r.value.atomicNumber)
    ensures r.Ok? ==> AbundanceOf(DecayText(row)) == Ok(r.value.abundance)
    ensures r.Ok? ==> MassExcessOf(row[MassExcess]) == Ok(r.value.massExcessKev)
    ensures r.Ok? ==> (r.value.isStable <==> HasAbundance(DecayText(row)))
    ensures r.Ok? ==> r.value.notes == DecayNotes(DecayText(row))
    ensures r.Ok? ==> (r.value.level != "0" <==> IsExcited(r.value.abundance, row[Label]))
    ensures r.Ok? && r.value.level == "0" ==> r.value.name == Tables.AlternateLabel(row[Label])
    ensures r.Ok? && r.value.level != "0" ==>
      var raw := row[Label];
      r.value.name == Tables.AlternateLabel(raw[..|raw| - 1]) && r.value.level == [raw[|raw| - 1]]
    ensures r.Ok? ==>
      r.value.spinAndParity == (if SpinAndParity in row then Some(Text.Squeeze(row[SpinAndParity])) else None)
    ensures r.Ok? ==> r.value.halfLifeValue == (if HalfLifeValue in row then Some(row[HalfLifeValue]) else None)
    ensures r.Ok? ==> r.value.halfLifeUnit == (if HalfLifeUnit in row then Some(row[HalfLifeUnit]) else None)
    ensures Label !in row && MassExcess in row ==> r == Err(MissingField(Label))
  {
    if MassExcess !in row then Err(BadNubaseRow)
    else
      var raw :- Require(row, Label);
      var z :- AtomicNumberOf(row);
      var a :- MassNumberOf(row);
      var abundance :- AbundanceOf(DecayText(row));
      var kev :- MassExcessOf(row[MassExcess]);
      Ok(Assemble(row, raw, a, z, abundance, kev))
  }

  /** `Nuclide.load(line=...)`. */
  function Load(line: string): Result<Nuclide, Error> {
    FromRow(LoadRow(line))
  }

  /** The signature gives back the table label when no alternate name was substituted:
      the label itself for a ground state, the label followed by its letter for an isomer. */
  lemma SignatureSpellsLabel(row: Row)
    requires forall f | f in row :: row[f] != []
    requires FromRow(row).Ok?
    ensures
      var n := FromRow(row).value;
      var raw := row[Label];
      && (n.level == "0" && raw !in Tables.AlternateLabels ==> n.name == raw)
      && (n.level != "0" && raw[..|raw| - 1] !in Tables.AlternateLabels ==> n.name + n.level == raw)
  {
    var n := FromRow(row).value;
    SpellsLabel(n.name, n.level, row[Label]);
  }

  lemma SpellsLabel(name: string, level: string, raw: string)
    requires level == "0" ==> name == Tables.AlternateLabel(raw)
    requires level != "0" ==>
      |raw| >= 1 && name == Tables.AlternateLabel(raw[..|raw| - 1]) && level == [raw[|raw| - 1]]
    ensures level == "0" && raw !in Tables.AlternateLabels ==> name == raw
    ensures level != "0" && raw[..|raw| - 1] !in Tables.AlternateLabels ==> name + level == raw
  {
    if level != "0" {
      assert raw[..|raw| - 1] + [raw[|raw| - 1]] == raw;
    }
  }

  /** `Nuclide.half_life`. */
  datatype HalfLife = HalfLife(value: string, unit: string)

  /** `Nuclide.half_life`: both half-life fields are required. */
  function HalfLifeOf(n: Nuclide): (r: Result<HalfLife, Error>)
    ensures r.Ok? <==> n.halfLifeValue.Some? && n.halfLifeUnit.Some?
    ensures r.Ok? ==> r.value == HalfLife(n.halfLifeValue.value, n.halfLifeUnit.value)
    ensures n.halfLifeValue.None? ==> r == Err(MissingField(HalfLifeValue))
    ensures n.halfLifeValue.Some? && n.halfLifeUnit.None? ==> r == Err(MissingField(HalfLifeUnit))
  {
    match (n.halfLifeValue, n.halfLifeUnit)
    case (Some(v), Some(u)) => Ok(HalfLife(v, u))
    case (None, _) => Err(MissingField(HalfLifeValue))
    case (_, None) => Err(MissingField(HalfLifeUnit))
  }

  /** The half-life of a decoded row is read from the row's two half-life fields, and a
      missing `halfLife` field is reported before a missing unit. */
  lemma HalfLifeOfRow(row: Row)
    requires forall f | f in row :: row[f] != []
    requires FromRow(row).Ok?
    ensures HalfLifeValue in row && HalfLifeUnit in row ==>
      HalfLifeOf(FromRow(row).value) == Ok(HalfLife(row[HalfLifeValue], row[HalfLifeUnit]))
    ensures HalfLifeValue !in row ==> HalfLifeOf(FromRow(row).value) == Err(MissingField(HalfLifeValue))
    ensures HalfLifeValue in row && HalfLifeUnit !in row ==>
      HalfLifeOf(FromRow(row).value) == Err(MissingField(HalfLifeUnit))
  {
  }

  /** `HalfLife.seconds`: only half-lives recorded in seconds convert. */
  function Seconds(h: HalfLife): (r: Result<real, Error>)
    ensures h.unit != "s" ==> r == Err(UnknownUnit(h.unit))
    ensures h.unit == "s" ==> (r.Ok? <==> Numerals.ParseDecimal(h.value).Some?)
    ensures h.unit == "s" && r.Ok? ==> Numerals.ParseDecimal(h.value) == Some(r.value)
    ensures h.unit == "s" && r.Err? ==> r.error == NotANumber(HalfLifeValue)
  {
    if h.unit == "s" then Numerals.ParseDecimal(h.value).ToResult(NotANumber(HalfLifeValue))
    else Err(UnknownUnit(h.unit))
  }

  /** A half-life written as a decimal number of seconds converts to that number. */
  lemma SecondsOfRendered(d: string, f: string)
    requires Numerals.AllDigits(d) && Numerals.AllDigits(f) && |d| >= 1
    ensures Seconds(HalfLife(Numerals.Render(false, d, f), "s")) == Ok(Numerals.DecimalValue(d, f))
  {
    Numerals.ParseRendered(false, d, f);
  }
}

=== FILE: numerals.dfy ===
/** Python's `int()` and `float()` on the digit texts found in the data table. Values are
    exact: a decimal text denotes the rational number it spells, not a binary float. */
module Numerals {
  import opened Results
  import Text

  predicate IsDigit(c: char) {
    '0' <= c <= '9'
  }

  predicate AllDigits(s: string) {
    forall i | 0 <= i < |s| :: IsDigit(s[i])
  }

  /** The value of a text of decimal digits, most significant digit first. */
  function Value(s: string): nat
    requires AllDigits(s)
  {
    if s == [] then 0 else 10 * Value(s[..|s| - 1]) + (s[|s| - 1] as int - '0' as int)
  }

  function Pow10(k: nat): (p: nat)
    ensures p >= 1
  {
    if k == 0 then 1 else 10 * Pow10(k - 1)
  }

  function DigitChar(d: nat): (c: char)
    requires d < 10
    ensures IsDigit(c) && c as int - '0' as int == d
  {
    (d + '0' as int) as char
  }

  /** The shortest decimal rendering of `n`. */
  function Digits(n: nat): (s: string)
    ensures |s| >= 1 && AllDigits(s)
  {
    if n < 10 then [DigitChar(n)] else Digits(n / 10) + [DigitChar(n % 10)]
  }

  /** Reading back a rendering gives the number. */
  lemma {:induction false} ValueOfDigits(n: nat)
    ensures Value(Digits(n)) == n
  {
    if n >= 10 {
      ValueOfDigits(n / 10);
      var d := Digits(n);
      assert d[..|d| - 1] == Digits(n / 10);
    }
  }

  /** Python's `int(text)` on a text of ASCII digits; any other text raises (None). */
  function ParseInt(s: string): (r: Option<nat>)
    ensures r.Some? <==> s != [] && AllDigits(s)
  {
    if s != [] && AllDigits(s) then Some(Value(s)) else None
  }

  /** `int()` inverts the decimal rendering. */
  lemma ParseIntDigits(n: nat)
    ensures ParseInt(Digits(n)) == Some(n)
  {
    ValueOfDigits(n);
  }

  /** Python's `float(text)` on a text over digits, '.' and one leading sign:
      `[+-]? (digits '.' digits? | '.' digits | digits)`; any other such text raises (None). */
  function ParseDecimal(s: string): (r: Option<real>)
  {
    if s != [] && (s[0] == '-' || s[0] == '+') then
      match ParseUnsigned(s[1..])
      case None => None
      case Some(x) => Some(if s[0] == '-' then -x else x)
    else ParseUnsigned(s)
  }

  /** The number spelled by whole-part digits `whole` and fraction digits `frac`. */
  function DecimalValue(whole: string, frac: string): (x: real)
    requires AllDigits(whole) && AllDigits(frac)
    ensures x >= 0.0
  {
    Value(whole) as real + Value(frac) as real / Pow10(|frac|) as real
  }

  /** `float()` of an unsigned decimal text. */
  function ParseUnsigned(s: string): (r: Option<real>)
    ensures r.Some? ==> r.value >= 0.0
  {
    if '.' in s then
      var i := Text.IndexOf(s, '.');
      var whole := s[..i];
      var frac := s[i + 1..];
      if AllDigits(whole) && AllDigits(frac) && |whole| + |frac| > 0
      then Some(DecimalValue(whole, frac))
      else None
    else if s != [] && AllDigits(s) then Some(Value(s) as real)
    else None
  }

  /** The decimal text with whole-part digits `d`, fraction digits `f` and an optional
      minus sign. */
  function Render(negative: bool, d: string, f: string): string
    requires AllDigits(d) && AllDigits(f)
  {
    (if negative then "-" else "") + (d + "." + f)
  }

  /** In a rendering the first '.' separates the whole-part digits from the fraction. */
  lemma DotAfterDigits(d: string, f: string)
    requires AllDigits(d)
    ensures '.' in d + "." + f
    ensures (d + "." + f)[..Text.IndexOf(d + "." + f, '.')] == d
    ensures (d + "." + f)[Text.IndexOf(d + "." + f, '.') + 1..] == f
  {
    var u := d + "." + f;
    assert u[|d|] == '.';
    assert forall k | 0 <= k < |d| :: u[k] == d[k];
    assert Text.IndexOf(u, '.') == |d|;
  }

  lemma UnsignedRendered(d: string, f: string)
    requires AllDigits(d) && AllDigits(f) && |d| >= 1
    ensures ParseUnsigned(d + "." + f) == Some(DecimalValue(d, f))
  {
    DotAfterDigits(d, f);
  }

  /** `float()` reads a rendered decimal back as the number it spells. */
  lemma ParseRendered(negative: bool, d: string, f: string)
    requires AllDigits(d) && AllDigits(f) && |d| >= 1
    ensures
      var x := DecimalValue(d, f);
      ParseDecimal(Render(negative, d, f)) == Some(if negative then -x else x)
  {
    var u := d + "." + f;
    UnsignedRendered(d, f);
    if negative {
      assert Render(negative, d, f) == "-" + u;
      ParseNegated(u);
    } else {
      assert Render(negative, d, f) == u;
      assert u[0] == d[0];
      ParseUnsignedOnly(u);
    }
  }

  lemma ParseNegated(u: string)
    ensures ParseDecimal("-" + u) == match ParseUnsigned(u) case None => None case Some(x) => Some(-x)
  {
    assert ("-" + u)[1..] == u;
  }

  lemma ParseUnsignedOnly(u: string)
    requires u != [] && u[0] != '-' && u[0] != '+'
    ensures ParseDecimal(u) == ParseUnsigned(u)
  {
  }

  /** `float()` of an integer rendering is that integer. */
  lemma ParseDigitsAsDecimal(n: nat)
    ensures ParseDecimal(Digits(n)) == Some(n as real)
  {
    ValueOfDigits(n);
    var d := Digits(n);
    assert d[0] != '-' && d[0] != '+';
    assert '.' !in d;
  }
}

=== FILE: partitions.dfy ===
/** Splitting a total (mass number, atomic number) into up to three daughter nuclei
    (`vectors3` and `possible_daughters`). */
module Partitions {
  import opened Results
  import Sorting
  import Text

  type Triple = (nat, nat, nat)

  /** A (mass number, atomic number) pair. */
  type Pair = (nat, nat)

  /** The inner loop of `vectors3` for a fixed last component `i`, with `j = n - i`. */
  function Column(j: nat, i: nat): (ts: seq<Triple>)
    ensures |ts| == j
    ensures forall k | 0 <= k < j :: ts[k] == (j - k, k, i)
  {
    seq(j, k requires 0 <= k < j => (j - k, k, i))
  }

  /** The outer loop of `vectors3` from `i` on. */
  function Rows(n: nat, i: nat): seq<Triple>
    requires i <= n
    decreases n - i
  {
    if i == n then [] else Column(n - i, i) + Rows(n, i + 1)
  }

  /** `vectors3(n)`: the triples with a positive first component that sum to `n`, ordered by
      last component and then by middle component. */
  function Vectors3(n: nat): seq<Triple> {
    Rows(n, 0)
  }

  predicate InVectors3(n: nat, t: Triple) {
    t.0 >= 1 && t.0 + t.1 + t.2 == n
  }

  lemma ColumnMembers(j: nat, i: nat)
    ensures forall t: Triple :: t in Column(j, i) <==> t.2 == i && t.0 >= 1 && t.0 + t.1 == j
  {
    forall t: Triple | t.2 == i && t.0 >= 1 && t.0 + t.1 == j
      ensures t in Column(j, i)
    {
      assert Column(j, i)[t.1] == t;
    }
  }

  lemma {:induction false} RowsMembers(n: nat, i: nat)
    requires i <= n
    ensures forall t: Triple :: t in Rows(n, i) <==> InVectors3(n, t) && t.2 >= i
    decreases n - i
  {
    if i < n {
      ColumnMembers(n - i, i);
      RowsMembers(n, i + 1);
    }
  }

  /** A triple is produced exactly when its first component is positive and it sums to `n`. */
  lemma Vectors3Members(n: nat, t: Triple)
    ensures t in Vectors3(n) <==> InVectors3(n, t)
  {
    RowsMembers(n, 0);
  }

  lemma {:induction false} RowsLength(n: nat, i: nat)
    requires i <= n
    ensures 2 * |Rows(n, i)| == (n - i) * (n - i + 1)
    decreases n - i
  {
    if i < n {
      RowsLength(n, i + 1);
      var m := n - i;
      assert (m - 1) * m + 2 * m == m * (m + 1);
    }
  }

  /** `vectors3(n)` yields n(n+1)/2 triples. */
  lemma Vectors3Length(n: nat)
    ensures 2 * |Vectors3(n)| == n * (n + 1)
  {
    RowsLength(n, 0);
  }

  /** The order in which `vectors3` yields triples. */
  predicate Before(a: Triple, b: Triple) {
    a.2 < b.2 || (a.2 == b.2 && a.1 < b.1)
  }

  lemma {:induction false} RowsIncreasing(n: nat, i: nat)
    requires i <= n
    ensures forall p, q | 0 <= p < q < |Rows(n, i)| :: Before(Rows(n, i)[p], Rows(n, i)[q])
    decreases n - i
  {
    if i < n {
      RowsIncreasing(n, i + 1);
      RowsMembers(n, i + 1);
      var c, rest := Column(n - i, i), Rows(n, i + 1);
      forall p, q | 0 <= p < q < |c + rest| ensures Before((c + rest)[p], (c + rest)[q]) {
        if q >= |c| && p < |c| {
          assert rest[q - |c|] in rest;
        } else if p >= |c| {
          assert (c + rest)[p] == rest[p - |c|] && (c + rest)[q] == rest[q - |c|];
        }
      }
    }
  }

  /** `vectors3` yields its triples in strictly increasing order, so never twice. */
  lemma Vectors3Increasing(n: nat)
    ensures forall p, q | 0 <= p < q < |Vectors3(n)| :: Before(Vectors3(n)[p], Vectors3(n)[q])
    ensures forall p, q | 0 <= p < q < |Vectors3(n)| :: Vectors3(n)[p] != Vectors3(n)[q]
  {
    RowsIncreasing(n, 0);
  }

  lemma Vectors3Example()
    ensures Vectors3(3) == [(3, 0, 0), (2, 1, 0), (1, 2, 0), (2, 0, 1), (1, 1, 1), (1, 0, 2)]
  {
    assert Rows(3, 3) == [];
    assert Rows(3, 2) == [(1, 0, 2)];
    assert Column(2, 1) == [(2, 0, 1), (1, 1, 1)];
    assert Column(3, 0) == [(3, 0, 0), (2, 1, 0), (1, 2, 0)];
  }

  function AsSeq(t: Triple): (s: seq<nat>)
    ensures |s| == 3
  {
    [t.0, t.1, t.2]
  }

  /** Pairs up masses and proton counts by position, as `enumerate(masses)` with
      `protons[i]` does. */
  function Zip(ms: seq<nat>, ps: seq<nat>): (r: seq<Pair>)
    requires |ms| == |ps|
    ensures |r| == |ms|
    ensures forall i | 0 <= i < |r| :: r[i] == (ms[i], ps[i])
  {
    seq(|ms|, i requires 0 <= i < |ms| => (ms[i], ps[i]))
  }

  /** The pairs of `s` other than (0, 0), in order. */
  function NonZero(s: seq<Pair>): (r: seq<Pair>)
    ensures |r| <= |s|
    ensures forall x :: x in r <==> x in s && x != (0, 0)
  {
    if s == [] then []
    else (if s[0] == (0, 0) then [] else [s[0]]) + NonZero(s[1..])
  }

  /** The loop over `enumerate(masses)`: rejects the combination when some mass number is
      below its atomic number, and otherwise keeps the pairs that are not (0, 0). */
  function Combine(ms: seq<nat>, ps: seq<nat>): (r: Option<seq<Pair>>)
    requires |ms| == |ps|
    ensures r.Some? <==> forall i | 0 <= i < |ms| :: ps[i] <= ms[i]
    ensures r.Some? ==> r.value == NonZero(Zip(ms, ps))
  {
    if ms == [] then Some([])
    else if ms[0] < ps[0] then None
    else
      assert Zip(ms, ps) == [(ms[0], ps[0])] + Zip(ms[1..], ps[1..]);
      match Combine(ms[1..], ps[1..])
      case None =>
        var i :| 0 <= i < |ms[1..]| && ms[1..][i] < ps[1..][i];
        assert ms[i + 1] < ps[i + 1];
        None
      case Some(rest) =>
        assert forall i | 1 <= i < |ms| :: ms[i] == ms[1..][i - 1] && ps[i] == ps[1..][i - 1];
        Some(if (ms[0], ps[0]) == (0, 0) then rest else [(ms[0], ps[0])] + rest)
  }

  /** The daughters of one pair of mass and atomic-number triples, as a sorted tuple. */
  function Outcome(t: Triple, u: Triple): Option<seq<Pair>> {
    match Combine(AsSeq(t), AsSeq(u))
    case None => None
    case Some(ps) => Some(Sorting.Sort(Sorting.NatPairLeq, ps))
  }

  /** How a mass triple and an atomic-number triple combine: `Outcome` in `possible_daughters`. */
  type Combiner = (Triple, Triple) -> Option<seq<Pair>>

  /** The inner loop over the atomic-number triples. */
  function Against(outcome: Combiner, t: Triple, us: seq<Triple>): seq<seq<Pair>> {
    if us == [] then []
    else (match outcome(t, us[0]) case Some(x) => [x] case None => []) + Against(outcome, t, us[1..])
  }

  /** Every accepted combination, in the order of the two nested loops. */
  function Candidates(outcome: Combiner, ts: seq<Triple>, us: seq<Triple>): seq<seq<Pair>> {
    if ts == [] then [] else Against(outcome, ts[0], us) + Candidates(outcome, ts[1..], us)
  }

  lemma {:induction false} AgainstMembers(outcome: Combiner, t: Triple, us: seq<Triple>, x: seq<Pair>)
    ensures x in Against(outcome, t, us) <==> exists u | u in us :: outcome(t, u) == Some(x)
  {
    if us != [] {
      AgainstMembers(outcome, t, us[1..], x);
      assert forall u | u in us :: u == us[0] || u in us[1..];
    }
  }

  /** A tuple is a candidate exactly when some pair of triples yields it. */
  lemma {:induction false} CandidatesMembers(outcome: Combiner, ts: seq<Triple>, us: seq<Triple>, x: seq<Pair>)
    ensures x in Candidates(outcome, ts, us) <==>
      exists t, u | t in ts && u in us :: outcome(t, u) == Some(x)
  {
    if ts != [] {
      AgainstMembers(outcome, ts[0], us, x);
      CandidatesMembers(outcome, ts[1..], us, x);
      assert forall t | t in ts :: t == ts[0] || t in ts[1..];
    }
  }

  /** The `seen` set: keeps the first occurrence of each element. */
  function Dedup<T>(s: seq<T>, seen: set<T>): seq<T> {
    if s == [] then []
    else if s[0] in seen then Dedup(s[1..], seen)
    else [s[0]] + Dedup(s[1..], seen + {s[0]})
  }

  lemma DedupCons<T>(x: T, s: seq<T>, seen: set<T>)
    ensures Dedup([x] + s, seen) == if x in seen then Dedup(s, seen) else [x] + Dedup(s, seen + {x})
  {
    assert ([x] + s)[0] == x && ([x] + s)[1..] == s;
  }

  /** Deduplication keeps exactly the elements not seen before, each once. */
  lemma {:induction false} DedupKeeps<T>(s: seq<T>, seen: set<T>)
    ensures forall x :: x in Dedup(s, seen) <==> x in s && x !in seen
    ensures forall i, j | 0 <= i < j < |Dedup(s, seen)| :: Dedup(s, seen)[i] != Dedup(s, seen)[j]
  {
    if s != [] {
      if s[0] in seen {
        DedupKeeps(s[1..], seen);
      } else {
        DedupKeeps(s[1..], seen + {s[0]});
        var r := Dedup(s[1..], seen + {s[0]});
        assert Dedup(s, seen) == [s[0]] + r;
        forall i, j | 0 <= i < j < |[s[0]] + r| ensures ([s[0]] + r)[i] != ([s[0]] + r)[j] {
          if i == 0 {
            assert ([s[0]] + r)[j] == r[j - 1] && r[j - 1] in r;
          } else {
            assert ([s[0]] + r)[i] == r[i - 1] && ([s[0]] + r)[j] == r[j - 1];
          }
        }
      }
      assert forall x | x in s :: x == s[0] || x in s[1..];
    }
  }

  /** Deduplication keeps first appearances in order: a later element is appended exactly
      when neither `seen` nor the elements before it hold it. */
  lemma {:induction false} DedupSnoc<T>(s: seq<T>, x: T, seen: set<T>)
    ensures Dedup(s + [x], seen) == Dedup(s, seen) + (if x in seen || x in s then [] else [x])
  {
    if s == [] {
      assert s + [x] == [x] + [];
      DedupCons(x, [], seen);
    } else {
      var tail: seq<T> := if x in seen || x in s then [] else [x];
      assert s + [x] == [s[0]] + (s[1..] + [x]);
      assert x in s <==> x == s[0] || x in s[1..];
      DedupCons(s[0], s[1..] + [x], seen);
      DedupCons(s[0], s[1..], seen);
      assert s == [s[0]] + s[1..];
      if s[0] in seen {
        DedupSnoc(s[1..], x, seen);
      } else {
        DedupSnoc(s[1..], x, seen + {s[0]});
        Text.Assoc([s[0]], Dedup(s[1..], seen + {s[0]}), tail);
      }
    }
  }

  /** `possible_daughters(totals)`. */
  function PossibleDaughters(totals: Pair): seq<seq<Pair>> {
    Dedup(Candidates(Outcome, Vectors3(totals.0), Vectors3(totals.1)), {})
  }

  /** A tuple is yielded exactly when some mass triple and some atomic-number triple
      combine to it. */
  lemma PossibleDaughtersMembers(totals: Pair, x: seq<Pair>)
    ensures x in PossibleDaughters(totals) <==>
      exists t, u | t in Vectors3(totals.0) && u in Vectors3(totals.1) :: Outcome(t, u) == Some(x)
  {
    DedupKeeps(Candidates(Outcome, Vectors3(totals.0), Vectors3(totals.1)), {});
    CandidatesMembers(Outcome, Vectors3(totals.0), Vectors3(totals.1), x);
  }

  /** No tuple is yielded twice. */
  lemma PossibleDaughtersDistinct(totals: Pair)
    ensures forall i, j | 0 <= i < j < |PossibleDaughters(totals)| ::
      PossibleDaughters(totals)[i] != PossibleDaughters(totals)[j]
  {
    DedupKeeps(Candidates(Outcome, Vectors3(totals.0), Vectors3(totals.1)), {});
  }

  function SumMass(s: seq<Pair>): nat {
    if s == [] then 0 else s[0].0 + SumMass(s[1..])
  }

  function SumCharge(s: seq<Pair>): nat {
    if s == [] then 0 else s[0].1 + SumCharge(s[1..])
  }

  /** A way to share out `totals` among one to three nuclei, written as a sorted tuple. */
  predicate IsSplit(totals: Pair, x: seq<Pair>) {
    && 1 <= |x| <= 3
    && Sorting.Sorted(Sorting.NatPairLeq, x)
    && (forall k | 0 <= k < |x| :: x[k] != (0, 0) && x[k].1 <= x[k].0)
    && SumMass(x) == totals.0
    && SumCharge(x) == totals.1
  }

  lemma {:induction false} SumConcat(a: seq<Pair>, b: seq<Pair>)
    ensures SumMass(a + b) == SumMass(a) + SumMass(b)
    ensures SumCharge(a + b) == SumCharge(a) + SumCharge(b)
  {
    if a != [] {
      SumConcat(a[1..], b);
      assert (a + b)[0] == a[0] && (a + b)[1..] == a[1..] + b;
    } else {
      assert a + b == b;
    }
  }

  lemma {:induction false} SumInsert(x: Pair, s: seq<Pair>)
    ensures SumMass(Sorting.Insert(Sorting.NatPairLeq, x, s)) == x.0 + SumMass(s)
    ensures SumCharge(Sorting.Insert(Sorting.NatPairLeq, x, s)) == x.1 + SumCharge(s)
  {
    if s != [] && !Sorting.NatPairLeq(x, s[0]) {
      SumInsert(x, s[1..]);
      var r := Sorting.Insert(Sorting.NatPairLeq, x, s);
      assert r[1..] == Sorting.Insert(Sorting.NatPairLeq, x, s[1..]);
    }
  }

  lemma {:induction false} SumSort(s: seq<Pair>)
    ensures SumMass(Sorting.Sort(Sorting.NatPairLeq, s)) == SumMass(s)
    ensures SumCharge(Sorting.Sort(Sorting.NatPairLeq, s)) == SumCharge(s)
  {
    if s != [] {
      SumSort(s[1..]);
      SumInsert(s[0], Sorting.Sort(Sorting.NatPairLeq, s[1..]));
    }
  }

  lemma {:induction false} SumNonZero(s: seq<Pair>)
    ensures SumMass(NonZero(s)) == SumMass(s) && SumCharge(NonZero(s)) == SumCharge(s)
  {
    if s != [] {
      SumNonZero(s[1..]);
      SumConcat(if s[0] == (0, 0) then [] else [s[0]], NonZero(s[1..]));
    }
  }

  lemma {:induction false} NonZeroConcat(a: seq<Pair>, b: seq<Pair>)
    ensures NonZero(a + b) == NonZero(a) + NonZero(b)
  {
    if a != [] {
      NonZeroConcat(a[1..], b);
      assert (a + b)[0] == a[0] && (a + b)[1..] == a[1..] + b;
    } else {
      assert a + b == b;
    }
  }

  lemma {:induction false} NonZeroKeeps(s: seq<Pair>)
    requires forall k | 0 <= k < |s| :: s[k] != (0, 0)
    ensures NonZero(s) == s
  {
    if s != [] {
      NonZeroKeeps(s[1..]);
    }
  }

  lemma ZipSums(t: Triple, u: Triple)
    ensures SumMass(Zip(AsSeq(t), AsSeq(u))) == t.0 + t.1 + t.2
    ensures SumCharge(Zip(AsSeq(t), AsSeq(u))) == u.0 + u.1 + u.2
  {
    var z := Zip(AsSeq(t), AsSeq(u));
    assert z == [z[0]] + ([z[1]] + [z[2]]);
    SumConcat([z[0]], [z[1]] + [z[2]]);
    SumConcat([z[1]], [z[2]]);
  }

  /** A sorted tuple holds the pairs it was sorted from. */
  lemma SortedFrom(ps: seq<Pair>, k: nat)
    requires k < |Sorting.Sort(Sorting.NatPairLeq, ps)|
    ensures Sorting.Sort(Sorting.NatPairLeq, ps)[k] in ps
  {
    var x := Sorting.Sort(Sorting.NatPairLeq, ps);
    assert x[k] in multiset(ps);
  }

  /** The pairs `Combine` keeps are nuclei that share out the two triples' sums. */
  lemma CombineShares(t: Triple, u: Triple)
    requires t.0 >= 1
    requires Combine(AsSeq(t), AsSeq(u)).Some?
    ensures
      var ps := Combine(AsSeq(t), AsSeq(u)).value;
      && 1 <= |ps| <= 3
      && (forall k | 0 <= k < |ps| :: ps[k] != (0, 0) && ps[k].1 <= ps[k].0)
      && SumMass(ps) == t.0 + t.1 + t.2
      && SumCharge(ps) == u.0 + u.1 + u.2
  {
    var z := Zip(AsSeq(t), AsSeq(u));
    var ps := NonZero(z);
    assert z[0] in ps;
    forall k | 0 <= k < |ps| ensures ps[k] != (0, 0) && ps[k].1 <= ps[k].0 {
      assert ps[k] in ps;
      var i :| 0 <= i < |z| && z[i] == ps[k];
    }
    SumNonZero(z);
    ZipSums(t, u);
  }

  /** Sorting nuclei that share out the totals gives a split of them. */
  lemma SortedSplit(totals: Pair, ps: seq<Pair>)
    requires 1 <= |ps| <= 3
    requires forall k | 0 <= k < |ps| :: ps[k] != (0, 0) && ps[k].1 <= ps[k].0
    requires SumMass(ps) == totals.0 && SumCharge(ps) == totals.1
    ensures IsSplit(totals, Sorting.Sort(Sorting.NatPairLeq, ps))
  {
    var x := Sorting.Sort(Sorting.NatPairLeq, ps);
    Sorting.NatPairLeqTotalPreorder();
    Sorting.SortSorted(Sorting.NatPairLeq, ps);
    forall k | 0 <= k < |x| ensures x[k] != (0, 0) && x[k].1 <= x[k].0 {
      SortedFrom(ps, k);
      var i :| 0 <= i < |ps| && ps[i] == x[k];
    }
    SumSort(ps);
  }

  /** Each combination `possible_daughters` accepts shares out the totals exactly. */
  lemma OutcomeIsSplit(totals: Pair, t: Triple, u: Triple)
    requires InVectors3(totals.0, t) && InVectors3(totals.1, u)
    requires Outcome(t, u).Some?
    ensures IsSplit(totals, Outcome(t, u).value)
  {
    CombineShares(t, u);
    SortedSplit(totals, Combine(AsSeq(t), AsSeq(u)).value);
  }

  /** Everything `possible_daughters` yields is a split of the totals. */
  lemma PossibleDaughtersSound(totals: Pair, x: seq<Pair>)
    requires x in PossibleDaughters(totals)
    ensures IsSplit(totals, x)
  {
    PossibleDaughtersMembers(totals, x);
    var t, u :| t in Vectors3(totals.0) && u in Vectors3(totals.1) && Outcome(t, u) == Some(x);
    Vectors3Members(totals.0, t);
    Vectors3Members(totals.1, u);
    OutcomeIsSplit(totals, t, u);
  }

  lemma {:induction false} SomeCharged(x: seq<Pair>)
    requires SumCharge(x) > 0
    ensures exists h | 0 <= h < |x| :: x[h].1 > 0
  {
    if x[0].1 == 0 {
      SomeCharged(x[1..]);
      var h :| 0 <= h < |x[1..]| && x[1..][h].1 > 0;
      assert x[h + 1].1 > 0;
    }
  }

  /** `(0, 0)` pairs that fill a tuple up to three entries. */
  function Padding(n: nat): (r: seq<Pair>)
    ensures |r| == n && forall k | 0 <= k < n :: r[k] == (0, 0)
  {
    seq(n, k => (0, 0))
  }

  lemma {:induction false} PaddingSums(n: nat)
    ensures SumMass(Padding(n)) == 0 && SumCharge(Padding(n)) == 0 && NonZero(Padding(n)) == []
  {
    if n > 0 {
      PaddingSums(n - 1);
      assert Padding(n)[1..] == Padding(n - 1);
    }
  }

  function MassTriple(p: seq<Pair>): Triple
    requires |p| == 3
  {
    (p[0].0, p[1].0, p[2].0)
  }

  function ChargeTriple(p: seq<Pair>): Triple
    requires |p| == 3
  {
    (p[0].1, p[1].1, p[2].1)
  }

  /** The padded tuple, read back as two triples and zipped, is itself. */
  lemma PaddedZip(q: seq<Pair>)
    requires 1 <= |q| <= 3
    requires forall k | 0 <= k < |q| :: q[k].1 <= q[k].0
    ensures
      var p := q + Padding(3 - |q|);
      && |p| == 3
      && Zip(AsSeq(MassTriple(p)), AsSeq(ChargeTriple(p))) == p
      && forall i | 0 <= i < 3 :: p[i].1 <= p[i].0
  {
    var p := q + Padding(3 - |q|);
    forall i | 0 <= i < 3 ensures p[i].1 <= p[i].0 {
      if i < |q| {
        assert p[i] == q[i];
      } else {
        assert p[i] == Padding(3 - |q|)[i - |q|];
      }
    }
  }

  /** Padding adds nothing to the sums and is dropped again with the (0, 0) pairs. */
  lemma PaddedNonZero(q: seq<Pair>)
    requires |q| <= 3
    requires forall k | 0 <= k < |q| :: q[k] != (0, 0)
    ensures
      var p := q + Padding(3 - |q|);
      && NonZero(p) == q
      && SumMass(p) == SumMass(q)
      && SumCharge(p) == SumCharge(q)
  {
    PaddingSums(3 - |q|);
    SumConcat(q, Padding(3 - |q|));
    NonZeroConcat(q, Padding(3 - |q|));
    NonZeroKeeps(q);
    assert q + [] == q;
  }

  /** Padding a tuple of nuclei with (0, 0) to three entries gives triples that `Combine`
      maps back to the tuple. */
  lemma PaddedCombine(q: seq<Pair>)
    requires 1 <= |q| <= 3
    requires forall k | 0 <= k < |q| :: q[k] != (0, 0) && q[k].1 <= q[k].0
    ensures
      var p := q + Padding(3 - |q|);
      && Combine(AsSeq(MassTriple(p)), AsSeq(ChargeTriple(p))) == Some(q)
      && MassTriple(p).0 == q[0].0 && ChargeTriple(p).0 == q[0].1
      && MassTriple(p).0 + MassTriple(p).1 + MassTriple(p).2 == SumMass(q)
      && ChargeTriple(p).0 + ChargeTriple(p).1 + ChargeTriple(p).2 == SumCharge(q)
  {
    var p := q + Padding(3 - |q|);
    PaddedZip(q);
    PaddedNonZero(q);
    assert p[0] == q[0];
    TriplesCombine(MassTriple(p), ChargeTriple(p), p, q);
  }

  /** Triples that zip to `p`, with no mass below its charge, combine to the pairs of `p`
      other than (0, 0). */
  lemma TriplesCombine(t: Triple, u: Triple, p: seq<Pair>, q: seq<Pair>)
    requires Zip(AsSeq(t), AsSeq(u)) == p
    requires forall i | 0 <= i < |p| :: p[i].1 <= p[i].0
    requires NonZero(p) == q
    ensures Combine(AsSeq(t), AsSeq(u)) == Some(q)
    ensures t.0 + t.1 + t.2 == SumMass(p) && u.0 + u.1 + u.2 == SumCharge(p)
  {
    var ms, cs := AsSeq(t), AsSeq(u);
    ZipSums(t, u);
    forall i | 0 <= i < 3 ensures cs[i] <= ms[i] {
      assert Zip(ms, cs)[i] == (ms[i], cs[i]);
    }
  }

  /** Moving the nucleus at `h` to the front keeps the contents and the sums. */
  lemma RotateToFront(x: seq<Pair>, h: nat)
    requires h < |x|
    ensures
      var q := [x[h]] + x[..h] + x[h + 1..];
      && multiset(q) == multiset(x)
      && (forall k | 0 <= k < |q| :: q[k] in x)
      && SumMass(q) == SumMass(x) && SumCharge(q) == SumCharge(x)
  {
    var rest := x[..h] + x[h + 1..];
    assert x == x[..h] + [x[h]] + x[h + 1..];
    assert [x[h]] + x[..h] + x[h + 1..] == [x[h]] + rest;
    SumConcat(x[..h], [x[h]]);
    SumConcat(x[..h] + [x[h]], x[h + 1..]);
    SumConcat(x[..h], x[h + 1..]);
    SumConcat([x[h]], rest);
  }

  /** A sorted tuple of pairs is what sorting any rearrangement of it gives. */
  lemma SortRestores(q: seq<Pair>, x: seq<Pair>)
    requires multiset(q) == multiset(x)
    requires Sorting.Sorted(Sorting.NatPairLeq, x)
    ensures Sorting.Sort(Sorting.NatPairLeq, q) == x
  {
    Sorting.NatPairLeqTotalPreorder();
    Sorting.SortSorted(Sorting.NatPairLeq, q);
    Sorting.NatPairLeqAntisymmetric(Sorting.Sort(Sorting.NatPairLeq, q));
    Sorting.SortedUnique(Sorting.NatPairLeq, Sorting.Sort(Sorting.NatPairLeq, q), x);
  }

  /** When the totals carry charge, every split of them is yielded: the charged nucleus goes
      first so that both triples have a positive first component, and sorting puts the
      nuclei back in order. */
  lemma PossibleDaughtersComplete(totals: Pair, x: seq<Pair>)
    requires totals.1 >= 1
    requires IsSplit(totals, x)
    ensures x in PossibleDaughters(totals)
  {
    SomeCharged(x);
    var h :| 0 <= h < |x| && x[h].1 > 0;
    var q := [x[h]] + x[..h] + x[h + 1..];
    RotateToFront(x, h);
    PaddedCombine(q);
    var p := q + Padding(3 - |q|);
    var t, u := MassTriple(p), ChargeTriple(p);
    assert InVectors3(totals.0, t) && InVectors3(totals.1, u);
    Vectors3Members(totals.0, t);
    Vectors3Members(totals.1, u);
    SortRestores(q, x);
    assert Outcome(t, u) == Some(x);
    PossibleDaughtersMembers(totals, x);
  }

  lemma {:induction false} CandidatesOfNothing(outcome: Combiner, ts: seq<Triple>)
    ensures Candidates(outcome, ts, []) == []
  {
    if ts != [] {
      CandidatesOfNothing(outcome, ts[1..]);
    }
  }

  /** With no charge to share out there is no atomic-number triple, so nothing is yielded. */
  /** With at least one proton and no more protons than nucleons, the first tuple yielded is
      the single daughter carrying all of the totals. */
  lemma PossibleDaughtersFirst(totals: Pair)
    requires 1 <= totals.1 <= totals.0
    ensures |PossibleDaughters(totals)| >= 1 && PossibleDaughters(totals)[0] == [totals]
  {
    var (m, p) := totals;
    Vectors3First(m);
    Vectors3First(p);
    OutcomeWhole(m, p);
    CandidatesFirst(Outcome, Vectors3(m), Vectors3(p), [totals]);
    DedupFirst(Candidates(Outcome, Vectors3(m), Vectors3(p)), {});
  }

  lemma Vectors3First(n: nat)
    requires n >= 1
    ensures |Vectors3(n)| >= 1 && Vectors3(n)[0] == (n, 0, 0)
  {
    assert Vectors3(n) == Column(n, 0) + Rows(n, 1);
  }

  lemma CandidatesFirst(outcome: Combiner, ts: seq<Triple>, us: seq<Triple>, x: seq<Pair>)
    requires ts != [] && us != [] && outcome(ts[0], us[0]) == Some(x)
    ensures |Candidates(outcome, ts, us)| >= 1 && Candidates(outcome, ts, us)[0] == x
  {
    assert Against(outcome, ts[0], us) == [x] + Against(outcome, ts[0], us[1..]);
  }

  lemma DedupFirst<T>(s: seq<T>, seen: set<T>)
    requires s != [] && s[0] !in seen
    ensures |Dedup(s, seen)| >= 1 && Dedup(s, seen)[0] == s[0]
  {
  }

  /** A mass triple and an atomic-number triple that put everything in the first place give
      one daughter. */
  lemma OutcomeWhole(m: nat, p: nat)
    requires 1 <= m && p <= m
    ensures Outcome((m, 0, 0), (p, 0, 0)) == Some([(m, p)])
  {
    var ms, ps := AsSeq((m, 0, 0)), AsSeq((p, 0, 0));
    assert Zip(ms, ps) == [(m, p), (0, 0), (0, 0)];
    assert NonZero([(0, 0)]) == [] by {
      assert [(0, 0)][1..] == [];
    }
    assert NonZero([(0, 0), (0, 0)]) == [] by {
      assert [(0, 0), (0, 0)][1..] == [(0, 0)];
    }
    assert [(m, p), (0, 0), (0, 0)][1..] == [(0, 0), (0, 0)];
    assert NonZero(Zip(ms, ps)) == [(m, p)];
    var sorted := Sorting.Sort(Sorting.NatPairLeq, [(m, p)]);
    assert sorted[0] in multiset(sorted);
  }

  lemma NoChargeNoDaughters(massNumber: nat)
    ensures PossibleDaughters((massNumber, 0)) == []
  {
    assert Vectors3(0) == [];
    CandidatesOfNothing(Outcome, Vectors3(massNumber));
  }

  /** A repeat of an earlier element is dropped. */
  lemma DedupRepeat<T>(a: T, b: T)
    requires a != b
    ensures Dedup([a, b, b], {}) == [a, b]
  {
    var s0: set<T> := {};
    var s1 := s0 + {a};
    var s2 := s1 + {b};
    assert b in s2 && b !in s1 && a !in s0;
    DedupCons(b, [], s2);
    DedupCons(b, [b], s1);
    DedupCons(a, [b, b], s0);
    assert [a, b, b] == [a] + [b, b] && [b, b] == [b] + [b] && [b] == [b] + [];
  }

  lemma SortExample()
    ensures Sorting.Sort(Sorting.NatPairLeq, [(1, 1), (1, 0)]) == [(1, 0), (1, 1)]
  {
    var s: seq<Pair> := [(1, 1), (1, 0)];
    assert s[1..] == [(1, 0)];
    assert Sorting.Sort(Sorting.NatPairLeq, [(1, 0)]) == [(1, 0)];
    assert Sorting.Insert(Sorting.NatPairLeq, (1, 1), []) == [(1, 1)];
    assert Sorting.Insert(Sorting.NatPairLeq, (1, 1), [(1, 0)]) == [(1, 0), (1, 1)];
  }

  lemma SmallVectors3()
    ensures Vectors3(2) == [(2, 0, 0), (1, 1, 0), (1, 0, 1)]
    ensures Vectors3(1) == [(1, 0, 0)]
  {
    assert Rows(2, 2) == [];
    assert Rows(2, 1) == [(1, 0, 1)];
    assert Column(2, 0) == [(2, 0, 0), (1, 1, 0)];
    assert Rows(1, 1) == [];
    assert Column(1, 0) == [(1, 0, 0)];
  }

  lemma OutcomeExampleA(t: Triple, u: Triple)
    requires t == (2, 0, 0) && u == (1, 0, 0)
    ensures Outcome(t, u) == Some([(2, 1)])
  {
    assert Zip([2, 0, 0], [1, 0, 0]) == [(2, 1), (0, 0), (0, 0)];
    assert NonZero([(2, 1), (0, 0), (0, 0)]) == [(2, 1)];
  }

  lemma OutcomeExampleB(t: Triple, u: Triple)
    requires t == (1, 1, 0) && u == (1, 0, 0)
    ensures Outcome(t, u) == Some([(1, 0), (1, 1)])
  {
    assert Zip([1, 1, 0], [1, 0, 0]) == [(1, 1), (1, 0), (0, 0)];
    assert NonZero([(1, 1), (1, 0), (0, 0)]) == [(1, 1), (1, 0)];
    SortExample();
  }

  lemma OutcomeExampleC(t: Triple, u: Triple)
    requires t == (1, 0, 1) && u == (1, 0, 0)
    ensures Outcome(t, u) == Some([(1, 0), (1, 1)])
  {
    assert Zip([1, 0, 1], [1, 0, 0]) == [(1, 1), (0, 0), (1, 0)];
    assert NonZero([(1, 1), (0, 0), (1, 0)]) == [(1, 1), (1, 0)];
    SortExample();
  }

  /** Against a single atomic-number triple, the candidates are the outcomes of the mass
      triples in order. */
  lemma {:induction false} CandidatesOfOne(outcome: Combiner, ts: seq<Triple>, u: Triple, xs: seq<seq<Pair>>)
    requires |ts| == |xs|
    requires forall i | 0 <= i < |ts| :: outcome(ts[i], u) == Some(xs[i])
    ensures Candidates(outcome, ts, [u]) == xs
  {
    if ts != [] {
      CandidatesOfOne(outcome, ts[1..], u, xs[1..]);
      assert [u][0] == u && [u][1..] == [];
      assert Against(outcome, ts[0], [u]) == [xs[0]];
      assert xs == [xs[0]] + xs[1..];
    }
  }

  /** `possible_daughters((2, 1))`: a deuteron, or a proton and a neutron; the second
      arrangement of the proton and neutron is a repeat and is dropped. */
  lemma PossibleDaughtersExample(massNumber: nat, atomicNumber: nat)
    requires massNumber == 2 && atomicNumber == 1
    ensures PossibleDaughters((massNumber, atomicNumber)) == [[(2, 1)], [(1, 0), (1, 1)]]
  {
    SmallVectors3();
    var v2, v1 := Vectors3(massNumber), Vectors3(atomicNumber);
    var a: seq<Pair> := [(2, 1)];
    var b: seq<Pair> := [(1, 0), (1, 1)];
    var xs := [a, b, b];
    var u := v1[0];
    OutcomeExampleA(v2[0], u);
    OutcomeExampleB(v2[1], u);
    OutcomeExampleC(v2[2], u);
    forall i | 0 <= i < |v2| ensures Outcome(v2[i], u) == Some(xs[i]) {
      assert i == 0 || i == 1 || i == 2;
    }
    CandidatesOfOne(Outcome, v2, u, xs);
    assert v1 == [u];
    DedupRepeat(a, b);
  }
}

=== FILE: products.dfy ===
/** `itertools.product(*lists)`: every way to pick one element from each list, the last
    list varying fastest. */
module Products {

  /** `x` followed by each of `tails`. */
  function Cons<T>(x: T, tails: seq<seq<T>>): (r: seq<seq<T>>)
    ensures |r| == |tails|
    ensures forall i | 0 <= i < |tails| :: r[i] == [x] + tails[i]
  {
    seq(|tails|, i requires 0 <= i < |tails| => [x] + tails[i])
  }

  /** Each of `heads` in turn, followed by each of `tails`. */
  function Prepend<T>(heads: seq<T>, tails: seq<seq<T>>): seq<seq<T>> {
    if heads == [] then [] else Cons(heads[0], tails) + Prepend(heads[1..], tails)
  }

  function Product<T>(lists: seq<seq<T>>): seq<seq<T>> {
    if lists == [] then [[]] else Prepend(lists[0], Product(lists[1..]))
  }

  /** The number of choices: the product of the lengths. */
  function Choices<T>(lists: seq<seq<T>>): nat {
    if lists == [] then 1 else |lists[0]| * Choices(lists[1..])
  }

  lemma {:induction false} PrependLength<T>(heads: seq<T>, tails: seq<seq<T>>)
    ensures |Prepend(heads, tails)| == |heads| * |tails|
  {
    if heads != [] {
      PrependLength(heads[1..], tails);
      assert |heads| * |tails| == |tails| + (|heads| - 1) * |tails|;
    }
  }

  /** `product` yields one tuple per way of choosing. */
  lemma {:induction false} ProductLength<T>(lists: seq<seq<T>>)
    ensures |Product(lists)| == Choices(lists)
  {
    if lists != [] {
      ProductLength(lists[1..]);
      PrependLength(lists[0], Product(lists[1..]));
    }
  }

  lemma {:induction false} PrependMembers<T>(heads: seq<T>, tails: seq<seq<T>>, x: seq<T>)
    ensures x in Prepend(heads, tails) <==> x != [] && x[0] in heads && x[1..] in tails
  {
    if heads != [] {
      PrependMembers(heads[1..], tails, x);
      var c := Cons(heads[0], tails);
      if x in c {
        var i :| 0 <= i < |c| && c[i] == x;
        assert x[1..] == tails[i];
      }
      if x != [] && x[0] == heads[0] && x[1..] in tails {
        var i :| 0 <= i < |tails| && tails[i] == x[1..];
        assert c[i] == [x[0]] + x[1..] == x;
      }
      assert forall h | h in heads :: h == heads[0] || h in heads[1..];
    }
  }

  /** A tuple is yielded exactly when it picks one element from each list, in order. */
  lemma {:induction false} ProductMembers<T>(lists: seq<seq<T>>, x: seq<T>)
    ensures x in Product(lists) <==> |x| == |lists| && forall i | 0 <= i < |x| :: x[i] in lists[i]
  {
    if lists == [] {
      assert x in [[]] <==> x == [];
    } else {
      PrependMembers(lists[0], Product(lists[1..]), x);
      if x != [] {
        ProductMembers(lists[1..], x[1..]);
        assert forall i | 1 <= i < |x| :: x[i] == x[1..][i - 1];
        assert forall i | 1 <= i < |lists| :: lists[i] == lists[1..][i - 1];
      }
    }
  }

  /** `idx` chooses one position in each list. */
  predicate IsChoice<T>(lists: seq<seq<T>>, idx: seq<nat>) {
    |idx| == |lists| && forall i | 0 <= i < |idx| :: idx[i] < |lists[i]|
  }

  /** The elements a choice picks. */
  function Pick<T>(lists: seq<seq<T>>, idx: seq<nat>): (x: seq<T>)
    requires IsChoice(lists, idx)
    ensures |x| == |lists|
    ensures forall i | 0 <= i < |lists| :: x[i] == lists[i][idx[i]]
  {
    seq(|lists|, i requires 0 <= i < |lists| => lists[i][idx[i]])
  }

  /** The position of a choice when the last list varies fastest: the choice read as a
      mixed-radix number whose digits are the positions. */
  function Rank<T>(lists: seq<seq<T>>, idx: seq<nat>): nat
    requires IsChoice(lists, idx)
  {
    if lists == [] then 0
    else
      assert IsChoice(lists[1..], idx[1..]) by {
        forall i | 0 <= i < |idx[1..]| ensures idx[1..][i] < |lists[1..][i]| {
          assert idx[1..][i] == idx[i + 1] && lists[1..][i] == lists[i + 1];
        }
      }
      idx[0] * Choices(lists[1..]) + Rank(lists[1..], idx[1..])
  }

  lemma {:induction false} RankBound<T>(lists: seq<seq<T>>, idx: seq<nat>)
    requires IsChoice(lists, idx)
    ensures Rank(lists, idx) < Choices(lists)
  {
    if lists != [] {
      var tail := lists[1..];
      assert IsChoice(tail, idx[1..]) by {
        forall i | 0 <= i < |idx[1..]| ensures idx[1..][i] < |tail[i]| {
          assert idx[1..][i] == idx[i + 1] && tail[i] == lists[i + 1];
        }
      }
      RankBound(tail, idx[1..]);
      RowBound(idx[0], Rank(tail, idx[1..]), |lists[0]|, Choices(tail));
    }
  }

  /** Row `i`, column `j` of an `m`-row table with `n` columns lies before its end. */
  lemma RowBound(i: nat, j: nat, m: nat, n: nat)
    requires i < m && j < n
    ensures i * n + j < m * n
  {
    assert (i + 1) * n <= m * n by {
      assert m * n == (i + 1) * n + (m - i - 1) * n;
    }
  }

  /** `Prepend` runs through the heads slowest: the tuple at row `i`, column `j` is the
      `i`th head followed by the `j`th tail. */
  lemma {:induction false} PrependAt<T>(heads: seq<T>, tails: seq<seq<T>>, i: nat, j: nat)
    requires i < |heads| && j < |tails|
    ensures i * |tails| + j < |Prepend(heads, tails)|
    ensures Prepend(heads, tails)[i * |tails| + j] == [heads[i]] + tails[j]
  {
    PrependLength(heads, tails);
    RowBound(i, j, |heads|, |tails|);
    if i > 0 {
      PrependAt(heads[1..], tails, i - 1, j);
      assert i * |tails| + j == |tails| + ((i - 1) * |tails| + j);
      assert heads[1..][i - 1] == heads[i];
    }
  }

  /** `product` yields the choices in order of rank, the first list varying slowest and the
      last fastest: the tuple at the rank of a choice is what that choice picks. */
  lemma {:induction false} ProductAt<T>(lists: seq<seq<T>>, idx: seq<nat>)
    requires IsChoice(lists, idx)
    ensures Rank(lists, idx) < |Product(lists)|
    ensures Product(lists)[Rank(lists, idx)] == Pick(lists, idx)
  {
    ProductLength(lists);
    RankBound(lists, idx);
    if lists != [] {
      var tail := lists[1..];
      var rest := idx[1..];
      assert IsChoice(tail, rest) by {
        forall i | 0 <= i < |rest| ensures rest[i] < |tail[i]| {
          assert rest[i] == idx[i + 1] && tail[i] == lists[i + 1];
        }
      }
      ProductAt(tail, rest);
      ProductLength(tail);
      PrependAt(lists[0], Product(tail), idx[0], Rank(tail, rest));
      assert Pick(lists, idx) == [lists[0][idx[0]]] + Pick(tail, rest) by {
        forall i | 1 <= i < |lists| ensures Pick(lists, idx)[i] == Pick(tail, rest)[i - 1] {
          assert tail[i - 1] == lists[i] && rest[i - 1] == idx[i];
        }
      }
    }
  }

  /** An empty list leaves nothing to choose. */
  lemma ProductOfEmpty<T>(lists: seq<seq<T>>, k: nat)
    requires k < |lists| && lists[k] == []
    ensures Product(lists) == []
  {
    if Product(lists) != [] {
      ProductMembers(lists, Product(lists)[0]);
    }
  }
}

=== FILE: reactions.dfy ===
/** A reaction between reactants and daughters: its Q-value, stability and notes (`Reaction`,
    `GammaPhoton`). */
module Reactions {
  import opened Results
  import opened Nuclides
  import Registry
  import Tables

  /** A daughter: a nucleus, or the photon the notes add to a reaction with a single daughter
      (`GammaPhoton`). */
  datatype Particle = Nucleus(nuclide: Nuclide) | Photon {

    /** `d.notes`: the photon carries the gamma note. */
    function Notes(): set<string> {
      match this
      case Nucleus(n) => n.notes
      case Photon => {Tables.Gamma}
    }
  }

  /** `Reaction`: counted reactants and daughters, with the Q-value and stability fixed when
      the reaction is made. */
  datatype Reaction = Reaction(
    left: seq<(nat, Nuclide)>,
    right: seq<(nat, Particle)>,
    qValueKev: real,
    isStable: bool)

  /** The sum of count times mass excess over one side. */
  function MassExcess(side: seq<(nat, Nuclide)>): real {
    if side == [] then 0.0
    else (side[0].0 as real) * side[0].1.massExcessKev + MassExcess(side[1..])
  }

  /** `Reaction._q_value_kev`: the mass excess the reactants carry in beyond the daughters. */
  function QValue(left: seq<(nat, Nuclide)>, right: seq<(nat, Nuclide)>): real {
    MassExcess(left) - MassExcess(right)
  }

  lemma {:induction false} MassExcessConcat(a: seq<(nat, Nuclide)>, b: seq<(nat, Nuclide)>)
    ensures MassExcess(a + b) == MassExcess(a) + MassExcess(b)
  {
    if a == [] {
      assert a + b == b;
    } else {
      MassExcessConcat(a[1..], b);
      assert (a + b)[0] == a[0] && (a + b)[1..] == a[1..] + b;
    }
  }

  /** Running a reaction backwards negates its Q-value. */
  lemma QValueAntisymmetric(left: seq<(nat, Nuclide)>, right: seq<(nat, Nuclide)>)
    ensures QValue(right, left) == -QValue(left, right)
  {
  }

  /** Q-values add up when two reactions are run side by side. */
  lemma QValueAdditive(l1: seq<(nat, Nuclide)>, r1: seq<(nat, Nuclide)>, l2: seq<(nat, Nuclide)>, r2: seq<(nat, Nuclide)>)
    ensures QValue(l1 + l2, r1 + r2) == QValue(l1, r1) + QValue(l2, r2)
  {
    MassExcessConcat(l1, l2);
    MassExcessConcat(r1, r2);
  }

  /** Multiplying every count by `k` multiplies the mass excess of a side by `k`. */
  lemma {:induction false} MassExcessScales(side: seq<(nat, Nuclide)>, k: nat)
    ensures MassExcess(Scale(side, k)) == (k as real) * MassExcess(side)
  {
    if side != [] {
      MassExcessScales(side[1..], k);
      assert Scale(side, k)[1..] == Scale(side[1..], k);
      var c, e := side[0].0 as real, side[0].1.massExcessKev;
      assert ((k * side[0].0) as real) * e == (k as real) * (c * e);
    }
  }

  /** Every count multiplied by `k`. */
  function Scale(side: seq<(nat, Nuclide)>, k: nat): (r: seq<(nat, Nuclide)>)
    ensures |r| == |side|
    ensures forall i | 0 <= i < |side| :: r[i] == (k * side[i].0, side[i].1)
  {
    seq(|side|, i requires 0 <= i < |side| => (k * side[i].0, side[i].1))
  }

  /** A reaction that gives back its reactants releases nothing. */
  lemma QValueOfNothing(side: seq<(nat, Nuclide)>)
    ensures QValue(side, side) == 0.0
  {
  }

  /** The daughters as particles. */
  function Nuclei(side: seq<(nat, Nuclide)>): (r: seq<(nat, Particle)>)
    ensures |r| == |side|
    ensures forall i | 0 <= i < |side| :: r[i] == (side[i].0, Nucleus(side[i].1))
  {
    seq(|side|, i requires 0 <= i < |side| => (side[i].0, Nucleus(side[i].1)))
  }

  /** `Reaction._is_stable`: every daughter occurs in nature. */
  predicate AllStable(side: seq<(nat, Nuclide)>) {
    forall i | 0 <= i < |side| :: side[i].1.isStable
  }

  /** `Reaction.__init__`. */
  function Make(left: seq<(nat, Nuclide)>, right: seq<(nat, Nuclide)>): (r: Reaction)
    ensures r.left == left && r.right == Nuclei(right)
    ensures r.qValueKev == MassExcess(left) - MassExcess(right)
    ensures r.isStable <==> forall i | 0 <= i < |right| :: right[i].1.isStable
  {
    Reaction(left, Nuclei(right), QValue(left, right), AllStable(right))
  }

  /** `Reaction.load`: looks every signature up in the table; an unknown one is an error. */
  function Load(reg: Registry.Registry, reactants: seq<(nat, (string, string))>, daughters: seq<(nat, (string, string))>)
    : (r: Result<Reaction, Error>)
    ensures r.Ok? <==> Resolves(reg, reactants) && Resolves(reg, daughters)
    ensures r.Ok? ==> |r.value.left| == |reactants| && |r.value.right| == |daughters|
    ensures r.Ok? ==> forall i | 0 <= i < |reactants| ::
      r.value.left[i].0 == reactants[i].0 && Registry.Get(reg, reactants[i].1) == Some(r.value.left[i].1)
    ensures r.Ok? ==> forall i | 0 <= i < |daughters| ::
      r.value.right[i].0 == daughters[i].0 && r.value.right[i].1.Nucleus? &&
      Registry.Get(reg, daughters[i].1) == Some(r.value.right[i].1.nuclide)
    ensures r.Ok? ==> r.value == Make(r.value.left, Resolve(reg, daughters).value)
  {
    var left :- Resolve(reg, reactants);
    var right :- Resolve(reg, daughters);
    Ok(Make(left, right))
  }

  predicate Resolves(reg: Registry.Registry, side: seq<(nat, (string, string))>) {
    forall i | 0 <= i < |side| :: Registry.Get(reg, side[i].1).Some?
  }

  /** `((num, nuclides[s]) for num, s in ...)`: the first unknown signature is the error. */
  function Resolve(reg: Registry.Registry, side: seq<(nat, (string, string))>): (r: Result<seq<(nat, Nuclide)>, Error>)
    ensures r.Ok? <==> Resolves(reg, side)
    ensures r.Ok? ==> |r.value| == |side|
    ensures r.Ok? ==> forall i | 0 <= i < |side| ::
      r.value[i].0 == side[i].0 && Registry.Get(reg, side[i].1) == Some(r.value[i].1)
  {
    if side == [] then Ok([])
    else
      var n :- Registry.Lookup(reg, side[0].1);
      var rest :- Resolve(reg, side[1..]);
      assert forall i | 1 <= i < |side| :: side[i] == side[1..][i - 1];
      Ok([(side[0].0, n)] + rest)
  }

  /** `Reaction._neutron_transfer`: the daughter is the parent with one more neutron. */
  predicate NeutronTransfer(d: Nuclide, p: Nuclide) {
    d.Numbers() == (p.massNumber + 1, p.atomicNumber)
  }

  /** `Reaction.has_gamma`: at most one daughter entry, and only single counts. */
  predicate HasGamma(right: seq<(nat, Particle)>) {
    |right| <= 1 && forall i | 0 <= i < |right| :: right[i].0 == 1
  }

  predicate IsNamed(x: Particle, name: string) {
    x.Nucleus? && x.nuclide.name == name
  }

  /** Some daughter nucleus is called `name`. */
  predicate HasDaughter(right: seq<(nat, Particle)>, name: string) {
    exists i | 0 <= i < |right| :: IsNamed(right[i].1, name)
  }

  /** Some daughter nucleus is a reactant with one more neutron. */
  predicate HasNeutronTransfer(left: seq<(nat, Nuclide)>, right: seq<(nat, Particle)>) {
    exists i, j | 0 <= i < |right| && 0 <= j < |left| ::
      right[i].1.Nucleus? && NeutronTransfer(right[i].1.nuclide, left[j].1)
  }

  /** Some daughter carries `note`. */
  predicate Carries(right: seq<(nat, Particle)>, note: string) {
    exists i | 0 <= i < |right| :: note in right[i].1.Notes()
  }

  /** The first loop of `Reaction.notes`: the notes the daughter labels and the neutron
      transfers earn. A photon earns none: its label is not noteworthy and its numbers,
      (0, 0), are never a reactant's plus a neutron. */
  function Scan(left: seq<(nat, Nuclide)>, right: seq<(nat, Particle)>): (notes: set<string>)
    ensures forall name | name in Tables.ReactionNotes ::
      Tables.ReactionNotes[name] in notes <==> HasDaughter(right, name)
    ensures Tables.NeutronTransfer in notes <==> HasNeutronTransfer(left, right)
    ensures notes <= Tables.ReactionNotes.Values + {Tables.NeutronTransfer}
  {
    if right == [] then {}
    else
      var x := right[0].1;
      var named := if x.Nucleus? && x.nuclide.name in Tables.ReactionNotes
        then {Tables.ReactionNotes[x.nuclide.name]} else {};
      var transfer := if x.Nucleus? && exists j | 0 <= j < |left| :: NeutronTransfer(x.nuclide, left[j].1)
        then {Tables.NeutronTransfer} else {};
      var rest := Scan(left, right[1..]);
      TransferStep(left, right);
      forall name | name in Tables.ReactionNotes
        ensures HasDaughter(right, name) <==> IsNamed(x, name) || HasDaughter(right[1..], name)
      {
        DaughterStep(right, name);
      }
      named + transfer + rest
  }

  lemma TransferStep(left: seq<(nat, Nuclide)>, right: seq<(nat, Particle)>)
    requires right != []
    ensures HasNeutronTransfer(left, right) <==>
      || (right[0].1.Nucleus? && exists j | 0 <= j < |left| :: NeutronTransfer(right[0].1.nuclide, left[j].1))
      || HasNeutronTransfer(left, right[1..])
  {
    if HasNeutronTransfer(left, right[1..]) {
      var i, j :| 0 <= i < |right[1..]| && 0 <= j < |left| &&
        right[1..][i].1.Nucleus? && NeutronTransfer(right[1..][i].1.nuclide, left[j].1);
      assert right[i + 1] == right[1..][i];
    }
    if HasNeutronTransfer(left, right) {
      var i, j :| 0 <= i < |right| && 0 <= j < |left| &&
        right[i].1.Nucleus? && NeutronTransfer(right[i].1.nuclide, left[j].1);
      if i > 0 {
        assert right[1..][i - 1] == right[i];
      }
    }
  }

  lemma DaughterStep(right: seq<(nat, Particle)>, name: string)
    requires right != []
    ensures HasDaughter(right, name) <==> IsNamed(right[0].1, name) || HasDaughter(right[1..], name)
  {
    if HasDaughter(right[1..], name) {
      var i :| 0 <= i < |right[1..]| && IsNamed(right[1..][i].1, name);
      assert right[i + 1] == right[1..][i];
    }
    if HasDaughter(right, name) {
      var i :| 0 <= i < |right| && IsNamed(right[i].1, name);
      if i > 0 {
        assert right[1..][i - 1] == right[i];
      }
    }
  }

  /** The last loop of `Reaction.notes`: the notes every daughter carries. */
  function Carried(right: seq<(nat, Particle)>): (notes: set<string>)
    ensures forall note :: note in notes <==> Carries(right, note)
  {
    if right == [] then {}
    else
      assert forall i | 1 <= i < |right| :: right[i] == right[1..][i - 1];
      right[0].1.Notes() + Carried(right[1..])
  }

  /** The daughters after `Reaction.notes`: a photon is appended when `has_gamma` holds. */
  function WithPhoton(right: seq<(nat, Particle)>): seq<(nat, Particle)> {
    if HasGamma(right) then right + [(1, Photon)] else right
  }

  /** Every daughter nucleus was decoded from the table. */
  predicate DecodedDaughters(right: seq<(nat, Particle)>) {
    forall i | 0 <= i < |right| :: right[i].1.Nucleus? ==> Valid(right[i].1.nuclide)
  }

  /** The notes any daughter may carry. */
  lemma CarriedNotes(right: seq<(nat, Particle)>)
    requires DecodedDaughters(right)
    ensures Carried(right) <= DaughterNotes
  {
    forall note | note in Carried(right)
      ensures note in {Tables.BetaMinusNote, Tables.BetaPlusNote, Tables.Gamma}
    {
      var i :| 0 <= i < |right| && note in right[i].1.Notes();
    }
  }

  lemma CarriesWithPhoton(right: seq<(nat, Particle)>, note: string)
    ensures Carries(WithPhoton(right), note) <==> Carries(right, note) || (HasGamma(right) && note == Tables.Gamma)
  {
    var right' := WithPhoton(right);
    if HasGamma(right) {
      assert right'[|right|].1.Notes() == {Tables.Gamma};
      assert forall i | 0 <= i < |right| :: right'[i] == right[i];
    }
  }

  /** `Reaction.notes`: the notes, and the reaction as the property leaves it, for the
      property appends a photon to the daughters it reads when `has_gamma` holds. Nothing
      else about the reaction changes; in particular its stability and Q-value are not
      recomputed. */
  function Notes(r: Reaction): (result: (set<string>, Reaction))
    requires DecodedDaughters(r.right)
    ensures result.1 == r.(right := WithPhoton(r.right))
    ensures DecodedDaughters(result.1.right)
  {
    var right' := WithPhoton(r.right);
    var notes := Scan(r.left, r.right)
      + (if r.isStable then {Tables.StableNote} else {})
      + (if HasGamma(r.right) then {Tables.Gamma} else {})
      + Carried(right');
    (notes, r.(right := right'))
  }

  /** A note of `Reaction.notes` comes from the first loop, stability, the photon or a
      daughter of the extended list. */
  lemma NotesMember(r: Reaction, note: string)
    requires DecodedDaughters(r.right)
    ensures note in Notes(r).0 <==>
      || note in Scan(r.left, r.right)
      || (r.isStable && note == Tables.StableNote)
      || (HasGamma(r.right) && note == Tables.Gamma)
      || Carries(WithPhoton(r.right), note)
  {
  }

  /** The first loop earns only the label notes and `n-transfer`. */
  lemma ScanWithin(left: seq<(nat, Nuclide)>, right: seq<(nat, Particle)>)
    ensures Scan(left, right) <= ScanNotes
  {
    forall v | v in Tables.ReactionNotes.Values ensures v in {"\U{3B1}", "n", "t"} {
      var name :| name in Tables.ReactionNotes && Tables.ReactionNotes[name] == v;
      assert name in {"4He", "n", "t"};
    }
  }

  const ScanNotes: set<string> := {"\U{3B1}", "n", "t", Tables.NeutronTransfer}
  const DaughterNotes: set<string> := {Tables.BetaMinusNote, Tables.BetaPlusNote, Tables.Gamma}

  lemma StableDistinct()
    ensures Tables.StableNote !in ScanNotes && Tables.StableNote !in DaughterNotes
  {
    assert |Tables.StableNote| == 6;
  }

  lemma GammaDistinct()
    ensures Tables.Gamma !in ScanNotes && Tables.Gamma != Tables.StableNote
  {
    assert Tables.Gamma[0] == '\U{263}';
  }

  lemma TransferDistinct()
    ensures Tables.NeutronTransfer !in DaughterNotes && Tables.NeutronTransfer != Tables.StableNote
  {
    assert |Tables.NeutronTransfer| == 10;
  }

  lemma BetaDistinct(note: string)
    requires note == Tables.BetaMinusNote || note == Tables.BetaPlusNote
    ensures note !in ScanNotes && note != Tables.StableNote && note != Tables.Gamma
  {
    assert |note| == 3;
  }

  lemma NamedDistinct(note: string)
    requires note in {"\U{3B1}", "n", "t"}
    ensures note != Tables.StableNote && note !in DaughterNotes
  {
    assert |note| == 1;
  }

  /** A note the first loop cannot earn. */
  lemma NotScanned(left: seq<(nat, Nuclide)>, right: seq<(nat, Particle)>, note: string)
    requires note !in ScanNotes
    ensures note !in Scan(left, right)
  {
    ScanWithin(left, right);
  }

  /** A note no daughter, nor the photon, can carry. */
  lemma NotCarried(right: seq<(nat, Particle)>, note: string)
    requires DecodedDaughters(right)
    requires note !in DaughterNotes
    ensures !Carries(WithPhoton(right), note)
  {
    PhotonDecoded(right);
    CarriedNotes(WithPhoton(right));
    assert note !in Carried(WithPhoton(right));
  }

  /** The extended daughters are still decoded: the photon is not a nucleus. */
  lemma PhotonDecoded(right: seq<(nat, Particle)>)
    requires DecodedDaughters(right)
    ensures DecodedDaughters(WithPhoton(right))
  {
  }

  /** Only stability earns "stable". */
  lemma NotesStable(r: Reaction)
    requires DecodedDaughters(r.right)
    ensures Tables.StableNote in Notes(r).0 <==> r.isStable
  {
    StableDistinct();
    NotScanned(r.left, r.right, Tables.StableNote);
    NotCarried(r.right, Tables.StableNote);
    NotesMember(r, Tables.StableNote);
  }

  /** The gamma note: earned by `has_gamma` or carried by a daughter. */
  lemma NotesGamma(r: Reaction)
    requires DecodedDaughters(r.right)
    ensures Tables.Gamma in Notes(r).0 <==> HasGamma(r.right) || Carries(r.right, Tables.Gamma)
  {
    GammaDistinct();
    NotScanned(r.left, r.right, Tables.Gamma);
    NotesMember(r, Tables.Gamma);
    CarriesWithPhoton(r.right, Tables.Gamma);
  }

  /** Only a neutron transfer earns `n-transfer`. */
  lemma NotesTransfer(r: Reaction)
    requires DecodedDaughters(r.right)
    ensures Tables.NeutronTransfer in Notes(r).0 <==> HasNeutronTransfer(r.left, r.right)
  {
    TransferDistinct();
    NotCarried(r.right, Tables.NeutronTransfer);
    NotesMember(r, Tables.NeutronTransfer);
  }

  /** The notes earned by the daughters' labels. */
  lemma NotesNamed(r: Reaction, name: string)
    requires DecodedDaughters(r.right)
    requires name in Tables.ReactionNotes
    ensures Tables.ReactionNotes[name] in Notes(r).0 <==> HasDaughter(r.right, name)
  {
    var note := Tables.ReactionNotes[name];
    assert name in {"4He", "n", "t"};
    NamedDistinct(note);
    NotCarried(r.right, note);
    NotesMember(r, note);
  }

  /** A decay note is in the notes exactly when a daughter carries it. */
  lemma NotesBeta(r: Reaction, note: string)
    requires DecodedDaughters(r.right)
    requires note == Tables.BetaMinusNote || note == Tables.BetaPlusNote
    ensures note in Notes(r).0 <==> Carries(r.right, note)
  {
    BetaDistinct(note);
    NotScanned(r.left, r.right, note);
    NotesMember(r, note);
    CarriesWithPhoton(r.right, note);
  }

  /** The decay notes the daughters carry. */
  lemma NotesCarried(r: Reaction)
    requires DecodedDaughters(r.right)
    ensures Tables.BetaMinusNote in Notes(r).0 <==> Carries(r.right, Tables.BetaMinusNote)
    ensures Tables.BetaPlusNote in Notes(r).0 <==> Carries(r.right, Tables.BetaPlusNote)
  {
    NotesBeta(r, Tables.BetaMinusNote);
    NotesBeta(r, Tables.BetaPlusNote);
  }

  /** What earns each note of `Reaction.notes`. */
  lemma NotesContents(r: Reaction)
    requires DecodedDaughters(r.right)
    ensures
      var notes := Notes(r).0;
      && (Tables.StableNote in notes <==> r.isStable)
      && (Tables.Gamma in notes <==> HasGamma(r.right) || Carries(r.right, Tables.Gamma))
      && (Tables.NeutronTransfer in notes <==> HasNeutronTransfer(r.left, r.right))
      && (forall name | name in Tables.ReactionNotes ::
            Tables.ReactionNotes[name] in notes <==> HasDaughter(r.right, name))
      && (Tables.BetaMinusNote in notes <==> Carries(r.right, Tables.BetaMinusNote))
      && (Tables.BetaPlusNote in notes <==> Carries(r.right, Tables.BetaPlusNote))
  {
    NotesStable(r);
    NotesGamma(r);
    NotesTransfer(r);
    NotesCarried(r);
    forall name | name in Tables.ReactionNotes
      ensures Tables.ReactionNotes[name] in Notes(r).0 <==> HasDaughter(r.right, name)
    {
      NotesNamed(r, name);
    }
  }

  /** Every note `Reaction.notes` can return. */
  const AllNotes: set<string> := {"\U{3B1}", "n", "t", Tables.NeutronTransfer, Tables.StableNote,
    Tables.Gamma, Tables.BetaMinusNote, Tables.BetaPlusNote}

  lemma NotesWithin(r: Reaction)
    requires DecodedDaughters(r.right)
    ensures Notes(r).0 <= AllNotes
  {
    ScanWithin(r.left, r.right);
    PhotonDecoded(r.right);
    CarriedNotes(WithPhoton(r.right));
  }

  /** Reading the notes again appends a second photon only to a reaction that had no
      daughters: the first photon makes a single daughter entry, which again earns one. */
  lemma PhotonOnce(right: seq<(nat, Particle)>)
    ensures WithPhoton(WithPhoton(right)) == WithPhoton(right) <==> right != []
  {
    if right == [] {
      assert WithPhoton(right) == [(1, Photon)];
      assert |WithPhoton(WithPhoton(right))| == 2;
    }
  }

  /** After two readings of the notes the daughters no longer change. */
  lemma PhotonSettles(right: seq<(nat, Particle)>)
    ensures WithPhoton(WithPhoton(WithPhoton(right))) == WithPhoton(WithPhoton(right))
  {
    PhotonOnce(right);
    PhotonOnce(WithPhoton(right));
    if right == [] {
      assert WithPhoton(right) != [];
    }
  }

  /** The photon is not a nucleus, so it changes neither the label nor the transfer notes. */
  lemma PhotonEarnsNothing(left: seq<(nat, Nuclide)>, right: seq<(nat, Particle)>, name: string)
    ensures HasDaughter(WithPhoton(right), name) <==> HasDaughter(right, name)
    ensures HasNeutronTransfer(left, WithPhoton(right)) <==> HasNeutronTransfer(left, right)
  {
    var right' := WithPhoton(right);
    assert forall i | 0 <= i < |right| :: right'[i] == right[i];
    if HasDaughter(right', name) {
      var i :| 0 <= i < |right'| && IsNamed(right'[i].1, name);
      assert i < |right|;
    }
    if HasNeutronTransfer(left, right') {
      var i, j :| 0 <= i < |right'| && 0 <= j < |left| &&
        right'[i].1.Nucleus? && NeutronTransfer(right'[i].1.nuclide, left[j].1);
      assert i < |right|;
    }
  }

  /** A trailing photon adds nothing to the first loop. */
  lemma {:induction false} ScanPhoton(left: seq<(nat, Nuclide)>, right: seq<(nat, Particle)>)
    ensures Scan(left, right + [(1, Photon)]) == Scan(left, right)
  {
    var extended := right + [(1, Photon)];
    if right == [] {
      assert extended[1..] == [];
    } else {
      ScanPhoton(left, right[1..]);
      assert extended[0] == right[0];
      assert extended[1..] == right[1..] + [(1, Photon)];
    }
  }

  /** A trailing photon adds exactly the gamma note to the last loop. */
  lemma {:induction false} CarriedPhoton(right: seq<(nat, Particle)>)
    ensures Carried(right + [(1, Photon)]) == Carried(right) + {Tables.Gamma}
  {
    var extended := right + [(1, Photon)];
    if right == [] {
      assert extended[1..] == [];
    } else {
      CarriedPhoton(right[1..]);
      assert extended[0] == right[0];
      assert extended[1..] == right[1..] + [(1, Photon)];
    }
  }

  /** The notes of a reaction that earns the photon, read once and twice. */
  lemma RepeatWithPhoton(r: Reaction)
    requires DecodedDaughters(r.right) && HasGamma(r.right)
    ensures DecodedDaughters(Notes(r).1.right)
    ensures Notes(Notes(r).1).0 == Notes(r).0
  {
    var r1 := Notes(r).1;
    var stable: set<string> := if r.isStable then {Tables.StableNote} else {};
    var scanned := Scan(r.left, r.right);
    var carried := Carried(r.right);
    ScanPhoton(r.left, r.right);
    CarriedPhoton(r.right);
    assert r1.right == r.right + [(1, Photon)];
    var base := scanned + stable + carried + {Tables.Gamma};
    Regroup(scanned, stable, carried, Tables.Gamma);
    assert Notes(r).0 == scanned + stable + {Tables.Gamma} + (carried + {Tables.Gamma});
    CarriedPhoton(r1.right);
    if r.right == [] {
      assert HasGamma(r1.right);
      assert Notes(r1).0 == scanned + stable + {Tables.Gamma} + (carried + {Tables.Gamma} + {Tables.Gamma});
    } else {
      assert !HasGamma(r1.right);
      assert Notes(r1).0 == scanned + stable + {} + (carried + {Tables.Gamma});
    }
  }

  lemma Regroup<T>(s: set<T>, t: set<T>, c: set<T>, g: T)
    ensures s + t + {g} + (c + {g}) == s + t + c + {g}
    ensures s + t + {g} + (c + {g} + {g}) == s + t + c + {g}
    ensures s + t + {} + (c + {g}) == s + t + c + {g}
  {
  }

  /** Reading the notes twice gives the same notes, although the first reading may have
      appended a photon to the daughters. */
  lemma NotesRepeat(r: Reaction)
    requires DecodedDaughters(r.right)
    ensures DecodedDaughters(Notes(r).1.right)
    ensures Notes(Notes(r).1).0 == Notes(r).0
  {
    if HasGamma(r.right) {
      RepeatWithPhoton(r);
    } else {
      assert Notes(r).1 == r;
    }
  }
}

=== FILE: registry.dfy ===
/** The table of every decoded nuclide and its indexes (`Nuclides`). */
module Registry {
  import opened Results
  import opened Nuclides

  /** `Nuclides`: the nuclides in table order and the four indexes built from them. The two
      grouping indexes are `defaultdict(list)`s: reading a missing key gives `[]`. */
  datatype Registry = Registry(
    nuclides: seq<Nuclide>,
    byLabel: map<string, Nuclide>,
    bySignature: map<(string, string), Nuclide>,
    byAtomicNumber: map<nat, seq<Nuclide>>,
    isomers: map<(nat, nat), seq<Nuclide>>)

  /** A read of a `defaultdict(list)`. */
  function Group<K>(m: map<K, seq<Nuclide>>, k: K): seq<Nuclide> {
    if k in m then m[k] else []
  }

  const Empty := Registry([], map[], map[], map[], map[])

  /** One pass of the loop in `Nuclides.__init__`: later nuclides overwrite earlier ones in
      the label and signature indexes and are appended to their groups. */
  function Add(r: Registry, n: Nuclide): (r': Registry)
    ensures r'.nuclides == r.nuclides + [n]
    ensures r'.bySignature == r.bySignature[n.Signature() := n]
    ensures Group(r'.isomers, n.Numbers()) == Group(r.isomers, n.Numbers()) + [n]
    ensures forall k | k != n.Numbers() :: Group(r'.isomers, k) == Group(r.isomers, k)
    ensures Group(r'.byAtomicNumber, n.atomicNumber) == Group(r.byAtomicNumber, n.atomicNumber) + [n]
    ensures forall z | z != n.atomicNumber :: Group(r'.byAtomicNumber, z) == Group(r.byAtomicNumber, z)
  {
    Registry(
      nuclides := r.nuclides + [n],
      byLabel := r.byLabel[n.rawLabel := n],
      bySignature := r.bySignature[n.Signature() := n],
      byAtomicNumber := r.byAtomicNumber[n.atomicNumber := Group(r.byAtomicNumber, n.atomicNumber) + [n]],
      isomers := r.isomers[n.Numbers() := Group(r.isomers, n.Numbers()) + [n]])
  }

  /** `Nuclides.__init__`. */
  function Build(ns: seq<Nuclide>): (r: Registry)
    ensures r.nuclides == ns
  {
    if ns == [] then Empty else Add(Build(ns[..|ns| - 1]), ns[|ns| - 1])
  }

  /** `Nuclides.atomic_number`. */
  function AtomicNumber(r: Registry, z: nat): seq<Nuclide> {
    Group(r.byAtomicNumber, z)
  }

  /** `nuclides.isomers[numbers]`. */
  function Isomers(r: Registry, numbers: (nat, nat)): seq<Nuclide> {
    Group(r.isomers, numbers)
  }

  /** `Nuclides.get`: `None` when no nuclide has the signature. */
  function Get(r: Registry, signature: (string, string)): Option<Nuclide> {
    if signature in r.bySignature then Some(r.bySignature[signature]) else None
  }

  /** `Nuclides.__getitem__`: a missing signature is an error. */
  function Lookup(r: Registry, signature: (string, string)): (n: Result<Nuclide, Error>)
    ensures n.Ok? <==> Get(r, signature).Some?
    ensures n.Ok? ==> Get(r, signature) == Some(n.value)
  {
    Get(r, signature).ToResult(UnknownNuclide(signature))
  }

  /** The nuclides of `ns` with atomic number `z`, in order. */
  function WithAtomicNumber(ns: seq<Nuclide>, z: nat): (r: seq<Nuclide>)
    ensures forall n :: n in r <==> n in ns && n.atomicNumber == z
  {
    if ns == [] then []
    else
      var init := ns[..|ns| - 1];
      var last := ns[|ns| - 1];
      assert ns == init + [last];
      WithAtomicNumber(init, z) + (if last.atomicNumber == z then [last] else [])
  }

  /** The nuclides of `ns` with the given (mass number, atomic number), in order. */
  function WithNumbers(ns: seq<Nuclide>, numbers: (nat, nat)): (r: seq<Nuclide>)
    ensures forall n :: n in r <==> n in ns && n.Numbers() == numbers
  {
    if ns == [] then []
    else
      var init := ns[..|ns| - 1];
      var last := ns[|ns| - 1];
      assert ns == init + [last];
      WithNumbers(init, numbers) + (if last.Numbers() == numbers then [last] else [])
  }

  /** `atomic_number(z)` lists exactly the nuclides with that atomic number, in table order. */
  lemma {:induction false} AtomicNumberInOrder(ns: seq<Nuclide>, z: nat)
    ensures AtomicNumber(Build(ns), z) == WithAtomicNumber(ns, z)
  {
    if ns != [] {
      AtomicNumberInOrder(ns[..|ns| - 1], z);
    }
  }

  /** `isomers[numbers]` lists exactly the states with those numbers, in table order. */
  lemma {:induction false} IsomersInOrder(ns: seq<Nuclide>, numbers: (nat, nat))
    ensures Isomers(Build(ns), numbers) == WithNumbers(ns, numbers)
  {
    if ns != [] {
      IsomersInOrder(ns[..|ns| - 1], numbers);
    }
  }

  lemma GetAdd(r: Registry, n: Nuclide, signature: (string, string))
    ensures Get(Add(r, n), signature) == if n.Signature() == signature then Some(n) else Get(r, signature)
  {
  }

  lemma GetBuild(init: seq<Nuclide>, n: Nuclide, signature: (string, string))
    ensures Get(Build(init + [n]), signature) ==
      if n.Signature() == signature then Some(n) else Get(Build(init), signature)
  {
    assert (init + [n])[..|init|] == init;
    GetAdd(Build(init), n, signature);
  }

  /** `ns[i]` is the last nuclide of `ns` with the signature. */
  predicate LastWith(ns: seq<Nuclide>, signature: (string, string), i: int) {
    && 0 <= i < |ns|
    && ns[i].Signature() == signature
    && forall j | i < j < |ns| :: ns[j].Signature() != signature
  }

  /** `get` finds a signature exactly when some nuclide has it, and then returns the last
      nuclide of the table with that signature. */
  lemma {:induction false} GetFindsLast(ns: seq<Nuclide>, signature: (string, string))
    ensures Get(Build(ns), signature).None? <==> forall i | 0 <= i < |ns| :: ns[i].Signature() != signature
    ensures Get(Build(ns), signature).Some? ==> exists i ::
      LastWith(ns, signature, i) && ns[i] == Get(Build(ns), signature).value
  {
    if ns != [] {
      var init := ns[..|ns| - 1];
      var n := ns[|ns| - 1];
      assert ns == init + [n];
      GetFindsLast(init, signature);
      GetBuild(init, n, signature);
      LastStep(init, n, signature, Get(Build(init), signature));
    }
  }

  /** One more nuclide: it is the last with its signature, and the others keep theirs. */
  lemma LastStep(init: seq<Nuclide>, n: Nuclide, signature: (string, string), prior: Option<Nuclide>)
    requires prior.None? <==> forall i | 0 <= i < |init| :: init[i].Signature() != signature
    requires prior.Some? ==> exists i :: LastWith(init, signature, i) && init[i] == prior.value
    ensures
      var ns := init + [n];
      var found := if n.Signature() == signature then Some(n) else prior;
      && (found.None? <==> forall i | 0 <= i < |ns| :: ns[i].Signature() != signature)
      && (found.Some? ==> exists i :: LastWith(ns, signature, i) && ns[i] == found.value)
  {
    var ns := init + [n];
    assert forall i | 0 <= i < |init| :: ns[i] == init[i];
    assert ns[|init|] == n;
    if n.Signature() == signature {
      assert LastWith(ns, signature, |init|);
    } else if prior.Some? {
      var i :| LastWith(init, signature, i) && init[i] == prior.value;
      assert LastWith(ns, signature, i);
    }
  }

  /** A line's decoding is kept or skipped by the loader, never fatal. */
  predicate Loadable(d: Result<Nuclide, Error>) {
    d.Ok? || d == Err(BadNubaseRow)
  }

  /** The decoded nuclides among `ds`, in order. */
  function Decoded(ds: seq<Result<Nuclide, Error>>): (ns: seq<Nuclide>)
    ensures |ns| <= |ds|
    ensures forall i | 0 <= i < |ns| :: Ok(ns[i]) in ds
  {
    if ds == [] then []
    else (if ds[0].Ok? then [ds[0].value] else []) + Decoded(ds[1..])
  }

  /** The loop of `Nuclides.load` over the decodings of the lines: skips `BadNubaseRow`,
      stops at the first other error. */
  function Collect(ds: seq<Result<Nuclide, Error>>): (r: Result<seq<Nuclide>, Error>)
    ensures r.Ok? <==> forall i | 0 <= i < |ds| :: Loadable(ds[i])
    ensures r.Ok? ==> r.value == Decoded(ds)
    ensures r.Err? ==> exists i | 0 <= i < |ds| ::
      && ds[i] == Err(r.error)
      && r.error != BadNubaseRow
      && forall j | 0 <= j < i :: Loadable(ds[j])
  {
    if ds == [] then Ok([])
    else if !Loadable(ds[0]) then Err(ds[0].error)
    else
      match Collect(ds[1..])
      case Err(e) =>
        var i :| 0 <= i < |ds[1..]| && ds[1..][i] == Err(e) && e != BadNubaseRow
          && forall j | 0 <= j < i :: Loadable(ds[1..][j]);
        assert ds[i + 1] == Err(e);
        Err(e)
      case Ok(rest) =>
        assert forall i | 1 <= i < |ds| :: ds[i] == ds[1..][i - 1];
        Ok((if ds[0].Ok? then [ds[0].value] else []) + rest)
  }

  /** The decoding of every line. */
  function Decodings(lines: seq<string>): (ds: seq<Result<Nuclide, Error>>)
    ensures |ds| == |lines|
    ensures forall i | 0 <= i < |lines| :: ds[i] == Load(lines[i])
  {
    seq(|lines|, i requires 0 <= i < |lines| => Load(lines[i]))
  }

  /** `Nuclides.load`: decodes every line, skipping those without a mass excess; any other
      decoding error ends the load. */
  function LoadLines(lines: seq<string>): (r: Result<seq<Nuclide>, Error>)
    ensures r.Ok? <==> forall i | 0 <= i < |lines| :: Loadable(Load(lines[i]))
    ensures r.Ok? ==> r.value == Decoded(Decodings(lines))
    ensures r.Err? ==> r.error != BadNubaseRow && exists i | 0 <= i < |lines| :: Load(lines[i]) == Err(r.error)
  {
    var ds := Decodings(lines);
    var r := Collect(ds);
    assert r.Err? ==> exists i | 0 <= i < |ds| :: ds[i] == Err(r.error);
    r
  }

  /** A table whose lines all decode loads to exactly their nuclides, in order. */
  lemma {:induction false} DecodedAll(ds: seq<Result<Nuclide, Error>>)
    requires forall i | 0 <= i < |ds| :: ds[i].Ok?
    ensures |Decoded(ds)| == |ds|
    ensures forall i | 0 <= i < |ds| :: Decoded(ds)[i] == ds[i].value
  {
    if ds != [] {
      DecodedAll(ds[1..]);
    }
  }

  /** `Nuclides.load(path=...)`: the registry of a whole table. */
  function LoadTable(lines: seq<string>): (r: Result<Registry, Error>)
    ensures r.Ok? <==> LoadLines(lines).Ok?
    ensures r.Ok? ==> r.value.nuclides == LoadLines(lines).value
  {
    var ns :- LoadLines(lines);
    Ok(Build(ns))
  }
}

=== FILE: results.dfy ===
/** Failure-carrying values shared by every module of the model. */
module Results {

  /** A value that may be absent (Python's `None`). */
  datatype Option<+T> = None | Some(value: T) {

    /** The value, or `error` when it is absent. */
    function ToResult<E>(error: E): Result<T, E> {
      match this
      case Some(v) => Ok(v)
      case None => Err(error)
    }
  }

  /** A computation that either produces a value or raises an error; usable with `:-`. */
  datatype Result<+T, +E> = Ok(value: T) | Err(error: E) {

    predicate IsFailure() {
      Err?
    }

    function PropagateFailure<U>(): Result<U, E>
      requires Err?
    {
      Err(error)
    }

    function Extract(): T
      requires Ok?
    {
      value
    }
  }
}

=== FILE: sorting.dfy ===
/** Python's `sorted()`: a stable sort by a total preorder, and the lexicographic order Python
    uses to compare strings and tuples. */
module Sorting {

  /** `leq` is total and transitive, as a Python sort key comparison is. */
  ghost predicate TotalPreorder<T(!new)>(leq: (T, T) -> bool) {
    && (forall x, y :: leq(x, y) || leq(y, x))
    && (forall x, y, z :: leq(x, y) && leq(y, z) ==> leq(x, z))
  }

  predicate Sorted<T>(leq: (T, T) -> bool, s: seq<T>) {
    forall i, j | 0 <= i < j < |s| :: leq(s[i], s[j])
  }

  /** Inserts `x` in front of the first element it does not exceed. */
  function Insert<T>(leq: (T, T) -> bool, x: T, s: seq<T>): (r: seq<T>)
    ensures multiset(r) == multiset(s) + multiset{x}
    ensures |r| == |s| + 1
  {
    if s == [] || leq(x, s[0]) then [x] + s
    else
      var rest := Insert(leq, x, s[1..]);
      assert s == [s[0]] + s[1..];
      [s[0]] + rest
  }

  /** Insertion sort: elements that compare equal keep their input order, as in Python. */
  function Sort<T>(leq: (T, T) -> bool, s: seq<T>): (r: seq<T>)
    ensures multiset(r) == multiset(s)
    ensures |r| == |s|
  {
    if s == [] then []
    else
      var rest := Sort(leq, s[1..]);
      assert s == [s[0]] + s[1..];
      Insert(leq, s[0], rest)
  }

  lemma {:induction false} InsertSorted<T(!new)>(leq: (T, T) -> bool, x: T, s: seq<T>)
    requires TotalPreorder(leq)
    requires Sorted(leq, s)
    ensures Sorted(leq, Insert(leq, x, s))
  {
    if s != [] && !leq(x, s[0]) {
      InsertSorted(leq, x, s[1..]);
      var rest := Insert(leq, x, s[1..]);
      assert leq(s[0], x);
      assert forall k | 0 <= k < |rest| :: leq(s[0], rest[k]) by {
        forall k | 0 <= k < |rest| ensures leq(s[0], rest[k]) {
          assert rest[k] in multiset(rest);
          assert rest[k] == x || rest[k] in multiset(s[1..]);
          if rest[k] != x {
            var m :| 0 <= m < |s[1..]| && s[1..][m] == rest[k];
            assert s[m + 1] == rest[k];
          }
        }
      }
    }
  }

  /** Sorting yields a sorted permutation. */
  lemma {:induction false} SortSorted<T(!new)>(leq: (T, T) -> bool, s: seq<T>)
    requires TotalPreorder(leq)
    ensures Sorted(leq, Sort(leq, s))
  {
    if s != [] {
      SortSorted(leq, s[1..]);
      InsertSorted(leq, s[0], Sort(leq, s[1..]));
    }
  }

  /** Elements that compare equal both ways are equal. */
  ghost predicate Antisymmetric<T>(leq: (T, T) -> bool, s: seq<T>) {
    forall i, j | 0 <= i < |s| && 0 <= j < |s| :: leq(s[i], s[j]) && leq(s[j], s[i]) ==> s[i] == s[j]
  }

  lemma TailMultiset<T>(s: seq<T>)
    requires s != []
    ensures multiset(s[1..]) == multiset(s) - multiset{s[0]}
  {
    assert s == [s[0]] + s[1..];
  }

  lemma AntisymmetricTail<T>(leq: (T, T) -> bool, s: seq<T>)
    requires s != [] && Antisymmetric(leq, s)
    ensures Antisymmetric(leq, s[1..])
  {
    forall i, j | 0 <= i < |s[1..]| && 0 <= j < |s[1..]| && leq(s[1..][i], s[1..][j]) && leq(s[1..][j], s[1..][i])
      ensures s[1..][i] == s[1..][j]
    {
      assert s[1..][i] == s[i + 1] && s[1..][j] == s[j + 1];
    }
  }

  /** The first elements of two non-empty sorted permutations tie. */
  lemma HeadsTie<T(!new)>(leq: (T, T) -> bool, a: seq<T>, b: seq<T>)
    requires TotalPreorder(leq)
    requires Sorted(leq, a) && Sorted(leq, b)
    requires multiset(a) == multiset(b) && a != []
    ensures b != [] && leq(a[0], b[0]) && leq(b[0], a[0])
  {
    assert a[0] in multiset(b);
    var i :| 0 <= i < |b| && b[i] == a[0];
    assert b[0] in multiset(a);
    var j :| 0 <= j < |a| && a[j] == b[0];
    assert leq(b[0], b[i]);
    assert leq(a[0], a[j]);
  }

  /** With no two distinct elements tying, the heads are equal. */
  lemma SameHead<T(!new)>(leq: (T, T) -> bool, a: seq<T>, b: seq<T>)
    requires TotalPreorder(leq)
    requires Sorted(leq, a) && Sorted(leq, b)
    requires multiset(a) == multiset(b) && a != []
    requires Antisymmetric(leq, a)
    ensures b != [] && a[0] == b[0]
  {
    HeadsTie(leq, a, b);
    assert b[0] in multiset(a);
    var j :| 0 <= j < |a| && a[j] == b[0];
  }

  lemma SameHeadAndTail<T>(a: seq<T>, b: seq<T>)
    requires a != [] && b != [] && a[0] == b[0] && a[1..] == b[1..]
    ensures a == b
  {
    assert a == [a[0]] + a[1..] && b == [b[0]] + b[1..];
  }

  /** Two sorted permutations of each other are equal when no two distinct elements tie. */
  lemma {:induction false} SortedUnique<T(!new)>(leq: (T, T) -> bool, a: seq<T>, b: seq<T>)
    requires TotalPreorder(leq)
    requires Sorted(leq, a) && Sorted(leq, b)
    requires multiset(a) == multiset(b)
    requires Antisymmetric(leq, a)
    ensures a == b
  {
    if a != [] {
      SameHead(leq, a, b);
      TailMultiset(a);
      TailMultiset(b);
      AntisymmetricTail(leq, a);
      SortedUnique(leq, a[1..], b[1..]);
      SameHeadAndTail(a, b);
    } else {
      assert |b| == |multiset(b)| == 0;
    }
  }

  /** Sorting a permutation gives the same result when no two distinct elements tie. */
  lemma SortPermutationInvariant<T(!new)>(leq: (T, T) -> bool, a: seq<T>, b: seq<T>)
    requires TotalPreorder(leq)
    requires multiset(a) == multiset(b)
    requires Antisymmetric(leq, a)
    ensures Sort(leq, a) == Sort(leq, b)
  {
    var sa := Sort(leq, a);
    SortSorted(leq, a);
    SortSorted(leq, b);
    assert Antisymmetric(leq, sa) by {
      forall i, j | 0 <= i < |sa| && 0 <= j < |sa| && leq(sa[i], sa[j]) && leq(sa[j], sa[i])
        ensures sa[i] == sa[j]
      {
        assert sa[i] in multiset(a) && sa[j] in multiset(a);
        var i' :| 0 <= i' < |a| && a[i'] == sa[i];
        var j' :| 0 <= j' < |a| && a[j'] == sa[j];
      }
    }
    SortedUnique(leq, sa, Sort(leq, b));
  }

  /** Python's `a <= b` on strings: lexicographic by code point. */
  predicate StrLeq(a: string, b: string) {
    a == [] || (b != [] && (a[0] < b[0] || (a[0] == b[0] && StrLeq(a[1..], b[1..]))))
  }

  lemma {:induction false} StrLeqTotal(a: string, b: string)
    ensures StrLeq(a, b) || StrLeq(b, a)
  {
    if a != [] && b != [] && a[0] == b[0] {
      StrLeqTotal(a[1..], b[1..]);
    }
  }

  lemma {:induction false} StrLeqTransitive(a: string, b: string, c: string)
    requires StrLeq(a, b) && StrLeq(b, c)
    ensures StrLeq(a, c)
  {
    if a != [] && b != [] && c != [] && a[0] == b[0] && b[0] == c[0] {
      StrLeqTransitive(a[1..], b[1..], c[1..]);
    }
  }

  lemma {:induction false} StrLeqAntisymmetric(a: string, b: string)
    requires StrLeq(a, b) && StrLeq(b, a)
    ensures a == b
  {
    if a != [] {
      StrLeqAntisymmetric(a[1..], b[1..]);
      assert a == [a[0]] + a[1..] && b == [b[0]] + b[1..];
    }
  }

  /** Python's `a <= b` on pairs of strings: lexicographic, first component first. */
  predicate PairLeq(a: (string, string), b: (string, string)) {
    (StrLeq(a.0, b.0) && a.0 != b.0) || (a.0 == b.0 && StrLeq(a.1, b.1))
  }

  lemma PairLeqTotal(a: (string, string), b: (string, string))
    ensures PairLeq(a, b) || PairLeq(b, a)
  {
    StrLeqTotal(a.0, b.0);
    StrLeqTotal(a.1, b.1);
  }

  lemma PairLeqTransitive(a: (string, string), b: (string, string), c: (string, string))
    requires PairLeq(a, b) && PairLeq(b, c)
    ensures PairLeq(a, c)
  {
    if a.0 == b.0 && b.0 == c.0 {
      StrLeqTransitive(a.1, b.1, c.1);
    } else if a.0 != b.0 && b.0 != c.0 {
      StrLeqTransitive(a.0, b.0, c.0);
      if a.0 == c.0 {
        StrLeqAntisymmetric(a.0, b.0);
      }
    }
  }

  lemma PairLeqAntisymmetric(a: (string, string), b: (string, string))
    requires PairLeq(a, b) && PairLeq(b, a)
    ensures a == b
  {
    if a.0 != b.0 {
      StrLeqAntisymmetric(a.0, b.0);
    } else {
      StrLeqAntisymmetric(a.1, b.1);
    }
  }

  /** Python's `a <= b` on pairs of integers: lexicographic, first component first. */
  predicate NatPairLeq(a: (nat, nat), b: (nat, nat)) {
    a.0 < b.0 || (a.0 == b.0 && a.1 <= b.1)
  }

  lemma NatPairLeqTotalPreorder()
    ensures TotalPreorder(NatPairLeq)
  {
  }

  /** No two distinct pairs tie, so a sorted tuple of pairs is determined by its contents. */
  lemma NatPairLeqAntisymmetric(s: seq<(nat, nat)>)
    ensures Antisymmetric(NatPairLeq, s)
  {
  }

  /** The elements of `s` that tie with `k`, in the order `s` has them. */
  function Ties<T>(leq: (T, T) -> bool, k: T, s: seq<T>): (r: seq<T>)
    ensures forall i | 0 <= i < |r| :: leq(r[i], k) && leq(k, r[i])
  {
    if s == [] then []
    else (if leq(s[0], k) && leq(k, s[0]) then [s[0]] else []) + Ties(leq, k, s[1..])
  }

  /** An inserted element goes in front of every element it ties with. */
  lemma {:induction false} InsertTies<T(!new)>(leq: (T, T) -> bool, k: T, x: T, s: seq<T>)
    requires TotalPreorder(leq)
    ensures Ties(leq, k, Insert(leq, x, s)) ==
      (if leq(x, k) && leq(k, x) then [x] else []) + Ties(leq, k, s)
  {
    var r := Insert(leq, x, s);
    var hx: seq<T> := if leq(x, k) && leq(k, x) then [x] else [];
    if s == [] || leq(x, s[0]) {
      assert r[0] == x && r[1..] == s;
    } else {
      var h0: seq<T> := if leq(s[0], k) && leq(k, s[0]) then [s[0]] else [];
      InsertTies(leq, k, x, s[1..]);
      assert r[0] == s[0] && r[1..] == Insert(leq, x, s[1..]);
      assert h0 == [] || hx == [];
      assert h0 + (hx + Ties(leq, k, s[1..])) == hx + (h0 + Ties(leq, k, s[1..]));
    }
  }

  /** `sorted()` is stable: the elements that tie with any `k` keep their relative order. */
  lemma {:induction false} SortStable<T(!new)>(leq: (T, T) -> bool, k: T, s: seq<T>)
    requires TotalPreorder(leq)
    ensures Ties(leq, k, Sort(leq, s)) == Ties(leq, k, s)
  {
    if s != [] {
      SortStable(leq, k, s[1..]);
      InsertTies(leq, k, s[0], Sort(leq, s[1..]));
    }
  }

  /** Two elements already in order stay as they are. */
  lemma SortTwo<T>(leq: (T, T) -> bool, x: T, y: T)
    requires leq(x, y)
    ensures Sort(leq, [x, y]) == [x, y]
  {
    assert [x, y][1..] == [y];
    assert Sort(leq, [y]) == [y] by {
      assert [y][1..] == [];
    }
  }
}

=== FILE: species.dfy ===
/** Reading reactant specs such as `"H+Pd"` or `"p+7Li, d+d"` (`System`). */
module Species {
  import opened Results
  import opened Text
  import opened Nuclides
  import Registry
  import Tables
  import Products
  import Channels

  /** `(l.strip() for l in spec.split('+'))`. */
  function Names(spec: string): (names: seq<string>)
    ensures |names| == |Split(spec, '+')|
    ensures forall i | 0 <= i < |names| :: names[i] == Strip(Split(spec, '+')[i]) && IsTrimmed(names[i])
  {
    StripAll(Split(spec, '+'))
  }

  function StripAll(parts: seq<string>): (names: seq<string>)
    ensures |names| == |parts|
    ensures forall i | 0 <= i < |parts| :: names[i] == Strip(parts[i]) && IsTrimmed(names[i])
  {
    seq(|parts|, i requires 0 <= i < |parts| => Strip(parts[i]))
  }

  /** `((1, n) for n in ns if n.is_stable)`. */
  function StableOnes(ns: seq<Nuclide>): (side: seq<(nat, Nuclide)>)
    ensures forall e :: e in side <==> e.0 == 1 && e.1 in ns && e.1.isStable
  {
    if ns == [] then []
    else
      assert forall i | 1 <= i < |ns| :: ns[i] == ns[1..][i - 1];
      (if ns[0].isStable then [(1, ns[0])] else []) + StableOnes(ns[1..])
  }

  /** The choices for one reactant name: its ground state when the table has one, else the
      stable nuclides of the element it names; a name that is neither is an error
      (`ELEMENTS[label]` raising `KeyError`). */
  function Alternatives(reg: Registry.Registry, name: string): (r: Result<seq<(nat, Nuclide)>, Error>)
    ensures r.Err? <==> Registry.Get(reg, (name, "0")).None? && name !in Tables.Elements
    ensures r.Err? ==> r.error == UnknownElement(name)
    ensures r.Ok? && Registry.Get(reg, (name, "0")).Some? ==> r.value == [(1, Registry.Get(reg, (name, "0")).value)]
    ensures r.Ok? && Registry.Get(reg, (name, "0")).None? ==>
      r.value == StableOnes(Registry.AtomicNumber(reg, Tables.Elements[name]))
  {
    match Registry.Get(reg, (name, "0"))
    case Some(n) => Ok([(1, n)])
    case None =>
      if name in Tables.Elements then Ok(StableOnes(Registry.AtomicNumber(reg, Tables.Elements[name])))
      else Err(UnknownElement(name))
  }

  /** `names[i]` is the first name without alternatives, and `e` is its error. */
  predicate FirstUnknown(reg: Registry.Registry, names: seq<string>, i: int, e: Error) {
    && 0 <= i < |names|
    && Alternatives(reg, names[i]) == Err(e)
    && forall j | 0 <= j < i :: Alternatives(reg, names[j]).Ok?
  }

  /** The choices for every name, or the error of the first name that has none. */
  function AllAlternatives(reg: Registry.Registry, names: seq<string>): (r: Result<seq<seq<(nat, Nuclide)>>, Error>)
    ensures r.Ok? <==> forall i | 0 <= i < |names| :: Alternatives(reg, names[i]).Ok?
    ensures r.Ok? ==> |r.value| == |names|
    ensures r.Ok? ==> forall i | 0 <= i < |names| :: r.value[i] == Alternatives(reg, names[i]).value
    ensures r.Err? ==> exists i :: FirstUnknown(reg, names, i, r.error)
  {
    if names == [] then Ok([])
    else
      match Alternatives(reg, names[0])
      case Err(e) =>
        assert FirstUnknown(reg, names, 0, e);
        Err(e)
      case Ok(first) =>
        var tail := names[1..];
        assert forall i | 1 <= i < |names| :: names[i] == tail[i - 1];
        match AllAlternatives(reg, tail)
        case Err(e) =>
          var i :| FirstUnknown(reg, tail, i, e);
          assert FirstUnknown(reg, names, i + 1, e);
          Err(e)
        case Ok(rest) =>
          assert forall i | 1 <= i < |names| :: ([first] + rest)[i] == rest[i - 1];
          Ok([first] + rest)
  }

  /** `System._parse_spec`: every way to choose one alternative per name. */
  function ParseSpec(reg: Registry.Registry, spec: string): Result<seq<seq<(nat, Nuclide)>>, Error> {
    ParseNames(reg, Names(spec))
  }

  function ParseNames(reg: Registry.Registry, names: seq<string>): Result<seq<seq<(nat, Nuclide)>>, Error> {
    var lists :- AllAlternatives(reg, names);
    Ok(Products.Product(lists))
  }

  /** Names are read exactly when each is a ground state of the table or an element
      symbol; otherwise the first name that is neither is reported. */
  lemma ParseNamesErrors(reg: Registry.Registry, names: seq<string>)
    ensures ParseNames(reg, names).Ok? <==> forall i | 0 <= i < |names| ::
      Registry.Get(reg, (names[i], "0")).Some? || names[i] in Tables.Elements
    ensures ParseNames(reg, names).Err? ==> exists i | 0 <= i < |names| ::
      && ParseNames(reg, names).error == UnknownElement(names[i])
      && Registry.Get(reg, (names[i], "0")).None?
      && names[i] !in Tables.Elements
      && forall j | 0 <= j < i :: Registry.Get(reg, (names[j], "0")).Some? || names[j] in Tables.Elements
  {
  }

  /** Each reactant list gives one entry per name, counted once, chosen among that name's
      alternatives; and every such choice is given. */
  lemma ParseNamesMembers(reg: Registry.Registry, names: seq<string>, side: seq<(nat, Nuclide)>)
    requires ParseNames(reg, names).Ok?
    ensures side in ParseNames(reg, names).value <==>
      && |side| == |names|
      && forall i | 0 <= i < |side| :: side[i] in Alternatives(reg, names[i]).value
  {
    Products.ProductMembers(AllAlternatives(reg, names).value, side);
  }

  /** For a table, the alternatives of a name with no ground state are exactly the stable
      nuclides of the element, each counted once. */
  lemma ElementAlternatives(ns: seq<Nuclide>, name: string, n: Nuclide)
    requires Registry.Get(Registry.Build(ns), (name, "0")).None? && name in Tables.Elements
    ensures (1, n) in Alternatives(Registry.Build(ns), name).value <==>
      n in ns && n.isStable && n.atomicNumber == Tables.Elements[name]
    ensures forall e | e in Alternatives(Registry.Build(ns), name).value :: e.0 == 1
  {
    StableOfElement(ns, Tables.Elements[name], n);
  }

  lemma StableOfElement(ns: seq<Nuclide>, z: nat, n: Nuclide)
    ensures (1, n) in StableOnes(Registry.AtomicNumber(Registry.Build(ns), z)) <==>
      n in ns && n.isStable && n.atomicNumber == z
    ensures forall e | e in StableOnes(Registry.AtomicNumber(Registry.Build(ns), z)) :: e.0 == 1
  {
    Registry.AtomicNumberInOrder(ns, z);
  }

  /** `filter(None, (rs.strip() for rs in string.split(',')))`. */
  function Specs(text: string): (specs: seq<string>)
    ensures forall i | 0 <= i < |specs| :: specs[i] != [] && IsTrimmed(specs[i])
  {
    NonBlank(StripAll(Split(text, ',')))
  }

  /** The specs of two texts joined by a comma are the specs of the first, then those of the
      second, in order and with repeats kept. */
  lemma SpecsAtComma(a: string, b: string)
    ensures Specs(a + [','] + b) == Specs(a) + Specs(b)
  {
    var pa, pb := Split(a, ','), Split(b, ',');
    Text.SplitAtSeparator(a, ',', b);
    StripAllAppend(pa, pb);
    NonBlankAppend(StripAll(pa), StripAll(pb));
  }

  lemma StripAllAppend(x: seq<string>, y: seq<string>)
    ensures StripAll(x + y) == StripAll(x) + StripAll(y)
  {
  }

  lemma {:induction false} NonBlankAppend(x: seq<string>, y: seq<string>)
    requires forall i | 0 <= i < |x| :: IsTrimmed(x[i])
    requires forall i | 0 <= i < |y| :: IsTrimmed(y[i])
    ensures NonBlank(x + y) == NonBlank(x) + NonBlank(y)
  {
    if x != [] {
      assert (x + y)[0] == x[0] && (x + y)[1..] == x[1..] + y;
      NonBlankAppend(x[1..], y);
      var head: seq<string> := if x[0] != [] then [x[0]] else [];
      Text.Assoc(head, NonBlank(x[1..]), NonBlank(y));
    } else {
      assert x + y == y;
    }
  }

  /** `spec` is the stripped text of one of the comma-separated pieces of `text`. */
  predicate StrippedPiece(text: string, spec: string) {
    exists i | 0 <= i < |Split(text, ',')| :: spec == Strip(Split(text, ',')[i])
  }

  /** The specs are exactly the stripped comma-separated pieces that are not blank. */
  lemma SpecsMembers(text: string, spec: string)
    ensures spec in Specs(text) <==> spec != [] && StrippedPiece(text, spec)
  {
    var parts := Split(text, ',');
    var names := StripAll(parts);
    assert spec in Specs(text) <==> spec in names && spec != [];
    if spec in names {
      var i :| 0 <= i < |names| && names[i] == spec;
      assert spec == Strip(parts[i]);
    }
    if StrippedPiece(text, spec) {
      var i :| 0 <= i < |parts| && spec == Strip(parts[i]);
      assert names[i] == spec;
    }
  }

  /** The names that are not empty, in order. */
  function NonBlank(names: seq<string>): (kept: seq<string>)
    requires forall i | 0 <= i < |names| :: IsTrimmed(names[i])
    ensures forall i | 0 <= i < |kept| :: kept[i] != [] && IsTrimmed(kept[i])
    ensures forall name :: name in kept <==> name in names && name != []
  {
    if names == [] then []
    else
      assert forall i | 1 <= i < |names| :: names[i] == names[1..][i - 1];
      (if names[0] != [] then [names[0]] else []) + NonBlank(names[1..])
  }

  /** One combination per reactant list of each spec, given by its names, in order, all
      with the same bound; the first spec that cannot be read is the error. */
  function CombinationsOf(reg: Registry.Registry, specs: seq<seq<string>>, lowerBound: Option<real>)
    : (r: Result<seq<Channels.Combinations>, Error>)
    ensures r.Ok? <==> forall i | 0 <= i < |specs| :: ParseNames(reg, specs[i]).Ok?
    ensures r.Err? ==> exists i :: FirstBadSpec(reg, specs, i, r.error)
  {
    if specs == [] then Ok([])
    else
      var tail := specs[1..];
      assert forall i | 1 <= i < |specs| :: specs[i] == tail[i - 1];
      match ParseNames(reg, specs[0])
      case Err(e) =>
        assert FirstBadSpec(reg, specs, 0, e);
        Err(e)
      case Ok(first) =>
        match CombinationsOf(reg, tail, lowerBound)
        case Err(e) =>
          var i :| FirstBadSpec(reg, tail, i, e);
          FirstBadShift(reg, specs, i, e);
          Err(e)
        case Ok(rest) => Ok(Bind(first, lowerBound) + rest)
  }

  lemma FirstBadShift(reg: Registry.Registry, specs: seq<seq<string>>, i: int, e: Error)
    requires specs != [] && ParseNames(reg, specs[0]).Ok? && FirstBadSpec(reg, specs[1..], i, e)
    ensures FirstBadSpec(reg, specs, i + 1, e)
  {
    assert specs[i + 1] == specs[1..][i];
    forall j | 1 <= j < i + 1 ensures ParseNames(reg, specs[j]).Ok? {
      assert specs[j] == specs[1..][j - 1];
    }
  }

  /** `specs[i]` is the first spec that cannot be read, and `e` is its error. */
  predicate FirstBadSpec(reg: Registry.Registry, specs: seq<seq<string>>, i: int, e: Error) {
    && 0 <= i < |specs|
    && ParseNames(reg, specs[i]) == Err(e)
    && forall j | 0 <= j < i :: ParseNames(reg, specs[j]).Ok?
  }

  /** `Combinations.load(reactants=reactants, **kwargs)` for each reactant list. */
  function Bind(sides: seq<seq<(nat, Nuclide)>>, lowerBound: Option<real>): (cs: seq<Channels.Combinations>)
    ensures |cs| == |sides|
    ensures forall k | 0 <= k < |sides| :: cs[k] == Channels.Combinations(sides[k], lowerBound)
  {
    seq(|sides|, k requires 0 <= k < |sides| => Channels.Combinations(sides[k], lowerBound))
  }

  /** A bound reactant list carries the bound and one of the lists. */
  lemma BindMembers(sides: seq<seq<(nat, Nuclide)>>, lowerBound: Option<real>, c: Channels.Combinations)
    ensures c in Bind(sides, lowerBound) <==> c.lowerBound == lowerBound && c.reactants in sides
  {
    var cs := Bind(sides, lowerBound);
    if c in cs {
      var k :| 0 <= k < |cs| && cs[k] == c;
    }
    if c.lowerBound == lowerBound && c.reactants in sides {
      var k :| 0 <= k < |sides| && sides[k] == c.reactants;
      assert cs[k] == c;
    }
  }

  /** The combinations are exactly the reactant lists of the specs, each with the bound. */
  lemma {:induction false} CombinationsMembers(reg: Registry.Registry, specs: seq<seq<string>>, lowerBound: Option<real>, c: Channels.Combinations)
    requires CombinationsOf(reg, specs, lowerBound).Ok?
    ensures c in CombinationsOf(reg, specs, lowerBound).value <==>
      c.lowerBound == lowerBound && exists i | 0 <= i < |specs| :: c.reactants in ParseNames(reg, specs[i]).value
  {
    if specs != [] {
      var first := ParseNames(reg, specs[0]).value;
      var rest := CombinationsOf(reg, specs[1..], lowerBound).value;
      assert CombinationsOf(reg, specs, lowerBound).value == Bind(first, lowerBound) + rest;
      CombinationsMembers(reg, specs[1..], lowerBound, c);
      assert forall i | 1 <= i < |specs| :: specs[i] == specs[1..][i - 1];
      BindMembers(first, lowerBound, c);
      if c.lowerBound == lowerBound && exists i | 1 <= i < |specs| :: c.reactants in ParseNames(reg, specs[i]).value {
        var i :| 1 <= i < |specs| && c.reactants in ParseNames(reg, specs[i]).value;
        assert specs[1..][i - 1] == specs[i];
      }
    }
  }

  /** Every reactant a spec names is counted once. */
  lemma {:induction false} ParsedSingly(reg: Registry.Registry, specs: seq<seq<string>>, lowerBound: Option<real>, c: Channels.Combinations)
    requires CombinationsOf(reg, specs, lowerBound).Ok?
    requires c in CombinationsOf(reg, specs, lowerBound).value
    ensures forall k | 0 <= k < |c.reactants| :: c.reactants[k].0 == 1
  {
    CombinationsMembers(reg, specs, lowerBound, c);
    var i :| 0 <= i < |specs| && c.reactants in ParseNames(reg, specs[i]).value;
    ParseNamesMembers(reg, specs[i], c.reactants);
    forall k | 0 <= k < |c.reactants| ensures c.reactants[k].0 == 1 {
      AlternativeSingly(reg, specs[i][k], c.reactants[k]);
    }
  }

  lemma AlternativeSingly(reg: Registry.Registry, name: string, e: (nat, Nuclide))
    requires Alternatives(reg, name).Ok? && e in Alternatives(reg, name).value
    ensures e.0 == 1
  {
  }

  /** On the combinations of parsed specs the source's `reactions` is the model's exactly for
      two-name specs; for any other number of names a miss raises. */
  lemma ParsedAsWritten(reg: Registry.Registry, specs: seq<seq<string>>, lowerBound: Option<real>,
                        c: Channels.Combinations, cache: Channels.Cache)
    requires CombinationsOf(reg, specs, lowerBound).Ok?
    requires c in CombinationsOf(reg, specs, lowerBound).value
    ensures |c.reactants| == 2 ==>
      Channels.ReactionsAsWritten(c, reg, cache) == Ok(Channels.ReactionsOf(c, reg, cache))
    ensures |c.reactants| != 2 ==>
      (Channels.ReactionsAsWritten(c, reg, cache).Err? <==> Channels.Cached(cache, Channels.Key(c)) == [])
  {
    ParsedSingly(reg, specs, lowerBound, c);
    Channels.AsWrittenFails(c, reg, cache);
    if |c.reactants| == 2 {
      Channels.AsWrittenAgrees(c, reg, cache);
    }
  }

  /** The names of each spec. */
  function NamesOf(specs: seq<string>): (namess: seq<seq<string>>)
    ensures |namess| == |specs|
    ensures forall i | 0 <= i < |specs| :: namess[i] == Names(specs[i])
  {
    seq(|specs|, i requires 0 <= i < |specs| => Names(specs[i]))
  }

  /** `System.parse`: the combinations of every non-blank spec in a comma-separated list. */
  function Parse(reg: Registry.Registry, text: string, lowerBound: Option<real>)
    : Result<seq<Channels.Combinations>, Error>
  {
    CombinationsOf(reg, NamesOf(Specs(text)), lowerBound)
  }
}

=== FILE: tables.dfy ===
/** The fixed lookup tables of the nuclide module. */
module Tables {

  /** `ALTERNATE_LABELS`: conventional names for a few table labels. */
  const AlternateLabels: map<string, string> := map[
    "1 n" := "n",
    "1H" := "p",
    "2H" := "d",
    "3H" := "t",
    "12Cx" := "12C",
    "10Bx" := "10B"
  ]

  /** `ALTERNATE_LABELS.get(label, label)`. */
  function AlternateLabel(name: string): string {
    if name in AlternateLabels then AlternateLabels[name] else name
  }

  /** `ELEMENTS`: element symbols accepted in a reactant spec, with their atomic numbers. */
  const Elements: map<string, nat> := map[
    "n" := 0,
    "H" := 1,
    "He" := 2,
    "Li" := 3,
    "C" := 6,
    "Fe" := 26,
    "Ni" := 28,
    "Pd" := 46
  ]

  /** `Nuclide._not_excited`: labels that end in an excitation letter but are ground states. */
  const NotExcited: set<string> := {
    "1 n", "3Li", "4Li", "4H", "5H", "5He", "5Li", "6He", "8Be", "59Ni"
  }

  /** The letters that mark an excited state at the end of a label. */
  const ExcitationSuffixes: string := "ijmnpqrx"

  /** `Nuclide._noteworthy`: a decay-mode token and the note it adds. */
  const BetaMinus: string := "B-"
  const BetaPlus: string := "B+"
  const BetaMinusNote: string := "\U{2192}\U{3B2}-"
  const BetaPlusNote: string := "\U{2192}\U{3B2}+"

  /** `Reaction._noteworthy`: daughter labels that earn a note of their own. */
  const ReactionNotes: map<string, string> := map[
    "4He" := "\U{3B1}",
    "n" := "n",
    "t" := "t"
  ]

  /** The label and the only note of a synthesized photon. */
  const Gamma: string := "\U{263}"

  const NeutronTransfer: string := "n-transfer"
  const StableNote: string := "stable"
}

=== FILE: text.dfy ===
/** The handful of Python string operations the record decoder and the reactant-spec parser
    rely on: whitespace stripping, slicing, splitting on a separator, whitespace splitting,
    substring tests and leftmost regular-expression runs over a character class. */
module Text {
  import opened Results

  /** Python's `str.isspace()` for a single character. */
  predicate IsSpace(c: char) {
    || ('\t' <= c <= '\r')
    || ('\U{1C}' <= c <= '\U{1F}')
    || c == ' '
    || c == '\U{85}'
    || c == '\U{A0}'
    || c == '\U{1680}'
    || ('\U{2000}' <= c <= '\U{200A}')
    || c == '\U{2028}'
    || c == '\U{2029}'
    || c == '\U{202F}'
    || c == '\U{205F}'
    || c == '\U{3000}'
  }

  predicate AllSpace(s: string) {
    forall i | 0 <= i < |s| :: IsSpace(s[i])
  }

  predicate NoSpace(s: string) {
    forall i | 0 <= i < |s| :: !IsSpace(s[i])
  }

  /** Neither starts nor ends with whitespace. */
  predicate IsTrimmed(s: string) {
    s == [] || (!IsSpace(s[0]) && !IsSpace(s[|s| - 1]))
  }

  /** Python's `str.lstrip()`. */
  function TrimStart(s: string): (r: string)
    ensures |r| <= |s| && r == s[|s| - |r|..]
    ensures AllSpace(s[..|s| - |r|])
    ensures r == [] || !IsSpace(r[0])
  {
    if s != [] && IsSpace(s[0]) then
      var r := TrimStart(s[1..]);
      AllSpaceCons(s[0], s[1..][..|s| - 1 - |r|]);
      assert s[..|s| - |r|] == [s[0]] + s[1..][..|s| - 1 - |r|];
      r
    else s
  }

  lemma AllSpaceCons(c: char, s: string)
    requires IsSpace(c) && AllSpace(s)
    ensures AllSpace([c] + s)
  {
    assert forall i | 1 <= i < |s| + 1 :: ([c] + s)[i] == s[i - 1];
  }

  lemma AllSpaceSnoc(s: string, c: char)
    requires AllSpace(s) && IsSpace(c)
    ensures AllSpace(s + [c])
  {
    assert forall i | 0 <= i < |s| :: (s + [c])[i] == s[i];
  }

  /** Python's `str.rstrip()`. */
  function TrimEnd(s: string): (r: string)
    ensures |r| <= |s| && r == s[..|r|]
    ensures AllSpace(s[|r|..])
    ensures r == [] || !IsSpace(r[|r| - 1])
  {
    if s != [] && IsSpace(s[|s| - 1]) then
      var r := TrimEnd(s[..|s| - 1]);
      AllSpaceSnoc(s[..|s| - 1][|r|..], s[|s| - 1]);
      assert s[|r|..] == s[..|s| - 1][|r|..] + [s[|s| - 1]];
      r
    else s
  }

  /** Python's `str.strip()`: the infix of `s` left after removing the whitespace at both ends. */
  function Strip(s: string): (r: string)
    ensures IsTrimmed(r)
  {
    var t := TrimStart(s);
    var r := TrimEnd(t);
    assert r == [] || r[0] == t[0];
    r
  }

  /** What `strip` cuts away is whitespace at the two ends, and nothing else. */
  lemma StripInfix(s: string)
    ensures exists i :: Infix(s, Strip(s), i)
  {
    var t := TrimStart(s);
    var r := TrimEnd(t);
    var i := |s| - |t|;
    SliceOfSuffix(s, i, |r|);
    assert r == Strip(s);
    assert Infix(s, r, i);
  }

  lemma SliceOfSuffix<T>(s: seq<T>, i: nat, k: nat)
    requires i + k <= |s|
    ensures s[i..][..k] == s[i..i + k]
    ensures s[i..][k..] == s[i + k..]
  {
  }

  /** `r` sits at offset `i` of `s`, with only whitespace around it. */
  predicate Infix(s: string, r: string, i: nat) {
    i + |r| <= |s| && r == s[i..i + |r|] && AllSpace(s[..i]) && AllSpace(s[i + |r|..])
  }

  lemma AllSpaceSplit(s: string, k: nat)
    requires k <= |s|
    ensures AllSpace(s) <==> AllSpace(s[..k]) && AllSpace(s[k..])
  {
    assert s == s[..k] + s[k..];
  }

  lemma {:induction false} TrimStartBlank(s: string)
    ensures TrimStart(s) == [] <==> AllSpace(s)
  {
    if s != [] && IsSpace(s[0]) {
      TrimStartBlank(s[1..]);
      AllSpaceSplit(s, 1);
    }
  }

  lemma {:induction false} TrimEndBlank(s: string)
    ensures TrimEnd(s) == [] <==> AllSpace(s)
  {
    if s != [] && IsSpace(s[|s| - 1]) {
      TrimEndBlank(s[..|s| - 1]);
      AllSpaceSplit(s, |s| - 1);
    }
  }

  /** A field is blank exactly when it is all whitespace. */
  lemma StripBlank(s: string)
    ensures Strip(s) == [] <==> AllSpace(s)
  {
    TrimStartBlank(s);
    TrimEndBlank(TrimStart(s));
  }

  /** Stripping a stripped text changes nothing. */
  lemma StripTrimmed(s: string)
    requires IsTrimmed(s)
    ensures Strip(s) == s
  {
  }

  /** Resolves a Python slice bound against a length `n`: a negative bound counts from the
      end, and the result is clamped into [0, n]. */
  function SliceBound(i: int, n: nat): (b: nat)
    ensures b <= n
    ensures 0 <= i <= n ==> b == i
    ensures -(n as int) <= i < 0 ==> b == n + i
  {
    if i < 0 then (if i + n < 0 then 0 else i + n) else if i > n then n else i
  }

  /** Python's `s[start:stop]`. */
  function PySlice(s: string, start: int, stop: int): (r: string)
    ensures 0 <= start <= stop <= |s| ==> r == s[start..stop]
    ensures 0 <= start < |s| && stop == -1 ==> r == s[start..|s| - 1]
    ensures 0 <= start && |s| <= stop ==> r == s[if start < |s| then start else |s|..]
    ensures |s| <= start ==> r == []
  {
    var a := SliceBound(start, |s|);
    var b := SliceBound(stop, |s|);
    if a < b then s[a..b] else []
  }

  /** Python's `s.split(sep)` for a one-character separator: always at least one piece. */
  function Split(s: string, sep: char): (parts: seq<string>)
    ensures |parts| >= 1
    ensures forall i | 0 <= i < |parts| :: sep !in parts[i]
  {
    if s == [] then [[]]
    else
      var rest := Split(s[1..], sep);
      if s[0] == sep then [[]] + rest else [[s[0]] + rest[0]] + rest[1..]
  }

  /** Python's `sep.join(parts)`. */
  function Join(parts: seq<string>, sep: char): string
  {
    if parts == [] then []
    else if |parts| == 1 then parts[0]
    else parts[0] + [sep] + Join(parts[1..], sep)
  }

  /** Joining the pieces of a split gives back the text. */
  lemma {:induction false} JoinSplit(s: string, sep: char)
    ensures Join(Split(s, sep), sep) == s
  {
    if s != [] {
      var rest := Split(s[1..], sep);
      JoinSplit(s[1..], sep);
      if s[0] == sep {
        assert Split(s, sep) == [[]] + rest;
      } else {
        var parts := Split(s, sep);
        assert parts == [[s[0]] + rest[0]] + rest[1..];
        if |rest| == 1 {
          assert Join(parts, sep) == [s[0]] + rest[0];
        } else {
          assert parts[1..] == rest[1..];
          assert Join(parts, sep) == [s[0]] + (rest[0] + [sep] + Join(rest[1..], sep));
        }
      }
    }
  }

  lemma {:induction false} SplitNoSeparator(s: string, sep: char)
    requires sep !in s
    ensures Split(s, sep) == [s]
  {
    if s != [] {
      SplitNoSeparator(s[1..], sep);
      assert [s[0]] + s[1..] == s;
    }
  }

  /** A character other than the separator joins the first piece. */
  lemma SplitCons(c: char, s: string, sep: char)
    requires c != sep
    ensures Split([c] + s, sep) == [[c] + Split(s, sep)[0]] + Split(s, sep)[1..]
  {
    assert ([c] + s)[1..] == s;
  }

  /** Splitting text that starts with a separator-free piece `a`: `a` glues onto the first
      piece of the remainder. */
  lemma {:induction false} SplitPrefix(a: string, t: string, sep: char)
    requires sep !in a
    ensures Split(a + t, sep) == [a + Split(t, sep)[0]] + Split(t, sep)[1..]
  {
    if a != [] {
      var st := Split(t, sep);
      SplitPrefix(a[1..], t, sep);
      var rest := Split(a[1..] + t, sep);
      assert rest == [a[1..] + st[0]] + st[1..];
      assert a + t == [a[0]] + (a[1..] + t);
      SplitCons(a[0], a[1..] + t, sep);
      assert [a[0]] + (a[1..] + st[0]) == a + st[0];
    } else {
      var st := Split(t, sep);
      assert a + t == t;
      assert a + st[0] == st[0];
      assert [st[0]] + st[1..] == st;
    }
  }

  /** Every separator is a piece boundary: the pieces on either side never merge. */
  lemma {:induction false} SplitAtSeparator(a: string, sep: char, b: string)
    ensures Split(a + [sep] + b, sep) == Split(a, sep) + Split(b, sep)
  {
    var s := a + [sep] + b;
    if a == [] {
      assert s[1..] == b;
    } else {
      var ra, sb := Split(a[1..], sep), Split(b, sep);
      assert s[0] == a[0] && s[1..] == a[1..] + [sep] + b;
      SplitAtSeparator(a[1..], sep, b);
      if a[0] == sep {
        assert Split(s, sep) == [[]] + (ra + sb);
        ConsAppend([], ra, sb);
      } else {
        HeadAppend(ra, sb);
        assert Split(s, sep) == [[a[0]] + ra[0]] + (ra[1..] + sb);
        ConsAppend([a[0]] + ra[0], ra[1..], sb);
      }
    }
  }

  /** Splitting joined separator-free pieces gives back the pieces. */
  lemma {:induction false} SplitJoin(parts: seq<string>, sep: char)
    requires |parts| >= 1
    requires forall i | 0 <= i < |parts| :: sep !in parts[i]
    ensures Split(Join(parts, sep), sep) == parts
  {
    if |parts| == 1 {
      SplitNoSeparator(parts[0], sep);
    } else {
      var tail := Join(parts[1..], sep);
      SplitJoin(parts[1..], sep);
      assert Join(parts, sep) == parts[0] + ([sep] + tail);
      SplitPrefix(parts[0], [sep] + tail, sep);
      assert ([sep] + tail)[1..] == tail;
      assert Split([sep] + tail, sep) == [[]] + parts[1..];
      assert parts[0] + [] == parts[0];
      assert [parts[0]] + parts[1..] == parts;
    }
  }

  /** Python's `s.split()`: the maximal runs of non-whitespace characters. */
  function Words(s: string): (ws: seq<string>)
    ensures forall i | 0 <= i < |ws| :: ws[i] != [] && NoSpace(ws[i])
    ensures s != [] && !IsSpace(s[0]) ==> |ws| > 0 && ws[0][0] == s[0]
  {
    if s == [] then []
    else if IsSpace(s[0]) then Words(s[1..])
    else
      var rest := Words(s[1..]);
      if |s| > 1 && !IsSpace(s[1]) then [[s[0]] + rest[0]] + rest[1..] else [[s[0]]] + rest
  }

  function Concat(ws: seq<string>): string {
    if ws == [] then [] else ws[0] + Concat(ws[1..])
  }

  /** The non-whitespace characters of `s`, in order. */
  function Visible(s: string): string {
    if s == [] then [] else (if IsSpace(s[0]) then [] else [s[0]]) + Visible(s[1..])
  }

  /** Splitting on whitespace loses exactly the whitespace. */
  lemma {:induction false} WordsKeepVisible(s: string)
    ensures Concat(Words(s)) == Visible(s)
  {
    if s != [] {
      WordsKeepVisible(s[1..]);
      if !IsSpace(s[0]) {
        var rest := Words(s[1..]);
        if |s| > 1 && !IsSpace(s[1]) {
          assert Words(s)[1..] == rest[1..];
          assert Concat(rest) == rest[0] + Concat(rest[1..]);
        } else {
          assert Words(s)[1..] == rest;
        }
      }
    }
  }

  /** `' '.join(s.split())`: runs of whitespace collapsed to one space, ends stripped. */
  function Squeeze(s: string): string {
    Join(Words(s), ' ')
  }

  lemma {:induction false} WordsOfWord(w: string, t: string)
    requires w != [] && NoSpace(w)
    requires t == [] || IsSpace(t[0])
    ensures Words(w + t) == [w] + Words(t)
  {
    if |w| == 1 {
      assert (w + t)[1..] == t;
      assert (w + t)[0] == w[0];
      assert w == [w[0]];
    } else {
      WordsOfWord(w[1..], t);
      assert (w + t)[1..] == w[1..] + t;
      assert [w[0]] + w[1..] == w;
    }
  }

  /** Every whitespace character is a word boundary: the words on either side never merge. */
  lemma {:induction false} WordsAtSpace(a: string, c: char, b: string)
    requires IsSpace(c)
    ensures Words(a + [c] + b) == Words(a) + Words(b)
  {
    var s := a + [c] + b;
    if a == [] {
      assert s[1..] == b;
    } else {
      var q := a[1..] + [c] + b;
      assert s == [a[0]] + q && s[1..] == q;
      WordsAtSpace(a[1..], c, b);
      if !IsSpace(a[0]) {
        assert a == [a[0]] + a[1..];
        WordsPrepend(a[0], a[1..], q, Words(b));
      }
    }
  }

  /** A visible character put in front of two texts that start alike and whose words differ
      only by `extra` at the end. */
  lemma WordsPrepend(x: char, p: string, q: string, extra: seq<string>)
    requires !IsSpace(x)
    requires Words(q) == Words(p) + extra
    requires p != [] ==> q != [] && q[0] == p[0]
    requires p == [] ==> q == [] || IsSpace(q[0])
    ensures Words([x] + q) == Words([x] + p) + extra
  {
    var wp, wq := Words(p), Words(q);
    assert ([x] + q)[1..] == q && ([x] + p)[1..] == p;
    if p != [] && !IsSpace(p[0]) {
      assert |wp| > 0;
      HeadAppend(wp, extra);
      assert Words([x] + q) == [[x] + wp[0]] + (wp[1..] + extra);
      assert Words([x] + p) == [[x] + wp[0]] + wp[1..];
      ConsAppend([x] + wp[0], wp[1..], extra);
    } else {
      assert Words([x] + q) == [[x]] + (wp + extra);
      assert Words([x] + p) == [[x]] + wp;
      ConsAppend([x], wp, extra);
    }
  }

  lemma HeadAppend<T>(s: seq<T>, t: seq<T>)
    requires s != []
    ensures (s + t)[0] == s[0] && (s + t)[1..] == s[1..] + t
  {
  }

  lemma Assoc<T>(x: seq<T>, y: seq<T>, z: seq<T>)
    ensures x + (y + z) == (x + y) + z
  {
  }

  lemma ConsAppend<T>(h: T, s: seq<T>, t: seq<T>)
    ensures [h] + (s + t) == ([h] + s) + t
  {
  }

  /** Splitting space-joined words gives back the words. */
  lemma {:induction false} WordsJoin(ws: seq<string>)
    requires forall i | 0 <= i < |ws| :: ws[i] != [] && NoSpace(ws[i])
    ensures Words(Join(ws, ' ')) == ws
  {
    if |ws| == 1 {
      WordsOfWord(ws[0], []);
      assert ws[0] + [] == ws[0];
    } else if |ws| > 1 {
      var tail := Join(ws[1..], ' ');
      WordsJoin(ws[1..]);
      assert Join(ws, ' ') == ws[0] + ([' '] + tail);
      WordsOfWord(ws[0], [' '] + tail);
      assert ([' '] + tail)[1..] == tail;
    }
  }

  /** Collapsing whitespace twice is the same as collapsing it once. */
  lemma SqueezeIdempotent(s: string)
    ensures Squeeze(Squeeze(s)) == Squeeze(s)
  {
    WordsJoin(Words(s));
  }

  /** Position of the first occurrence of `c` in `s`. */
  function IndexOf(s: string, c: char): (i: nat)
    requires c in s
    ensures i < |s| && s[i] == c
    ensures forall k | 0 <= k < i :: s[k] != c
  {
    if s[0] == c then 0 else IndexOf(s[1..], c) + 1
  }

  /** Python's `sub in s`. */
  predicate Contains(s: string, sub: string) {
    exists i | 0 <= i <= |s| - |sub| :: OccursAt(s, sub, i)
  }

  predicate OccursAt(s: string, sub: string, i: nat) {
    i + |sub| <= |s| && s[i..i + |sub|] == sub
  }

  /** Length of the longest prefix of `s` whose characters all satisfy `p`. */
  function RunLength(s: string, p: char -> bool): (n: nat)
    ensures n <= |s|
    ensures forall i | 0 <= i < n :: p(s[i])
    ensures n < |s| ==> !p(s[n])
  {
    if s != [] && p(s[0]) then 1 + RunLength(s[1..], p) else 0
  }

  /** Index of the first character of `s` satisfying `p`. */
  function FirstIndex(s: string, p: char -> bool): (r: Option<nat>)
    ensures r.None? ==> forall i | 0 <= i < |s| :: !p(s[i])
    ensures r.Some? ==> r.value < |s| && p(s[r.value]) && forall i | 0 <= i < r.value :: !p(s[i])
  {
    if s == [] then None
    else if p(s[0]) then Some(0)
    else match FirstIndex(s[1..], p)
      case None => None
      case Some(i) => Some(i + 1)
  }

  /** Python's `re.search('[class]+', s).group()`: the leftmost maximal run of characters of
      the class, or `None` when no character of `s` is in it. */
  function FirstRun(s: string, p: char -> bool): (r: Option<string>)
    ensures r.None? <==> forall i | 0 <= i < |s| :: !p(s[i])
    ensures r.Some? ==> exists i, j ::
      && 0 <= i < j <= |s|
      && r.value == s[i..j]
      && (forall k | 0 <= k < i :: !p(s[k]))
      && (forall k | i <= k < j :: p(s[k]))
      && (j < |s| ==> !p(s[j]))
  {
    match FirstIndex(s, p)
    case None => None
    case Some(i) =>
      var n := RunLength(s[i..], p);
      assert forall k | i <= k < i + n :: p(s[k]) by {
        forall k | i <= k < i + n ensures p(s[k]) { assert s[k] == s[i..][k - i]; }
      }
      assert i + n < |s| ==> s[i + n] == s[i..][n];
      Some(s[i..i + n])
  }
}
